=== FILE: README.md ===
# Gestionnaire IUT: the decision and aggregation core

This Dafny project models the core logic of the IUT course-management application. The application is a Next.js site where staff plan teaching interventions, book rooms and teachers, and run reports.

Each part of the logic is written as a pure function over in-memory lists:

- **Planning gate** (`PlanningGate`): `POST /api/planning` admits a new slot.
  - It first checks the required fields.
  - It then looks for room conflicts, finds the intervention's teacher, and looks for teacher conflicts.
  - The slot is inserted only when both conflict searches come back empty.
  - The conflict filter is the one the route sends to the store: `debut <= fin_new OR fin >= debut_new`.
- **Intervention creation** (`InterventionCreation`): the admin server action `createIntervention`. It is a required-field gate, then three writes: the intervention, a "Créée" history row, and an optional planning row. It also covers the list of academic years the form offers.
- **Reports**:
  - `ServiceReport` models `GET /api/rapports/service`: per-teacher totals for one academic year, the current status, hours per course type, and the differential against the status minimum.
  - `AllocationReport` models `GET /api/rapports/repartition`: foreseen, attributed and remaining hours for each hour allocation, walked department by parcours by maquette by course.
  - `Staff` holds the "current status" rule that the service report and the teachers page share.
- **Utilities** (`Utils`): `filterBySearchTerm`, `truncateText`, `formatDuration` and `formatRelativeTime`.
- **Form** (`FormModel`): the generic form component's `validate`, `handleChange` and `handleSubmit`.
- **Data table** (`DataTable`, `Sorting`):
  - the sort toggle;
  - searchable columns and the search filter;
  - the comparator, which places null values;
  - the default sort by the key field;
  - the "no results" flag.
- **Pages**:
  - `Users`: the user administration page's search, sort, status toggle, delete, new user and save.
  - `Departments`: the department administration page's teacher counts, statistics refresh, delete and save.
  - `Teachers`: the teachers page's search with the department selector, and the status column.
  - `InterventionList`: the interventions page's list of years, default year and three selectors.
  - `PlanningList`: the planning page's teacher, room and inclusive date-range filter.
  - `Activities`: the recent-activities route's mapping from a history status to a text and a link.
- **Shared JavaScript semantics** (`Basics`):
  - `Option` and JavaScript values: `null`, `undefined`, numbers, strings, and their truthiness;
  - `String(x)`, `toLowerCase`, `trim` and `Number(x)`;
  - code-point string order;
  - `Array.prototype.filter`, `map` and `reduce` as `Filter`, `Map` and `Sum`.

Modelling choices:

- Store calls that can fail are boolean inputs. A form or request field that JavaScript treats as falsy is `None`, or 0 for an id.
- Times of day are minutes since midnight and dates are day numbers. Hours in the reports are `real`, with exact arithmetic.
- `Array.prototype.sort` is a stable insertion sort (`Sorting.SortBy`).
- `localeCompare` stands for a total order on strings. The model uses code-point order (`Basics.StrCmp`).

Points where the code is easy to misread:

- **Conflict test.** The room and teacher filters are inclusive and disjunctive: a slot clashes unless it starts after the candidate ends and also ends before the candidate starts. Every well-formed slot of the same room and day is therefore flagged, and back-to-back bookings are refused.
- **Validity.** Neither planning route checks that a slot starts before it ends.
- **Hour quota.** Nothing enforces `heures_max`: it is only copied into the service report.

## Model

| member | source | states |
|---|---|---|
| PlanningGate.Status | src/app/api/planning/route.ts:43-120 | a creation is answered 201, a client error 400, anything else 500 |
| PlanningGate.RoomConflicts | src/app/api/planning/route.ts:52-57 | the room query returns, in order, exactly the slots of that room and date that pass the inclusive disjunctive time filter |
| PlanningGate.TeacherOf | src/app/api/planning/route.ts:72-81 | `.single()` yields a teacher exactly when one intervention row has the id, and that row's teacher |
| PlanningGate.TeacherConflicts | src/app/api/planning/route.ts:83-88 | the teacher query returns exactly the same-date slots whose intervention belongs to the teacher and that pass the time filter |
| PlanningGate.Post | src/app/api/planning/route.ts:43-114 | a missing field gives 400 with the store untouched; room conflicts give the room message before any teacher lookup; an unknown intervention gives 500; each failing query or insert gives 500 once the checks before it have passed; with the room free, any teacher conflict gives the teacher message, and that message only then; 201 exactly when every query succeeds and both conflict lists are empty; only a 201 changes the store, by appending exactly the requested slot |
| PlanningGate.TimeClashIff | src/app/api/planning/route.ts:57 | the filter rejects a slot only when it starts after the candidate ends and also ends before the candidate starts |
| PlanningGate.WellFormedAlwaysClashes | src/app/api/planning/route.ts:57 | for a well-formed slot and candidate the filter always holds |
| PlanningGate.OverlapOrTouchIsClash | src/app/api/planning/route.ts:57 | every half-open overlap and every back-to-back booking is flagged |
| PlanningGate.SameRoomSlotBlocks | src/app/api/planning/route.ts:52-69 | any well-formed slot in the same room and day refuses every well-formed request with the room message and leaves the store as it was |
| PlanningGate.PostPreservesRoomExclusivity | src/app/api/planning/route.ts:52-114 | if no room holds two well-formed slots on one day, the same holds after any request |
| PlanningGate.PostPreservesTeacherExclusivity | src/app/api/planning/route.ts:71-114 | if no teacher has two well-formed slots on one day, the same holds after any request |
| PlanningGate.BackToBackIsRefused | src/app/api/planning/route.ts:57-69 | 9:00-10:00 in a room refuses 10:00-11:00 in that room |
| PlanningGate.SameTeacherOtherRoomIsRefused | src/app/api/planning/route.ts:83-100 | a teacher booked at 8:00-9:00 is refused for 14:00-15:00 in another room the same day |
| InterventionCreation.NewIntervention | src/app/admin/interventions/nouveau/page.tsx:36-42 | the stored row copies the form's ids, hours and year; a falsy group becomes null |
| InterventionCreation.Writes | src/app/admin/interventions/nouveau/page.tsx:32-78 | nothing is written when the intervention insert fails; otherwise the intervention is appended, then the 'Créée' history row unless its insert fails, then the planning row exactly when date, debut, fin and salle_id are all present and its insert succeeds |
| InterventionCreation.CreateIntervention | src/app/admin/interventions/nouveau/page.tsx:11-86 | as written: a missing field rejects before any write; after the gate the action always ends with the generic creation error, whatever was written |
| InterventionCreation.CreationReportsFailureAfterWriting | src/app/admin/interventions/nouveau/page.tsx:80-85 | as written, the redirect is never reached: a successful creation is reported as failed although its intervention was stored |
| InterventionCreation.CreateInterventionFixed | src/app/admin/interventions/nouveau/page.tsx:11-86 | with the redirect after the `try`: the redirect to the list happens exactly when the gate passes and the intervention insert succeeds; the error is given exactly when that insert fails, and then nothing is written |
| InterventionCreation.ZeroHoursRejected | src/app/admin/interventions/nouveau/page.tsx:18-30 | zero hours are refused like missing hours, with the store untouched |
| InterventionCreation.HistoryFailureNotFatal | src/app/admin/interventions/nouveau/page.tsx:51-78 | a failing history insert still redirects, and the planning row is written |
| InterventionCreation.CreationBypassesGate | src/app/admin/interventions/nouveau/page.tsx:64-78 | a planning row that the conflict gate would refuse with the room message is still written by the creation |
| InterventionCreation.YearLabelRoundTrip | src/app/admin/interventions/nouveau/page.tsx:147-149 | the label `"<y>-<y+1>"` reads back as the year `y` |
| InterventionCreation.AcademicYears | src/app/admin/interventions/nouveau/page.tsx:143-150 | exactly three labels: the current academic year and the next two |
| InterventionCreation.AcademicYearsDistinct | src/app/admin/interventions/nouveau/page.tsx:143-150 | the three labels read back as three consecutive years and are pairwise different |
| Staff.CurrentStatus | src/app/api/rapports/service/route.ts:89-90 | no current status exactly when every assignment is closed; otherwise the status of the first open assignment |
| Staff.CurrentStatusIsFirstOpen | src/app/enseignants/page.tsx:87 | closed assignments before the first open one and anything after it do not change the answer |
| ServiceReport.AddHours | src/app/api/rapports/service/route.ts:93-99 | one reduce step keeps keys distinct and in first-seen order: it adds the hours to the bucket of the type, or opens a new last bucket, and changes nothing else |
| ServiceReport.AddHoursKeys | src/app/api/rapports/service/route.ts:93-99 | a step adds at most the type's key |
| ServiceReport.AddHoursSum | src/app/api/rapports/service/route.ts:93-99 | a step adds exactly the hours to the bucket total |
| ServiceReport.HoursByType | src/app/api/rapports/service/route.ts:93-100 | the fold never repeats a key |
| ServiceReport.HoursByTypeKeysAndTotal | src/app/api/rapports/service/route.ts:83-100 | one bucket per distinct course type, and the buckets add up to the total hours |
| ServiceReport.HoursByTypeKeys | src/app/api/rapports/service/route.ts:93-100 | the keys are exactly the course types of the interventions |
| ServiceReport.HoursByTypeTotal | src/app/api/rapports/service/route.ts:83-100 | the buckets sum to the same value as the `total_heures` reduce |
| ServiceReport.HoursByTypePerType | src/app/api/rapports/service/route.ts:93-100 | each bucket holds the hours of exactly the interventions of its type |
| ServiceReport.UnbucketedTypeHasNoHours | src/app/api/rapports/service/route.ts:93-100 | a type without a bucket has no hours |
| ServiceReport.TeacherEntry | src/app/api/rapports/service/route.ts:77-137 | the differential is total minus the current status's `heures_min`, or 0 without a current status; `heures_max` is only copied |
| ServiceReport.TeacherEntryListing | src/app/api/rapports/service/route.ts:79-136 | the listing is, in order and one for one, the teacher's interventions of the requested year; `total_heures` is the sum of their hours |
| ServiceReport.TeacherEntryBuckets | src/app/api/rapports/service/route.ts:93-124 | `heures_par_type` has one key per listed course type, each bucket holds that type's hours, and the buckets add up to `total_heures` |
| ServiceReport.ListedTypes | src/app/api/rapports/service/route.ts:125-136 | the course types of the listed interventions are the types of the year's interventions |
| ServiceReport.Selected | src/app/api/rapports/service/route.ts:58-66 | the teacher query keeps, in order, exactly the teachers that match both optional filters |
| ServiceReport.ServiceRoute | src/app/api/rapports/service/route.ts:13-140 | a missing year gives 400; a failing query gives 500; otherwise one entry per selected teacher, in order, each entry being that teacher's report for the requested year |
| ServiceReport.RouteEntriesBalanced | src/app/api/rapports/service/route.ts:77-137 | in a report, each entry's total is the hours of its teacher's interventions of the year, and its per-type buckets add up to that total |
| ServiceReport.OtherYearsIgnored | src/app/api/rapports/service/route.ts:79-80 | interventions of other years change nothing in an entry |
| AllocationReport.Stats | src/app/api/rapports/repartition/route.ts:102-120 | foreseen hours are hours times groups; attributed plus remaining make up the foreseen hours, with no clamping; one teacher line per intervention, with its hours |
| AllocationReport.TeachersMakeUpAttributed | src/app/api/rapports/repartition/route.ts:104-119 | the teacher lines add up to the attributed hours |
| AllocationReport.AssigningLowersRemaining | src/app/api/rapports/repartition/route.ts:103-113 | one more assignment leaves the foreseen hours and lowers the remaining hours by exactly its hours, possibly below zero |
| AllocationReport.CoursStats | src/app/api/rapports/repartition/route.ts:100-129 | one output course per course, with one statistic per allocation, in order |
| AllocationReport.MaquetteReportOf | src/app/api/rapports/repartition/route.ts:73-135 | a maquette fails exactly when its course query fails; otherwise it keeps its id and name and reports each of its courses in order |
| AllocationReport.ParcoursReportOf | src/app/api/rapports/repartition/route.ts:58-143 | a parcours fails exactly when its maquette query fails or one of its maquettes of the year fails; otherwise it reports exactly those maquettes, in order |
| AllocationReport.DepartementReportOf | src/app/api/rapports/repartition/route.ts:38-150 | a department fails exactly when its parcours query fails or one of its selected parcours fails; otherwise it reports exactly those parcours, in order |
| AllocationReport.RepartitionRoute | src/app/api/rapports/repartition/route.ts:13-152 | a missing year gives 400 and only then; with a year, 500 exactly when the department query or some query of the walk fails; a report lists the selected departments in store order, each as its own department report |
| AllocationReport.ReportedMaquetteCourses | src/app/api/rapports/repartition/route.ts:100-135 | every maquette in a report is of the requested year, and its courses are the reports of that maquette's courses |
| AllocationReport.NoFaultReports | src/app/api/rapports/repartition/route.ts:23-152 | with a year and no failing query, the route always reports |
| AllocationReport.VisitedFaultFails | src/app/api/rapports/repartition/route.ts:73-97 | a failing course query under any maquette the walk visits makes the whole route answer 500 |
| AllocationReport.OtherYearMaquettesIgnored | src/app/api/rapports/repartition/route.ts:59-63 | maquettes of other years are never visited |
| Utils.FilterBySearchTerm | src/lib/utils.ts:139-154 | an empty term returns the items unchanged; otherwise, in order, exactly the items with a truthy listed property whose lower-cased text contains the lower-cased trimmed term |
| Utils.SearchIgnoresCase | src/lib/utils.ts:146 | lower-casing the term first changes nothing |
| Utils.SearchIgnoresLeadingSpace | src/lib/utils.ts:146 | a leading space before a non-empty term changes nothing |
| Utils.BlankTermKeepsTruthyItems | src/lib/utils.ts:144-151 | a term of white space keeps exactly the items with some truthy listed property |
| Utils.MorePropertiesFindMore | src/lib/utils.ts:148-153 | searching more properties never loses an item |
| Utils.TruncateText | src/lib/utils.ts:99-102 | text within the limit is returned unchanged; longer text keeps its first `maxLength` characters (none for a negative limit) followed by `...` |
| Utils.TruncateIdempotent | src/lib/utils.ts:99-102 | truncating twice with one limit is truncating once |
| Utils.JsRem | src/lib/utils.ts:128 | JavaScript `%`: the remainder has the sign of the dividend |
| Utils.Pad2 | src/lib/utils.ts:129 | `padStart(2, '0')` keeps the text at the end and fills to two characters with zeros |
| Utils.MinuteTextDigits | src/lib/utils.ts:129 | the minute part is two digits, worth the remainder when it is positive and 0 otherwise |
| Utils.FormatDuration | src/lib/utils.ts:126-130 | the text ends in `h` and two digits; a negative duration always shows `00` minutes |
| Utils.ParseDuration | src/lib/utils.ts:126-130 | reading a `XhMM` text back gives a non-negative number of minutes |
| Utils.DurationRoundTrip | src/lib/utils.ts:126-130 | every non-negative duration reads back exactly from its text |
| Utils.NegativeHalfHour | src/lib/utils.ts:127-129 | -30 minutes is written `-1h00` |
| Utils.RenderStart | src/lib/utils.ts:25-55 | every count label starts with "Il y a " and differs from "À l'instant" |
| Utils.ZeroMonths | src/lib/utils.ts:44-52 | as written, 28 days ago reads "Il y a 0 mois" |
| Utils.ZeroYears | src/lib/utils.ts:49-55 | as written, 360 days ago reads "Il y a 0 an" |
| Utils.RelativeTime | src/lib/utils.ts:23-55 | each unit covers one band of elapsed seconds (below 60 s just now, then minutes, hours, days, weeks, months from day 28, years from day 360), counts are at least 1 and stay below the next unit |
| Utils.FormatRelativeTime | src/lib/utils.ts:20-56 | "À l'instant" exactly when less than a minute has elapsed, including negative elapsed times |
| Utils.ZeroCountBands | src/lib/utils.ts:44-55 | the code as written counts zero exactly from day 28 to day 29 and from day 360 to day 364 |
| Utils.CorrectionOnlyTouchesZeroCounts | src/lib/utils.ts:44-55 | the corrected unit choice agrees with the code wherever the code's count is not 0 |
| Utils.RelativeTimeMonotone | src/lib/utils.ts:23-55 | a longer elapsed time never gets a younger label |
| Utils.RenderInjective | src/lib/utils.ts:31-55 | two different elapsed times never share a label, plural rules included |
| FormModel.IsEmailMatchesPattern | src/components/ui/form/Form.tsx:85-86 | the e-mail check accepts exactly the texts matching `^[^\s@]+@[^\s@]+\.[^\s@]+$` |
| FormModel.EmailCheckSound | src/components/ui/form/Form.tsx:85-86 | every accepted text matches the pattern |
| FormModel.EmailCheckComplete | src/components/ui/form/Form.tsx:85-86 | every text matching the pattern is accepted |
| FormModel.FieldError | src/components/ui/form/Form.tsx:69-89 | a required falsy field reads "Ce champ est obligatoire"; a number below `min` reads "La valeur minimale est <min>" unless above `max` too; above `max` reads "La valeur maximale est <max>"; a truthy malformed e-mail reads "Adresse email invalide"; no error exactly when no check fires |
| FormModel.Validate | src/components/ui/form/Form.tsx:66-94 | every key of the error map is a field name, and every field with an error has its name in the map |
| FormModel.ValidateKeepsLastMessage | src/components/ui/form/Form.tsx:70-88 | for a name, the map keeps the message of the last field of that name that has one |
| FormModel.ValidateKeysHaveErrors | src/components/ui/form/Form.tsx:66-90 | every key comes from a field of that name that has an error |
| FormModel.ValidIffNoFieldError | src/components/ui/form/Form.tsx:92-93 | `validate()` is true exactly when no field has an error |
| FormModel.NotANumberPassesRange | src/components/ui/form/Form.tsx:74-81 | an optional number field whose text is not a number passes both range checks |
| FormModel.InputValue | src/components/ui/form/Form.tsx:44-49 | number inputs store `""` or a number (possibly NaN); other inputs store the text |
| FormModel.HandleChange | src/components/ui/form/Form.tsx:43-64 | only the edited field's value changes; its error is cleared; every other error stays as it was |
| FormModel.ChangeOnlyTouchesField | src/components/ui/form/Form.tsx:51-54 | editing one field leaves every other field's value |
| FormModel.HandleSubmit | src/components/ui/form/Form.tsx:96-116 | the callback gets the form data exactly when validation passes; a failing validation stores its non-empty error map; a throwing callback leaves only the form-level error |
| FormModel.RequiredEmptyBlocksSubmit | src/components/ui/form/Form.tsx:99-101 | an empty required field never reaches the callback and is named in the errors |
| Sorting.Flip | src/components/ui/table/DataTable.tsx:71 | the direction always changes |
| Sorting.HandleSort | src/components/ui/table/DataTable.tsx:69-76 | the clicked column becomes the sort column; the same column flips the direction, another one sorts ascending |
| Sorting.HandleSortTwice | src/components/ui/table/DataTable.tsx:69-72 | two clicks on the sorted column restore the state |
| Sorting.ClickAwayResets | src/components/ui/table/DataTable.tsx:69-76 | leaving a column and coming back sorts it ascending |
| Sorting.Insert | src/components/ui/table/DataTable.tsx:89 | one insertion step adds exactly the element |
| Sorting.SortBy | src/components/ui/table/DataTable.tsx:89 | sorting rearranges the rows without adding or losing any |
| Sorting.InsertSorted | src/components/ui/table/DataTable.tsx:89 | inserting into an ordered list with a consistent comparator keeps it ordered |
| Sorting.SortBySorted | src/components/ui/table/DataTable.tsx:89-109 | with a consistent comparator the result is in comparator order |
| Sorting.SortByKeepsOrder | src/components/ui/table/DataTable.tsx:90 | a comparator that never moves an element forward keeps the order |
| Sorting.InsertPartitioned | src/components/ui/table/DataTable.tsx:95-96 | an insertion step keeps the preferred elements first |
| Sorting.SortByPartitions | src/components/ui/table/DataTable.tsx:95-96 | a comparator that ranks some elements first leaves them all first after sorting |
| DataTable.SearchableColumns | src/components/ui/table/DataTable.tsx:79-81 | a key is searched exactly when some column has it and its `searchable` is not `false` |
| DataTable.DescReversesAsc | src/components/ui/table/DataTable.tsx:95-108 | for every pair of rows, descending compares as the negation of ascending |
| DataTable.CompareAntisymmetric | src/components/ui/table/DataTable.tsx:99-108 | with both values present, swapping the rows negates the comparison |
| DataTable.NullPairInconsistent | src/components/ui/table/DataTable.tsx:95-96 | two rows both lacking the value each claim to come after the other |
| DataTable.MixedColumnIntransitive | src/components/ui/table/DataTable.tsx:99-108 | for any rows holding "10", "9" and the number 9 in the sorted column, "10" sorts before "9", "9" ties with 9, and "10" sorts after 9: the comparator is not transitive |
| DataTable.KeyCompareIsAscending | src/components/ui/table/DataTable.tsx:112-128 | the default comparator is the ascending comparator of the key column |
| DataTable.View | src/components/ui/table/DataTable.tsx:84-143 | the rows kept are a subsequence of the data (all of it for an empty term); the displayed rows rearrange them; "no results" exactly when a term is typed and nothing is kept |
| DataTable.NoResultsIffNothingMatches | src/components/ui/table/DataTable.tsx:143 | "no results" exactly when a term is typed and no row matches it in any searchable column |
| DataTable.UnsortedKeepsOrder | src/components/ui/table/DataTable.tsx:89-90 | without a sort column or key field the rows keep the data order |
| DataTable.DefaultSortByKey | src/components/ui/table/DataTable.tsx:112-128 | without a sort column the display order is the key-field sort alone |
| DataTable.NullsPlacement | src/components/ui/table/DataTable.tsx:95-96 | rows with a value come before those without when ascending, and after them when descending |
| DataTable.DefaultSortKeysFirst | src/components/ui/table/DataTable.tsx:117-118 | the default sort puts the rows without a key last |
| DataTable.CompareConsistent | src/components/ui/table/DataTable.tsx:89-109 | on rows that all have the sort value the comparator is consistent |
| DataTable.KeyCompareConsistent | src/components/ui/table/DataTable.tsx:113-127 | on rows that all have a key the default comparator is consistent |
| DataTable.SortedNumbers | src/components/ui/table/DataTable.tsx:106-108 | comparator order on a numeric column is increasing when ascending and decreasing when descending |
| DataTable.SortedWhenAllPresent | src/components/ui/table/DataTable.tsx:89-109 | when every kept row has the sort value, neighbours appear in comparator order |
| DataTable.NumericColumnOrdered | src/components/ui/table/DataTable.tsx:106-108 | sorting a numeric column shows its numbers increasing when ascending and decreasing when descending |
| DataTable.ColumnSortNumeric | src/components/ui/table/DataTable.tsx:106-108 | the same, for any list of rows |
| DataTable.DefaultSortAscending | src/components/ui/table/DataTable.tsx:112-128 | without a sort column, numeric keys come in increasing order |
| DataTable.KeySortNumeric | src/components/ui/table/DataTable.tsx:124-126 | the default sort orders numeric keys increasingly |
| DataTable.KeyOrderIsAscending | src/components/ui/table/DataTable.tsx:112-128 | rows in default order are in ascending key-column order |
| Users.FilteredUsers | src/app/admin/utilisateurs/page.tsx:84-89 | in order, exactly the users whose name, e-mail, department or role contains the term, case ignored |
| Users.EmptySearchShowsAll | src/app/admin/utilisateurs/page.tsx:84-89 | an empty search shows every user in order |
| Users.SortedUsers | src/app/admin/utilisateurs/page.tsx:92-102 | the sorted list rearranges the matching users |
| Users.FieldLessAsymmetric | src/app/admin/utilisateurs/page.tsx:99-100 | `<` on a field never holds both ways |
| Users.UserCompareAntisymmetric | src/app/admin/utilisateurs/page.tsx:92-102 | swapping two users negates the comparison, for every field and direction |
| Users.UserDescReversesAsc | src/app/admin/utilisateurs/page.tsx:93-101 | descending is ascending reversed |
| Users.SortedUsersInOrder | src/app/admin/utilisateurs/page.tsx:92-102 | the shown list is in the order of the sort state |
| Users.InitialOrderById | src/app/admin/utilisateurs/page.tsx:80-102 | in the initial state, users come in increasing id order |
| Users.StatusSortGroups | src/app/admin/utilisateurs/page.tsx:93-97 | sorting by status puts active users first when ascending and inactive ones first when descending |
| Users.ToggleUserStatus | src/app/admin/utilisateurs/page.tsx:113-117 | same length; each user keeps every field, and only users with the id have `isActive` flipped |
| Users.ToggleTwice | src/app/admin/utilisateurs/page.tsx:113-117 | two toggles of one id give the list back |
| Users.DeleteUser | src/app/admin/utilisateurs/page.tsx:119-123 | an unconfirmed delete changes nothing; a confirmed one keeps, in order, exactly the users with another id |
| Users.DeleteRemovesExactly | src/app/admin/utilisateurs/page.tsx:121 | a confirmed delete removes as many users as carry the id |
| Users.MaxId | src/app/admin/utilisateurs/page.tsx:138 | the largest id of the list, which some user has |
| Users.NewUser | src/app/admin/utilisateurs/page.tsx:135-150 | the placeholder is appended; its id is 1 for an empty list, otherwise one more than an existing id and larger than every id; it is "Nouvel Utilisateur", "nouveau@iut.fr", a plain user of "Non assigné", active, last seen "Jamais" |
| Users.SaveUser | src/app/admin/utilisateurs/page.tsx:152-159 | without a selection nothing changes; otherwise users with the selected id are replaced by it and the others kept, same length |
| Users.SaveIdempotent | src/app/admin/utilisateurs/page.tsx:155-157 | saving twice is saving once |
| Users.NewEditSave | src/app/admin/utilisateurs/page.tsx:135-159 | creating, editing without changing the id, and saving gives the old list plus the edited user |
| Departments.TeacherCount | src/app/admin/departements/page.tsx:72 | the number of teachers attached to the department |
| Departments.WithCounts | src/app/admin/departements/page.tsx:71-77 | same order; each department only gains its teacher count |
| Departments.CountsAddUp | src/app/admin/departements/page.tsx:71-77 | with distinct ids, the counts add up to the number of teachers attached to a listed department |
| Departments.TotalTeachers | src/app/admin/departements/page.tsx:104-105 | the count of the first "Enseignants" statistic, 0 when there is none |
| Departments.RefreshStats | src/app/admin/departements/page.tsx:104-121 | a failed call or a total of at most 0 leaves the list; otherwise each department gets its count and 15 students per teacher |
| Departments.WithStudents | src/app/admin/departements/page.tsx:110-119 | each department gets its teacher count and 15 times as many students, nothing else changes |
| Departments.RefreshAgreesWithLoad | src/app/admin/departements/page.tsx:71-121 | a refresh shows the load's counts and a second refresh changes nothing |
| Departments.DeleteDepartment | src/app/admin/departements/page.tsx:156-174 | only a confirmed, successful delete drops exactly the departments with the id, keeping the order |
| Departments.SaveDepartment | src/app/admin/departements/page.tsx:176-230 | nothing without a selection or an answer; id 0 appends the answered department; otherwise the answer replaces the departments with its id |
| Basics.ReplaceWhere | src/app/admin/departements/page.tsx:229 | the `map` that swaps in the answer: same length, each matching element becomes the new record, every other stays in place |
| Departments.UpdateShowsAnswer | src/app/admin/departements/page.tsx:228-229 | an update shows the answer in place and the others as they were |
| Departments.CreateThenDelete | src/app/admin/departements/page.tsx:168-227 | creating a department with a fresh id and deleting it gives the list back |
| Teachers.FilteredTeachers | src/app/enseignants/page.tsx:54-66 | in order, exactly the teachers matching both the search and the department selector |
| Teachers.NoFilterShowsAll | src/app/enseignants/page.tsx:55-63 | no term and no department show every teacher in order |
| Teachers.IntToStringInjective | src/app/enseignants/page.tsx:63 | different ids have different decimal texts |
| Teachers.DepartementSelection | src/app/enseignants/page.tsx:61-65 | selecting department `d` lists exactly the matching teachers of `d`; teachers without a department never match |
| Teachers.StatusColumn | src/app/enseignants/page.tsx:86-101 | a dash exactly when every assignment is closed; otherwise the current status's name |
| Teachers.BadgeColours | src/app/enseignants/page.tsx:91-95 | Titulaire exactly gives green, Vacataire blue, any other name yellow; the first open assignment decides |
| Teachers.DepartementColumn | src/app/enseignants/page.tsx:81 | the department name, or "-" when there is no department or its name is empty |
| InterventionList.InsertYear | src/app/interventions/page.tsx:66 | inserting a year keeps the list strictly descending and adds only that year |
| InterventionList.UniqueYears | src/app/interventions/page.tsx:66 | strictly descending, without repeats, and containing exactly the years present |
| InterventionList.DescendingUnique | src/app/interventions/page.tsx:66 | a strictly descending list is determined by its elements, so the year list is the only such list |
| InterventionList.DefaultYear | src/app/interventions/page.tsx:69-71 | the newest year when none is selected and there is one; otherwise the selection stays |
| InterventionList.FilteredInterventions | src/app/interventions/page.tsx:83-97 | in order, exactly the interventions that pass all three selectors, each empty selector matching everything |
| InterventionList.FilterIsConjunction | src/app/interventions/page.tsx:83-97 | applying the three selectors one after the other gives the same list |
| InterventionList.NoSelectionShowsAll | src/app/interventions/page.tsx:84-94 | with every selector empty the whole list shows |
| InterventionList.DefaultShowsNewestYear | src/app/interventions/page.tsx:66-97 | after loading, only interventions of the newest year show |
| PlanningList.FilteredPlannings | src/app/planning/page.tsx:75-97 | in order, exactly the slots whose teacher and room match the non-empty selectors and whose date lies in the inclusive range |
| PlanningList.NothingSelectedShowsAll | src/app/planning/page.tsx:75-96 | with nothing selected every slot shows in order |
| PlanningList.TeacherSelection | src/app/planning/page.tsx:77-79 | selecting a teacher drops slots without a teacher and those of other teachers |
| PlanningList.SingleDay | src/app/planning/page.tsx:87-94 | a one-day range shows exactly that day's slots, since both bounds are inclusive |
| PlanningList.EmptyRange | src/app/planning/page.tsx:87-94 | a range ending before it starts shows nothing |
| PlanningList.NarrowerRangeShowsFewer | src/app/planning/page.tsx:87-94 | narrowing the dates gives a subsequence of what was shown |
| Activities.FormatActivities | src/app/api/dashboard/recent-activities/route.ts:36-69 | one activity per row in order, with its id, the text its status selects (`Text`), the link of its intervention, and "À l'instant" exactly for rows under a minute old; each time label is the one the route shows, except where the route counts zero months or years |
| Activities.Text | src/app/api/dashboard/recent-activities/route.ts:41-60 | the status switch never yields an empty text: a comment is shown only when non-empty, and the fallback names the course |
| Activities.StatusCaseIgnored | src/app/api/dashboard/recent-activities/route.ts:41 | the status is matched whatever its case |
| Activities.CreationStatusRecognised | src/app/api/dashboard/recent-activities/route.ts:41-45 | the "Créée" status written by the creation action reads as a creation |
| Activities.LinkIgnoresStatus | src/app/api/dashboard/recent-activities/route.ts:44-60 | the link depends on neither the status nor the comment |
| Activities.KnownStatusNamesCourse | src/app/api/dashboard/recent-activities/route.ts:42-57 | a known status ignores the comment and names the course code |
| Activities.OtherStatusText | src/app/api/dashboard/recent-activities/route.ts:58-60 | any other status shows a non-empty comment, or else names the course code |
| Activities.KnownStatusesDistinct | src/app/api/dashboard/recent-activities/route.ts:42-57 | for one course the four known statuses give four different texts |
| Basics.Trim | src/lib/utils.ts:146 | `trim` returns a slice of the text that neither starts nor ends with white space, empty exactly when the text is all white space |
| Basics.Lower | src/lib/utils.ts:146 | `toLowerCase` keeps the length and lowers each upper-case letter |
| Basics.NumberOf | src/components/ui/form/Form.tsx:75 | `Number(v)`: a number is itself, null is 0, undefined and NaN are NaN |
| Basics.NumberOfIntText | src/app/enseignants/page.tsx:63 | the decimal text of an integer reads back as that integer |
| Basics.NatToStringRoundTrip | src/lib/utils.ts:129 | the digits of a natural number denote it |
| Basics.StrLessTransitive | src/app/interventions/page.tsx:66 | the default sort's code-point order is transitive |
| Basics.StrLessTotal | src/app/interventions/page.tsx:66 | of two different strings one comes first |
| Basics.StrCmpAntisymmetric | src/components/ui/table/DataTable.tsx:100-102 | swapping two strings negates their comparison |
| Basics.Filter | src/lib/utils.ts:148 | `filter` keeps, in order, exactly the elements that pass the test |

## Findings

| source | as written | input that shows it | evidently intended | confidence | as-written member | corrected member |
|---|---|---|---|---|---|---|
| src/lib/utils.ts:44-55 | months are counted as `floor(days / 30)` once the week count reaches 4, and years as `floor(days / 365)` once the month count reaches 12 | an elapsed time of 28 or 29 days gives "Il y a 0 mois"; 360 to 364 days gives "Il y a 0 an" | a label never counts zero units: at least "1 mois" and "1 an" | not executed | Utils.ZeroMonths | Utils.RelativeTime |
| src/app/admin/interventions/nouveau/page.tsx:80-85 | `redirect()` is called inside the `try`, and the `catch` turns every thrown value into the generic creation error | any valid form whose intervention insert succeeds: the redirect signal is caught, and the action fails after the rows were written | redirect to the list after a successful creation, and report the error only when the intervention insert fails | not executed | InterventionCreation.CreationReportsFailureAfterWriting | InterventionCreation.CreateInterventionFixed |

The rest of the model uses the corrected definitions: `Activities` builds its time labels with `Utils.FormatRelativeTime`, and `Activities.FormatActivities` states that they agree with the route's labels outside the zero counts. The creation lemmas other than `CreationReportsFailureAfterWriting` speak of `CreateInterventionFixed`.

## Left out

- I/O is not modelled: the Supabase and MySQL clients, `fetch`, the framework (React state, effects, `redirect`, `NextResponse`), `window.confirm` and `alert`. Their outcomes are inputs: a failure flag, the confirmation answer, the answered record. Nothing else is modelled of them.
- The check-then-insert race in `POST /api/planning` is out of scope: it is a concurrency gap, and the model is sequential.
- Rendering is not modelled: JSX, class names, `toUpperCase` in the name column, loading and empty states. Status colours are an enumeration rather than CSS classes.
- DataTable.View: the component shows its empty state before anything else when the data is empty. The model computes the "no results" flag regardless.
- DataTable.Compare: two rows that both lack the sort value make the comparator inconsistent (`NullPairInconsistent`). `Array.prototype.sort` then leaves the order up to the engine. The model sorts with a stable insertion sort, and the ordering lemmas assume rows that all have the value, or state only the null partition.
- DataTable.Compare: `localeCompare` is stood in by code-point order, because locale collation is not visible.
- DataTable.SortedWhenAllPresent: on a column that mixes texts and numbers, the comparator is antisymmetric but not transitive (`MixedColumnIntransitive`), and so is `CompareConsistent`'s notion of consistency there. `Array.prototype.sort` then leaves the order up to the engine. The model's insertion sort still puts neighbours in comparator order, and the numeric ordering lemmas cover homogeneous numeric columns only.
- Utils.TruncateText: lengths and cuts count Unicode code points, whereas JavaScript counts UTF-16 code units. Text outside the Basic Multilingual Plane is cut differently: `"😀😀"` with limit 2 stays whole here, while JavaScript gives `"😀..."`.
- Basics.StrLess: it compares code points, whereas JavaScript `<` compares UTF-16 code units; `Basics.StrCmp` inherits this. The two orders differ when a character outside the Basic Multilingual Plane meets one from U+E000 to U+FFFF.
- Basics.Lower: it lowers only the upper-case letters of Basic Latin and Latin-1, which covers every status and search text here. Other scripts' case mappings are not modelled.
- Activities.FormatActivities: the time label comes from the corrected formatter. From day 28 to day 29 it reads "Il y a 1 mois" where the route shows "Il y a 0 mois", and from day 360 to day 364 it reads "Il y a 1 an" where the route shows "Il y a 0 an" (`Utils.ZeroCountBands`). Every other label is the route's.
- FormModel.InputValue: numbers are integers, so a number input holding a decimal text such as "2.5" stores NaN here, where JavaScript stores 2.5.
- FormModel.FieldError: because a decimal entry is NaN (see `InputValue`), a required number field holding "2.5" gets "Ce champ est obligatoire" here and no error in JavaScript. With a minimum of 3, "2.5" passes here, while JavaScript gives "La valeur minimale est 3". The messages are as stated for integer entries.
- Basics.NumberOf: texts are read as optionally signed decimal integers. Decimal points, exponents, hexadecimal and `Infinity` are not modelled, and neither is floating-point rounding.
- Dates are day numbers. `new Date(text)` parsing and invalid dates are not modelled.
- `formatRelativeTime` takes the elapsed milliseconds between the date and now as its input, in place of reading the clock.
- ServiceReport.TeacherEntry: `heures_par_type` is an object whose key order follows JavaScript property ordering. The model keeps first-seen order, which agrees for non-numeric type names only.
- ServiceReport.TeacherEntry: a teacher without a department, a course without a type, or a course without a maquette or parcours (`i.cours.maquette.nom`, `i.cours.maquette.parcours.nom`) makes the route throw and answer 500. The model assumes those joins are present.
- AllocationReport.Stats: an allocation without a course type (`a.type.nom`) or an intervention without a teacher (`i.enseignant.id`) makes the route throw and answer 500. The model assumes those joins are present.
- Hours and the 15-students ratio use exact `real` and integer arithmetic. `Math.round(count * 15)` is exact for integer counts.
- The `limit` query parameter of the recent-activities route and the SQL ordering by date only select which history rows arrive. The model takes the rows as given.
- The duplicate of the activity mapping on the home page (`src/app/page.tsx`) is the same function and is not modelled twice.
- `formatDate`, `formatNumber`, `getRandomColor`, `generateId` and `cn` are left out: they are locale libraries, randomness and a styling helper.
- An hour quota against `heures_max` and a start-before-end check are not modelled, because the code has neither.
- PlanningGate.NewSlot: the route inserts the whole request body (`.insert(newPlanning)`), so any extra field the client sends is passed to the store too; the model inserts the five planning columns only.
- Activities.Text: a history row whose `statut` is `null` makes `item.statut.toLowerCase()` throw, and the route then answers 500; the model's status is always a string, so that failure is not modelled.
- PlanningGate.Post: the update route `PUT /api/planning/[id]` is not modelled. It re-checks room and teacher conflicts with the same inclusive filter, leaving out the edited slot. It does so only when the request sends a date, a start, an end or a room, and it looks up the teacher of the slot's current intervention. `PostPreservesRoomExclusivity` and `PostPreservesTeacherExclusivity` therefore speak of `POST` only: an update that changes only `intervention_id` is never checked and can give a teacher two slots at once.

=== FILE: activities.dfy ===
/** `GET /api/dashboard/recent-activities`: each history row becomes an activity with a
    text chosen by its status, the time elapsed since it was written, and a link to its
    intervention. The home page builds its list the same way. */
module Activities {
  import opened Basics
  import opened Utils
  import InterventionCreation

  /** A history row joined with its intervention and course. The joins may miss, so the
      intervention id and the course code are JavaScript values (possibly `null`);
      `elapsedMs` is the time since `created_at`. */
  datatype HistoryRow = HistoryRow(id: int, elapsedMs: int, statut: string, commentaire: Option<string>,
                                   interventionId: Value, coursCode: Value)

  datatype Activity = Activity(id: int, text: string, time: string, link: string)

  datatype StatusKind = Created | Modified | Cancelled | Validated | Other

  /** The status, compared lower-cased. */
  function Kind(statut: string): StatusKind {
    var s := Lower(statut);
    if s == "créée" then Created
    else if s == "modifiée" then Modified
    else if s == "annulée" then Cancelled
    else if s == "validée" then Validated
    else Other
  }

  /** `commentaire || ...`: a missing or empty comment is falsy. */
  predicate HasComment(row: HistoryRow) {
    row.commentaire.Some? && row.commentaire.value != ""
  }

  /** The text of the activity. An activity always has something to show: a comment is
      used only when it is non-empty, and every other text names the course. */
  function Text(row: HistoryRow): (t: string)
    ensures t != ""
  {
    var code := ToText(row.coursCode);
    match Kind(row.statut)
    case Created => "Nouvelle intervention créée pour " + code
    case Modified => "Intervention " + code + " modifiée"
    case Cancelled => "Intervention " + code + " annulée"
    case Validated => "Intervention " + code + " validée"
    case Other => if HasComment(row) then row.commentaire.value else "Activité sur " + code
  }

  /** The link, the same for every status. */
  function Link(row: HistoryRow): string {
    "/interventions/" + ToText(row.interventionId)
  }

  function ToActivity(row: HistoryRow): Activity {
    Activity(row.id, Text(row), FormatRelativeTime(row.elapsedMs), Link(row))
  }

  /** `formattedData`: one activity per row, in the order of the rows. */
  function FormatActivities(rows: seq<HistoryRow>): (r: seq<Activity>)
    ensures |r| == |rows|
    ensures forall i :: 0 <= i < |r| ==>
      r[i].id == rows[i].id && r[i].text == Text(rows[i]) && r[i].link == "/interventions/" + ToText(rows[i].interventionId)
      && (r[i].time == "À l'instant" <==> rows[i].elapsedMs < 60000)
    // the label is the one the route shows, except where the route counts zero months or years
    ensures forall i :: 0 <= i < |r| && !ZeroCount(rows[i].elapsedMs) ==>
      r[i].time == FormatRelativeTimeAsWritten(rows[i].elapsedMs)
  {
    forall i | 0 <= i < |rows| && !ZeroCount(rows[i].elapsedMs)
      ensures ToActivity(rows[i]).time == FormatRelativeTimeAsWritten(rows[i].elapsedMs)
    {
      CorrectionOnlyTouchesZeroCounts(rows[i].elapsedMs);
    }
    Map(rows, ToActivity)
  }

  /** The status is matched whatever its case. */
  lemma StatusCaseIgnored(row: HistoryRow)
    ensures ToActivity(row.(statut := Lower(row.statut))) == ToActivity(row)
  {
    LowerIdempotent(row.statut);
  }

  /** The status the creation page writes reads as a creation. */
  lemma CreationStatusRecognised()
    ensures Kind(InterventionCreation.CreatedStatus) == Created
  {
    assert Lower(InterventionCreation.CreatedStatus) == "créée";
  }

  /** The link depends on the intervention alone: neither the status nor the comment
      changes it. */
  lemma LinkIgnoresStatus(row: HistoryRow, statut: string, commentaire: Option<string>)
    ensures ToActivity(row.(statut := statut, commentaire := commentaire)).link == ToActivity(row).link
  {
  }

  /** A known status ignores the comment, and names the course. */
  lemma KnownStatusNamesCourse(row: HistoryRow, commentaire: Option<string>)
    requires Kind(row.statut) != Other
    ensures Text(row.(commentaire := commentaire)) == Text(row)
    ensures Contains(Text(row), ToText(row.coursCode))
  {
    var code := ToText(row.coursCode);
    var t := Text(row);
    if Kind(row.statut) == Created {
      assert OccursAt(t, code, |"Nouvelle intervention créée pour "|);
    } else {
      assert OccursAt(t, code, |"Intervention "|);
    }
  }

  /** Any other status shows the comment when there is one, and otherwise names the course. */
  lemma OtherStatusText(row: HistoryRow)
    requires Kind(row.statut) == Other
    ensures HasComment(row) ==> Text(row) == row.commentaire.value
    ensures !HasComment(row) ==> Contains(Text(row), ToText(row.coursCode))
  {
    if !HasComment(row) {
      assert OccursAt(Text(row), ToText(row.coursCode), |"Activité sur "|);
    }
  }

  /** For one course, the four known statuses give four different texts. */
  lemma KnownStatusesDistinct(row: HistoryRow, other: HistoryRow)
    requires row.coursCode == other.coursCode
    requires Kind(row.statut) != Other && Kind(other.statut) != Other
    requires Kind(row.statut) != Kind(other.statut)
    ensures Text(row) != Text(other)
  {
    var code := ToText(row.coursCode);
    var a, b := Text(row), Text(other);
    var k := |"Intervention "| + |code| + 1;
    if Kind(row.statut) == Created || Kind(other.statut) == Created {
      assert a[0] != b[0];
    } else if |a| == |b| {
      assert a[k] != b[k];
    }
  }
}

=== FILE: allocation_report.dfy ===
/** `GET /api/rapports/repartition`: for each selected department, its selected programmes
    (parcours), their curricula (maquettes) of the requested academic year, and for each
    course the hours each allocation foresees, the hours already given to teachers, and
    what remains. The store is modelled as the tree the nested queries walk; each query
    of the walk may fail, which ends the whole report with a server error. */
module AllocationReport {
  import opened Basics

  datatype TeacherRef = TeacherRef(id: int, nom: string, prenom: string)

  datatype Assignment = Assignment(id: int, heures: real, enseignant: TeacherRef)

  /** An hour allocation: `nbHeures` hours for each of `nbGroupes` groups of one course type. */
  datatype Allocation = Allocation(id: int, nbHeures: real, nbGroupes: int, typeNom: string,
                                   interventions: seq<Assignment>)

  datatype Cours = Cours(id: int, code: string, nom: string, allocations: seq<Allocation>)

  datatype Maquette = Maquette(id: int, nom: string, annee: string, cours: seq<Cours>)

  datatype Parcours = Parcours(id: int, nom: string, maquettes: seq<Maquette>)

  datatype Departement = Departement(id: int, nom: string, parcours: seq<Parcours>)

  /** The query string: two optional filters (absent when missing or empty) and the
      academic year ("" when missing). */
  datatype Query = Query(departementId: Option<int>, parcoursId: Option<int>, annee: string)

  /** Which store queries fail: the department query, and the per-node queries keyed by
      the id of the node they start from (parcours of a department, maquettes of a
      parcours, courses of a maquette). */
  datatype Faults = Faults(departements: bool, parcoursOf: set<int>, maquettesOf: set<int>, coursOf: set<int>)

  datatype TeacherHours = TeacherHours(id: int, nom: string, prenom: string, heures: real)

  datatype AllocationStats = AllocationStats(typeNom: string, theorique: real, attribuees: real,
                                             restantes: real, enseignants: seq<TeacherHours>)

  datatype CoursReport = CoursReport(id: int, code: string, intitule: string, allocations: seq<AllocationStats>)

  datatype MaquetteReport = MaquetteReport(id: int, nom: string, cours: seq<CoursReport>)

  datatype ParcoursReport = ParcoursReport(id: int, nom: string, maquettes: seq<MaquetteReport>)

  datatype DepartementReport = DepartementReport(id: int, nom: string, parcours: seq<ParcoursReport>)

  datatype Reply = Report(departements: seq<DepartementReport>) | BadRequest(message: string) | ServerError

  const YearRequired := "L'année universitaire est requise"

  function AssignmentHours(a: Assignment): real { a.heures }
  function TeacherHoursOf(t: TeacherHours): real { t.heures }

  function ToTeacherHours(a: Assignment): TeacherHours {
    TeacherHours(a.enseignant.id, a.enseignant.nom, a.enseignant.prenom, a.heures)
  }

  /** The hours already given out of an allocation. */
  function Attributed(a: Allocation): real {
    Sum(a.interventions, AssignmentHours)
  }

  /** The statistics of one allocation. */
  function Stats(a: Allocation): (r: AllocationStats)
    ensures r.typeNom == a.typeNom
    ensures r.theorique == a.nbHeures * a.nbGroupes as real
    // what is attributed and what remains make up what is foreseen
    ensures r.attribuees + r.restantes == r.theorique
    // one line per intervention, for its teacher and with its hours
    ensures |r.enseignants| == |a.interventions|
    ensures forall k :: 0 <= k < |r.enseignants| ==>
      r.enseignants[k].id == a.interventions[k].enseignant.id && r.enseignants[k].heures == a.interventions[k].heures
  {
    var theorique := a.nbHeures * a.nbGroupes as real;
    var attribuees := Attributed(a);
    AllocationStats(a.typeNom, theorique, attribuees, theorique - attribuees, Map(a.interventions, ToTeacherHours))
  }

  /** The hours listed per teacher add up to the attributed hours. */
  lemma TeachersMakeUpAttributed(a: Allocation)
    ensures Sum(Stats(a).enseignants, TeacherHoursOf) == Stats(a).attribuees
  {
    SumMap(a.interventions, ToTeacherHours, TeacherHoursOf, AssignmentHours);
  }

  /** Giving `h` more hours of an allocation to a teacher leaves the foreseen hours as they
      are and lowers what remains by exactly `h`; nothing stops it from going negative. */
  lemma {:induction false} AssigningLowersRemaining(a: Allocation, extra: Assignment)
    ensures var after := Stats(a.(interventions := a.interventions + [extra]));
      && after.theorique == Stats(a).theorique
      && after.restantes == Stats(a).restantes - extra.heures
      && |after.enseignants| == |Stats(a).enseignants| + 1
  {
    SumAppend(a.interventions, [extra], AssignmentHours);
  }

  function CoursStats(c: Cours): (r: CoursReport)
    ensures r.id == c.id && r.code == c.code && r.intitule == c.nom
    ensures |r.allocations| == |c.allocations|
    ensures forall k :: 0 <= k < |r.allocations| ==> r.allocations[k] == Stats(c.allocations[k])
  {
    CoursReport(c.id, c.code, c.nom, Map(c.allocations, Stats))
  }

  /** The report of one maquette: fails when its course query fails; otherwise one
      report per course, in order. */
  function MaquetteReportOf(m: Maquette, faults: Faults): (r: Option<MaquetteReport>)
    ensures r.None? <==> m.id in faults.coursOf
    ensures r.Some? ==> r.value.id == m.id && r.value.nom == m.nom && r.value.cours == Map(m.cours, CoursStats)
  {
    if m.id in faults.coursOf then None
    else Some(MaquetteReport(m.id, m.nom, Map(m.cours, CoursStats)))
  }

  function MaquetteStats(faults: Faults): Maquette -> Option<MaquetteReport> {
    (m: Maquette) => MaquetteReportOf(m, faults)
  }

  /** The test `.eq('annee', anneeUniversitaire)` on maquettes. */
  function OfYear(annee: string): Maquette -> bool {
    (m: Maquette) => m.annee == annee
  }

  /** The course query of some maquette of `ms` fails. */
  predicate SomeMaquetteFails(ms: seq<Maquette>, faults: Faults) {
    exists i :: 0 <= i < |ms| && ms[i].id in faults.coursOf
  }

  /** The report of one parcours: fails when its maquette query or the course query of
      one of its maquettes of the year fails; otherwise those maquettes' reports, in order. */
  function ParcoursReportOf(p: Parcours, annee: string, faults: Faults): (r: Option<ParcoursReport>)
    ensures var ms := Filter(p.maquettes, OfYear(annee));
      r.None? <==> p.id in faults.maquettesOf || SomeMaquetteFails(ms, faults)
    ensures var ms := Filter(p.maquettes, OfYear(annee));
      r.Some? ==> && r.value.id == p.id && r.value.nom == p.nom && |r.value.maquettes| == |ms|
                  && forall i :: 0 <= i < |ms| ==> MaquetteReportOf(ms[i], faults) == Some(r.value.maquettes[i])
  {
    if p.id in faults.maquettesOf then None
    else match TryMap(Filter(p.maquettes, OfYear(annee)), MaquetteStats(faults)) {
      case None =>
        var ms := Filter(p.maquettes, OfYear(annee));
        assert SomeMaquetteFails(ms, faults) by {
          var i :| 0 <= i < |ms| && MaquetteStats(faults)(ms[i]).None?;
          assert MaquetteReportOf(ms[i], faults).None?;
        }
        None
      case Some(ms) => Some(ParcoursReport(p.id, p.nom, ms))
    }
  }

  function ParcoursStats(annee: string, faults: Faults): Parcours -> Option<ParcoursReport> {
    (p: Parcours) => ParcoursReportOf(p, annee, faults)
  }

  /** The test "matches the optional id filter". */
  function IdMatches(filter: Option<int>): int -> bool {
    (id: int) => filter.None? || id == filter.value
  }

  function ParcoursSelected(filter: Option<int>): Parcours -> bool {
    (p: Parcours) => IdMatches(filter)(p.id)
  }

  function DepartementSelected(filter: Option<int>): Departement -> bool {
    (d: Departement) => IdMatches(filter)(d.id)
  }

  /** The walk of some parcours of `ps` fails. */
  predicate SomeParcoursFails(ps: seq<Parcours>, annee: string, faults: Faults) {
    exists i :: 0 <= i < |ps| && ParcoursReportOf(ps[i], annee, faults).None?
  }

  /** The walk of some department of `ds` fails. */
  predicate SomeDepartementFails(ds: seq<Departement>, q: Query, faults: Faults) {
    exists k :: 0 <= k < |ds| && DepartementReportOf(ds[k], q, faults).None?
  }

  /** The report of one department: fails when its parcours query or the walk of one of
      its selected parcours fails; otherwise those parcours' reports, in order. */
  function DepartementReportOf(d: Departement, q: Query, faults: Faults): (r: Option<DepartementReport>)
    ensures var ps := Filter(d.parcours, ParcoursSelected(q.parcoursId));
      r.None? <==> d.id in faults.parcoursOf || SomeParcoursFails(ps, q.annee, faults)
    ensures var ps := Filter(d.parcours, ParcoursSelected(q.parcoursId));
      r.Some? ==> && r.value.id == d.id && r.value.nom == d.nom && |r.value.parcours| == |ps|
                  && forall i :: 0 <= i < |ps| ==> ParcoursReportOf(ps[i], q.annee, faults) == Some(r.value.parcours[i])
  {
    if d.id in faults.parcoursOf then None
    else match TryMap(Filter(d.parcours, ParcoursSelected(q.parcoursId)), ParcoursStats(q.annee, faults)) {
      case None =>
        var ps := Filter(d.parcours, ParcoursSelected(q.parcoursId));
        assert SomeParcoursFails(ps, q.annee, faults) by {
          var i :| 0 <= i < |ps| && ParcoursStats(q.annee, faults)(ps[i]).None?;
        }
        None
      case Some(ps) => Some(DepartementReport(d.id, d.nom, ps))
    }
  }

  function DepartementStats(q: Query, faults: Faults): Departement -> Option<DepartementReport> {
    (d: Departement) => DepartementReportOf(d, q, faults)
  }

  /** The route. */
  function RepartitionRoute(store: seq<Departement>, q: Query, faults: Faults): (r: Reply)
    ensures q.annee == "" ==> r == BadRequest(YearRequired)
    ensures q.annee != "" && faults.departements ==> r == ServerError
    // a server error exactly when a query on the walk fails
    ensures var selected := Filter(store, DepartementSelected(q.departementId));
      q.annee != "" ==> (r == ServerError <==> faults.departements || SomeDepartementFails(selected, q, faults))
    // a report lists the selected departments, in store order, each with its own report
    ensures r.Report? ==>
      var selected := Filter(store, DepartementSelected(q.departementId));
      && |r.departements| == |selected|
      && (forall k :: 0 <= k < |selected| ==> r.departements[k].id == selected[k].id)
      && (forall k :: 0 <= k < |selected| ==> DepartementReportOf(selected[k], q, faults) == Some(r.departements[k]))
    ensures r.BadRequest? ==> q.annee == ""
  {
    if q.annee == "" then BadRequest(YearRequired)
    else if faults.departements then ServerError
    else match TryMap(Filter(store, DepartementSelected(q.departementId)), DepartementStats(q, faults)) {
      case None =>
        var selected := Filter(store, DepartementSelected(q.departementId));
        assert SomeDepartementFails(selected, q, faults) by {
          var k :| 0 <= k < |selected| && DepartementStats(q, faults)(selected[k]).None?;
        }
        ServerError
      case Some(ds) => Report(ds)
    }
  }

  /** In a report, the maquette at a path of the walk lists one report per course of the
      corresponding maquette of the year, in order. */
  lemma ReportedMaquetteCourses(store: seq<Departement>, q: Query, faults: Faults, i: int, j: int, k: int)
    requires RepartitionRoute(store, q, faults).Report?
    requires 0 <= i < |Filter(store, DepartementSelected(q.departementId))|
    requires 0 <= j < |Filter(Filter(store, DepartementSelected(q.departementId))[i].parcours, ParcoursSelected(q.parcoursId))|
    requires 0 <= k < |Filter(Filter(Filter(store, DepartementSelected(q.departementId))[i].parcours,
                                     ParcoursSelected(q.parcoursId))[j].maquettes, OfYear(q.annee))|
    ensures var d := Filter(store, DepartementSelected(q.departementId))[i];
      var p := Filter(d.parcours, ParcoursSelected(q.parcoursId))[j];
      var m := Filter(p.maquettes, OfYear(q.annee))[k];
      var reported := RepartitionRoute(store, q, faults).departements[i].parcours[j].maquettes[k];
      && reported.id == m.id && m.annee == q.annee
      && reported.cours == Map(m.cours, CoursStats)
  {
    var d := Filter(store, DepartementSelected(q.departementId))[i];
    var dr := RepartitionRoute(store, q, faults).departements[i];
    assert DepartementReportOf(d, q, faults) == Some(dr);
    var p := Filter(d.parcours, ParcoursSelected(q.parcoursId))[j];
    var pr := dr.parcours[j];
    assert ParcoursReportOf(p, q.annee, faults) == Some(pr);
    var ms := Filter(p.maquettes, OfYear(q.annee));
    assert MaquetteReportOf(ms[k], faults) == Some(pr.maquettes[k]);
    assert ms[k] in ms;
  }

  /** With a year and no failing query, the route always reports. */
  lemma NoFaultReports(store: seq<Departement>, q: Query)
    requires q.annee != ""
    ensures RepartitionRoute(store, q, Faults(false, {}, {}, {})).Report?
  {
    var faults := Faults(false, {}, {}, {});
    forall d: Departement ensures DepartementStats(q, faults)(d).Some? {
      forall p: Parcours ensures ParcoursStats(q.annee, faults)(p).Some? {
        assert forall m: Maquette :: MaquetteStats(faults)(m).Some?;
      }
    }
  }

  /** A failing course query under a maquette the walk visits ends in a server error. */
  lemma VisitedFaultFails(store: seq<Departement>, q: Query, faults: Faults, i: int, j: int, k: int)
    requires q.annee != ""
    requires 0 <= i < |store| && DepartementSelected(q.departementId)(store[i])
    requires 0 <= j < |store[i].parcours| && ParcoursSelected(q.parcoursId)(store[i].parcours[j])
    requires 0 <= k < |store[i].parcours[j].maquettes|
    requires store[i].parcours[j].maquettes[k].annee == q.annee
    requires store[i].parcours[j].maquettes[k].id in faults.coursOf
    ensures RepartitionRoute(store, q, faults) == ServerError
  {
    var d := store[i];
    var p := d.parcours[j];
    var m := p.maquettes[k];
    var ms := Filter(p.maquettes, OfYear(q.annee));
    assert m in ms;
    var km :| 0 <= km < |ms| && ms[km] == m;
    assert ParcoursStats(q.annee, faults)(p).None?;
    var ps := Filter(d.parcours, ParcoursSelected(q.parcoursId));
    assert p in ps;
    var kp :| 0 <= kp < |ps| && ps[kp] == p;
    assert DepartementStats(q, faults)(d).None?;
    var ds := Filter(store, DepartementSelected(q.departementId));
    assert d in ds;
    var kd :| 0 <= kd < |ds| && ds[kd] == d;
    assert DepartementStats(q, faults)(ds[kd]).None?;
  }

  /** Maquettes of other years are never visited: their failures and contents do not matter. */
  lemma OtherYearMaquettesIgnored(p: Parcours, annee: string, faults: Faults, m: Maquette)
    requires m.annee != annee
    ensures ParcoursStats(annee, faults)(p.(maquettes := p.maquettes + [m])) == ParcoursStats(annee, faults)(p)
  {
    FilterAppend(p.maquettes, [m], OfYear(annee));
    assert Filter(p.maquettes + [m], OfYear(annee)) == Filter(p.maquettes, OfYear(annee));
  }
}

=== FILE: basics.dfy ===
/** Shared vocabulary of the model: optional values, the JavaScript values that
    records hold, truthiness, the text conversions the application relies on
    (String(), toLowerCase, trim, includes, code-point string order), and the
    list combinators every page uses (filter, sum). */
module Basics {

  datatype Option<+T> = None | Some(value: T)

  /** A value read from a JavaScript record. `Undefined` is what a missing key
      reads as; `NaN` is what `Number()` yields for text that is not a number.
      Numbers are integral in this model. */
  datatype Value = Undefined | Null | Bool(b: bool) | Num(n: int) | NaN | Str(s: string)

  /** JavaScript truthiness: `undefined`, `null`, `false`, `0`, `NaN` and `""` are falsy. */
  predicate Truthy(v: Value) {
    match v
    case Undefined => false
    case Null => false
    case Bool(b) => b
    case Num(n) => n != 0
    case NaN => false
    case Str(s) => s != ""
  }

  /** `null` or `undefined`, the two values the `?.` and `=== null || === undefined` tests catch. */
  predicate IsNullish(v: Value) {
    v.Undefined? || v.Null?
  }

  /** `record[key]` on a plain object. */
  function Get(record: map<string, Value>, key: string): (v: Value)
    ensures key !in record ==> v == Undefined
    ensures key in record ==> v == record[key]
  {
    if key in record then record[key] else Undefined
  }

  // ---------------------------------------------------------------------------
  // Decimal text

  predicate IsDigit(c: char) {
    '0' <= c <= '9'
  }

  predicate AllDigits(s: string) {
    forall i :: 0 <= i < |s| ==> IsDigit(s[i])
  }

  function DigitChar(d: int): (c: char)
    requires 0 <= d < 10
    ensures IsDigit(c)
  {
    ('0' as int + d) as char
  }

  function DigitValue(c: char): (d: nat)
    requires IsDigit(c)
    ensures d < 10
  {
    (c as int - '0' as int) as nat
  }

  /** The shortest decimal text of `n`, as `String(n)` writes a non-negative integer. */
  function NatToString(n: nat): (r: string)
    ensures |r| >= 1
    ensures AllDigits(r)
    ensures |r| > 1 ==> r[0] != '0'
    decreases n
  {
    if n < 10 then [DigitChar(n)] else NatToString(n / 10) + [DigitChar(n % 10)]
  }

  /** `String(i)` for an integer: a minus sign before the digits of a negative number. */
  function IntToString(i: int): (r: string)
    ensures i >= 0 ==> r == NatToString(i)
    ensures i < 0 ==> r == "-" + NatToString(-i)
  {
    if i < 0 then "-" + NatToString(-i) else NatToString(i)
  }

  /** The number a string of decimal digits denotes. */
  function DigitsValue(s: string): nat
    requires AllDigits(s)
  {
    if s == [] then 0 else DigitsValue(s[..|s| - 1]) * 10 + DigitValue(s[|s| - 1])
  }

  /** Reading the decimal text of `n` gives `n` back. */
  lemma {:induction false} NatToStringRoundTrip(n: nat)
    ensures DigitsValue(NatToString(n)) == n
    decreases n
  {
    if n >= 10 {
      var r := NatToString(n);
      assert r[..|r| - 1] == NatToString(n / 10);
      NatToStringRoundTrip(n / 10);
    }
  }

  /** Different numbers have different decimal texts. */
  lemma NatToStringInjective(m: nat, n: nat)
    requires NatToString(m) == NatToString(n)
    ensures m == n
  {
    NatToStringRoundTrip(m);
    NatToStringRoundTrip(n);
  }

  /** `String(v)`: the text JavaScript converts a value to. */
  function ToText(v: Value): string {
    match v
    case Undefined => "undefined"
    case Null => "null"
    case Bool(b) => if b then "true" else "false"
    case Num(n) => IntToString(n)
    case NaN => "NaN"
    case Str(s) => s
  }

  // ---------------------------------------------------------------------------
  // Case and white space

  /** Upper-case letters of Basic Latin and Latin-1, the characters `toLowerCase` changes
      in this model. */
  predicate IsUpper(c: char) {
    ('A' <= c <= 'Z') || ('\U{C0}' <= c <= '\U{DE}' && c != '\U{D7}')
  }

  function LowerChar(c: char): (l: char)
    ensures !IsUpper(l)
    ensures !IsUpper(c) ==> l == c
  {
    if IsUpper(c) then (c as int + 32) as char else c
  }

  /** `s.toLowerCase()`. */
  function Lower(s: string): (r: string)
    ensures |r| == |s|
    ensures forall i :: 0 <= i < |s| ==> r[i] == LowerChar(s[i])
  {
    seq(|s|, i requires 0 <= i < |s| => LowerChar(s[i]))
  }

  /** The characters `trim` removes and the regular expression class `\s` matches:
      ECMAScript WhiteSpace and LineTerminator. */
  predicate IsWhite(c: char) {
    c == '\t' || c == '\n' || c == '\U{B}' || c == '\U{C}' || c == '\r' || c == ' '
    || c == '\U{A0}' || c == '\U{1680}' || ('\U{2000}' <= c <= '\U{200A}')
    || c == '\U{2028}' || c == '\U{2029}' || c == '\U{202F}' || c == '\U{205F}'
    || c == '\U{3000}' || c == '\U{FEFF}'
  }

  function TrimStart(s: string): (r: string)
    ensures |r| <= |s| && r == s[|s| - |r|..]
    ensures r != [] ==> !IsWhite(r[0])
    ensures forall i :: 0 <= i < |s| - |r| ==> IsWhite(s[i])
  {
    if s != [] && IsWhite(s[0]) then
      var t := TrimStart(s[1..]);
      assert t == s[|s| - |t|..];
      assert forall i :: 1 <= i < |s| - |t| ==> s[i] == s[1..][i - 1];
      t
    else s
  }

  function TrimEnd(s: string): (r: string)
    ensures |r| <= |s| && r == s[..|r|]
    ensures r != [] ==> !IsWhite(r[|r| - 1])
    ensures forall i :: |r| <= i < |s| ==> IsWhite(s[i])
  {
    if s != [] && IsWhite(s[|s| - 1]) then
      var t := TrimEnd(s[..|s| - 1]);
      assert t == s[..|t|];
      assert forall i :: |t| <= i < |s| - 1 ==> s[i] == s[..|s| - 1][i];
      t
    else s
  }

  /** `r` is a contiguous piece of `s`. */
  predicate IsSlice(r: string, s: string) {
    exists i, j :: 0 <= i <= j <= |s| && r == s[i..j]
  }

  /** `r` neither starts nor ends with white space. */
  predicate NoEdgeWhite(r: string) {
    r != [] ==> !IsWhite(r[0]) && !IsWhite(r[|r| - 1])
  }

  predicate AllWhite(s: string) {
    forall i :: 0 <= i < |s| ==> IsWhite(s[i])
  }

  /** `s.trim()`: `s` without its leading and trailing white space. */
  function Trim(s: string): (r: string)
    ensures IsSlice(r, s)
    ensures NoEdgeWhite(r)
    ensures AllWhite(s) <==> r == []
  {
    TrimSlice(s);
    TrimEnds(s);
    TrimAllWhite(s);
    TrimEnd(TrimStart(s))
  }

  /** The trimmed text is the slice of `s` between the two runs removed. */
  lemma TrimSlice(s: string)
    ensures IsSlice(TrimEnd(TrimStart(s)), s)
  {
    var a := TrimStart(s);
    var r := TrimEnd(a);
    assert r == s[|s| - |a|..|s| - |a| + |r|];
  }

  lemma TrimEnds(s: string)
    ensures NoEdgeWhite(TrimEnd(TrimStart(s)))
  {
    var a := TrimStart(s);
    var r := TrimEnd(a);
    if r != [] {
      assert r[0] == a[0];
    }
  }

  lemma TrimAllWhite(s: string)
    ensures AllWhite(s) <==> TrimEnd(TrimStart(s)) == []
  {
    var a := TrimStart(s);
    var r := TrimEnd(a);
    if r == [] && a != [] {
      // `a` would start with a character that is not white, yet be all white.
      assert false;
    }
    if r != [] {
      var k := |s| - |a|;
      assert s[k] == r[0];
    }
  }

  /** Text without white space is its own trim. */
  lemma TrimNoWhite(s: string)
    requires forall i :: 0 <= i < |s| ==> !IsWhite(s[i])
    ensures Trim(s) == s
  {
    if s != [] {
      assert !IsWhite(s[0]);
      assert TrimStart(s) == s;
      assert !IsWhite(s[|s| - 1]);
    }
  }

  // ---------------------------------------------------------------------------
  // Number()

  /** `Number(text)` on a trimmed text: empty is 0, an optionally signed run of decimal
      digits is its value, anything else is NaN (`None`). */
  function ParseInteger(t: string): Option<int> {
    if t == [] then Some(0)
    else if t[0] == '-' && |t| > 1 && AllDigits(t[1..]) then Some(0 - DigitsValue(t[1..]) as int)
    else if t[0] == '+' && |t| > 1 && AllDigits(t[1..]) then Some(DigitsValue(t[1..]))
    else if AllDigits(t) then Some(DigitsValue(t))
    else None
  }

  /** `Number(v)`, with `None` for NaN. */
  function NumberOf(v: Value): (r: Option<int>)
    ensures v.Num? ==> r == Some(v.n)
    ensures v.Undefined? || v.NaN? ==> r.None?
    ensures v.Null? ==> r == Some(0)
  {
    match v
    case Undefined => None
    case Null => Some(0)
    case Bool(b) => Some(if b then 1 else 0)
    case Num(n) => Some(n)
    case NaN => None
    case Str(s) => ParseInteger(Trim(s))
  }

  /** The decimal text of an integer reads back as that integer. */
  lemma NumberOfIntText(n: int)
    ensures NumberOf(Str(IntToString(n))) == Some(n)
  {
    var t := IntToString(n);
    forall i | 0 <= i < |t| ensures !IsWhite(t[i]) {
      if n >= 0 {
        assert IsDigit(t[i]);
      } else if i > 0 {
        assert t[i] == NatToString(-n)[i - 1];
        assert IsDigit(t[i]);
      }
    }
    TrimNoWhite(t);
    if n >= 0 {
      NatToStringRoundTrip(n);
      assert t[0] != '-' && t[0] != '+';
    } else {
      assert t[1..] == NatToString(-n);
      NatToStringRoundTrip(-n);
    }
  }

  // ---------------------------------------------------------------------------
  // Substrings

  /** `t` appears in `s` starting at position `i`. */
  predicate OccursAt(s: string, t: string, i: int) {
    0 <= i <= |s| - |t| && s[i..i + |t|] == t
  }

  /** `s.includes(t)`. */
  predicate Contains(s: string, t: string) {
    exists i | 0 <= i <= |s| - |t| :: OccursAt(s, t, i)
  }

  /** The position of the first `c` in `s`, if any. */
  function IndexOf(s: string, c: char): (k: Option<nat>)
    ensures k.Some? ==> k.value < |s| && s[k.value] == c && forall i :: 0 <= i < k.value ==> s[i] != c
    ensures k.None? ==> forall i :: 0 <= i < |s| ==> s[i] != c
  {
    if s == [] then None
    else if s[0] == c then Some(0)
    else match IndexOf(s[1..], c)
      case None => None
      case Some(k) => Some(k + 1)
  }

  lemma ContainsEmpty(s: string)
    ensures Contains(s, "")
  {
    assert OccursAt(s, "", 0);
  }

  // ---------------------------------------------------------------------------
  // String order

  /** `a < b` on strings: lexicographic order of characters, taken here as code points. */
  predicate StrLess(a: string, b: string)
    decreases |a|
  {
    if a == [] then b != []
    else if b == [] then false
    else if a[0] != b[0] then a[0] < b[0]
    else StrLess(a[1..], b[1..])
  }

  lemma {:induction false} StrLessIrreflexive(a: string)
    ensures !StrLess(a, a)
    decreases |a|
  {
    if a != [] {
      StrLessIrreflexive(a[1..]);
    }
  }

  lemma {:induction false} StrLessTransitive(a: string, b: string, c: string)
    requires StrLess(a, b) && StrLess(b, c)
    ensures StrLess(a, c)
    decreases |a|
  {
    if a != [] && b != [] && c != [] && a[0] == b[0] && b[0] == c[0] {
      StrLessTransitive(a[1..], b[1..], c[1..]);
    }
  }

  lemma {:induction false} StrLessTotal(a: string, b: string)
    requires a != b
    ensures StrLess(a, b) || StrLess(b, a)
    decreases |a|
  {
    if a != [] && b != [] && a[0] == b[0] {
      assert a == [a[0]] + a[1..] && b == [b[0]] + b[1..];
      StrLessTotal(a[1..], b[1..]);
    }
  }

  lemma {:induction false} StrLessAsymmetric(a: string, b: string)
    requires StrLess(a, b)
    ensures !StrLess(b, a)
    decreases |a|
  {
    if a != [] && b != [] && a[0] == b[0] {
      StrLessAsymmetric(a[1..], b[1..]);
    }
  }

  /** Three-way string comparison: the stand-in for `localeCompare`. */
  function StrCmp(a: string, b: string): (r: int)
    ensures r == -1 || r == 0 || r == 1
    ensures r == 0 <==> a == b
    ensures r < 0 <==> StrLess(a, b)
  {
    if a == b then (StrLessIrreflexive(a); 0)
    else if StrLess(a, b) then -1
    else (StrLessTotal(a, b); 1)
  }

  /** Swapping the arguments negates the comparison. */
  lemma StrCmpAntisymmetric(a: string, b: string)
    ensures StrCmp(b, a) == -StrCmp(a, b)
  {
    if StrLess(a, b) {
      StrLessAsymmetric(a, b);
    } else if a != b {
      StrLessTotal(a, b);
    }
  }

  // ---------------------------------------------------------------------------
  // Lists

  /** `a` is obtained from `b` by deleting elements, keeping the order of the rest. */
  ghost predicate IsSubsequence<T>(a: seq<T>, b: seq<T>)
    decreases |b|
  {
    if a == [] then true
    else if b == [] then false
    else (a[0] == b[0] && IsSubsequence(a[1..], b[1..])) || IsSubsequence(a, b[1..])
  }

  lemma {:induction false} SubsequenceReflexive<T>(a: seq<T>)
    ensures IsSubsequence(a, a)
    decreases |a|
  {
    if a != [] {
      SubsequenceReflexive(a[1..]);
    }
  }

  /** `s.filter(p)`: the elements of `s` that satisfy `p`, in their order. */
  function Filter<T(!new)>(s: seq<T>, p: T -> bool): (r: seq<T>)
    ensures |r| <= |s|
    ensures IsSubsequence(r, s)
    ensures forall x :: x in r <==> x in s && p(x)
    ensures forall i :: 0 <= i < |r| ==> p(r[i])
  {
    if s == [] then []
    else if p(s[0]) then [s[0]] + Filter(s[1..], p)
    else Filter(s[1..], p)
  }

  /** A filter whose test holds everywhere keeps the list as it is. */
  lemma {:induction false} FilterKeepsAll<T(!new)>(s: seq<T>, p: T -> bool)
    requires forall i :: 0 <= i < |s| ==> p(s[i])
    ensures Filter(s, p) == s
  {
    if s != [] {
      FilterKeepsAll(s[1..], p);
    }
  }

  /** The filter result splits at a concatenation. */
  lemma {:induction false} FilterAppend<T(!new)>(a: seq<T>, b: seq<T>, p: T -> bool)
    ensures Filter(a + b, p) == Filter(a, p) + Filter(b, p)
  {
    if a == [] {
      assert a + b == b;
    } else {
      assert (a + b)[1..] == a[1..] + b;
      FilterAppend(a[1..], b, p);
    }
  }

  /** Filtering out every element leaves nothing. */
  lemma {:induction false} FilterKeepsNone<T(!new)>(s: seq<T>, p: T -> bool)
    requires forall i :: 0 <= i < |s| ==> !p(s[i])
    ensures Filter(s, p) == []
  {
    if s != [] {
      FilterKeepsNone(s[1..], p);
    }
  }

  /** Filtering twice keeps the elements that pass both tests. */
  lemma {:induction false} FilterFilter<T(!new)>(s: seq<T>, p: T -> bool, q: T -> bool, both: T -> bool)
    requires forall x :: both(x) == (p(x) && q(x))
    ensures Filter(Filter(s, p), q) == Filter(s, both)
  {
    if s != [] {
      FilterFilter(s[1..], p, q, both);
    }
  }

  /** `s.map(f)`. */
  function Map<A, B>(s: seq<A>, f: A -> B): (r: seq<B>)
    ensures |r| == |s|
    ensures forall i :: 0 <= i < |s| ==> r[i] == f(s[i])
  {
    seq(|s|, i requires 0 <= i < |s| => f(s[i]))
  }

  /** `s.map(e => matches(e) ? x : e)`: every element that `matches` accepts becomes `x`;
      the others stay where they are. */
  function ReplaceWhere<T>(s: seq<T>, matches: T -> bool, x: T): (r: seq<T>)
    ensures |r| == |s|
    ensures forall i :: 0 <= i < |s| ==> r[i] == (if matches(s[i]) then x else s[i])
  {
    Map(s, (e: T) => if matches(e) then x else e)
  }

  /** The number of elements of `s` that satisfy `p`. */
  function Count<T>(s: seq<T>, p: T -> bool): (n: nat)
    ensures n <= |s|
    ensures n == 0 <==> forall i :: 0 <= i < |s| ==> !p(s[i])
    ensures n == |s| <==> forall i :: 0 <= i < |s| ==> p(s[i])
  {
    if s == [] then 0
    else (if p(s[0]) then 1 else 0) + Count(s[1..], p)
  }

  /** The filter keeps exactly as many elements as satisfy the test. */
  lemma {:induction false} FilterCount<T(!new)>(s: seq<T>, p: T -> bool)
    ensures |Filter(s, p)| == Count(s, p)
  {
    if s != [] {
      FilterCount(s[1..], p);
    }
  }

  /** `s.reduce((sum, x) => sum + f(x), 0)`. */
  function Sum<T>(s: seq<T>, f: T -> real): real {
    if s == [] then 0.0 else f(s[0]) + Sum(s[1..], f)
  }

  lemma {:induction false} SumAppend<T>(a: seq<T>, b: seq<T>, f: T -> real)
    ensures Sum(a + b, f) == Sum(a, f) + Sum(b, f)
  {
    if a == [] {
      assert a + b == b;
    } else {
      assert (a + b)[1..] == a[1..] + b;
      SumAppend(a[1..], b, f);
    }
  }

  /** Summing the images of a map is summing a function that agrees with them. */
  lemma {:induction false} SumMap<A, B>(s: seq<A>, g: A -> B, f: B -> real, h: A -> real)
    requires forall x :: f(g(x)) == h(x)
    ensures Sum(Map(s, g), f) == Sum(s, h)
  {
    if s != [] {
      assert Map(s, g)[1..] == Map(s[1..], g);
      SumMap(s[1..], g, f, h);
    }
  }

  /** Maps `f` over `s`, in order, and fails as soon as one element fails. */
  function TryMap<A, B>(s: seq<A>, f: A -> Option<B>): (r: Option<seq<B>>)
    ensures r.None? <==> exists i :: 0 <= i < |s| && f(s[i]).None?
    ensures r.Some? ==> |r.value| == |s| && forall i :: 0 <= i < |s| ==> f(s[i]) == Some(r.value[i])
  {
    if s == [] then Some([])
    else match f(s[0]) {
      case None => None
      case Some(b) =>
        match TryMap(s[1..], f) {
          case None => None
          case Some(rest) => Some([b] + rest)
        }
    }
  }
}

=== FILE: data_table.dfy ===
/** The generic table component: the header-click sort state, the columns the search
    looks at, the search filter, the null-aware comparator of the sort column, the
    default sort by the key field when no column is sorted, and the "no results" flag.
    A sort column of "" means no column is sorted. */
module DataTable {
  import opened Basics
  import opened Utils
  import opened Sorting

  /** A column: the record property it shows, and whether the search looks at it
      (`None` when the flag is not given). */
  datatype Column = Column(key: string, header: string, searchable: Option<bool>)

  /** What the table shows: the rows the search kept, the rows in display order, and
      whether to show the "no results" message instead. */
  datatype TableView = TableView(filtered: seq<Record>, rows: seq<Record>, noResults: bool)

  /** The keys of the columns whose `searchable` flag is not `false`, in column order. */
  function SearchableColumns(columns: seq<Column>): (r: seq<string>)
    ensures |r| <= |columns|
    ensures forall key :: key in r <==>
      exists i :: 0 <= i < |columns| && columns[i].key == key && columns[i].searchable != Some(false)
  {
    if columns == [] then []
    else
      var rest := SearchableColumns(columns[1..]);
      assert forall i :: 1 <= i < |columns| ==> columns[i] == columns[1..][i - 1];
      assert forall i :: 0 <= i < |columns| - 1 ==> columns[1..][i] == columns[i + 1];
      if columns[0].searchable != Some(false) then [columns[0].key] + rest else rest
  }

  // ---------------------------------------------------------------------------
  // The comparator

  /** `a < b` on two values that are neither nullish nor both strings: both are converted
      with `Number()` and compared; NaN compares false both ways. */
  predicate JsLess(a: Value, b: Value) {
    match (NumberOf(a), NumberOf(b))
    case (Some(x), Some(y)) => x < y
    case _ => false
  }

  /** The comparator of the sort state: 0 when no column is sorted; a nullish value goes
      last when ascending and first when descending; two strings compare as text; other
      values by `<` and `>`. */
  function Compare(st: SortState<string>, a: Record, b: Record): int {
    var asc := st.direction == Asc;
    if st.column == "" then 0
    else
      var av, bv := Get(a, st.column), Get(b, st.column);
      if IsNullish(av) then (if asc then 1 else -1)
      else if IsNullish(bv) then (if asc then -1 else 1)
      else if av.Str? && bv.Str? then (if asc then StrCmp(av.s, bv.s) else StrCmp(bv.s, av.s))
      else if JsLess(av, bv) then (if asc then -1 else 1)
      else if JsLess(bv, av) then (if asc then 1 else -1)
      else 0
  }

  function Comparator(st: SortState<string>): (Record, Record) -> int {
    (a: Record, b: Record) => Compare(st, a, b)
  }

  /** The comparator of the default sort by the key field. */
  function KeyCompare(keyField: string, a: Record, b: Record): int {
    var av, bv := Get(a, keyField), Get(b, keyField);
    if IsNullish(av) then 1
    else if IsNullish(bv) then -1
    else if av.Str? && bv.Str? then StrCmp(av.s, bv.s)
    else if JsLess(av, bv) then -1
    else if JsLess(bv, av) then 1
    else 0
  }

  function KeyComparator(keyField: string): (Record, Record) -> int {
    (a: Record, b: Record) => KeyCompare(keyField, a, b)
  }

  /** Descending order is ascending order reversed, for every pair of rows. */
  lemma DescReversesAsc(column: string, a: Record, b: Record)
    ensures Compare(SortState(column, Desc), a, b) == -Compare(SortState(column, Asc), a, b)
  {
    var av, bv := Get(a, column), Get(b, column);
    if av.Str? && bv.Str? {
      StrCmpAntisymmetric(av.s, bv.s);
    }
  }

  /** Swapping two rows whose values are both present negates the comparison. */
  lemma CompareAntisymmetric(st: SortState<string>, a: Record, b: Record)
    requires !IsNullish(Get(a, st.column)) && !IsNullish(Get(b, st.column))
    ensures Compare(st, b, a) == -Compare(st, a, b)
  {
    var av, bv := Get(a, st.column), Get(b, st.column);
    if av.Str? && bv.Str? {
      StrCmpAntisymmetric(av.s, bv.s);
    }
  }

  /** Two rows that both lack the value each claim to come after the other: the
      comparator is inconsistent on them, and the order `sort` gives them is left to the
      sort algorithm. */
  lemma NullPairInconsistent(st: SortState<string>, a: Record, b: Record)
    requires st.column != ""
    requires IsNullish(Get(a, st.column)) && IsNullish(Get(b, st.column))
    ensures Compare(st, a, b) == Compare(st, b, a) != 0
  {
  }

  /** Ascending, a text and a number that both read as numbers compare as those numbers. */
  lemma NumberedCompare(column: string, a: Record, b: Record, x: int, y: int)
    requires column != ""
    requires !IsNullish(Get(a, column)) && !IsNullish(Get(b, column))
    requires !(Get(a, column).Str? && Get(b, column).Str?)
    requires NumberOf(Get(a, column)) == Some(x) && NumberOf(Get(b, column)) == Some(y)
    ensures x < y ==> Compare(SortState(column, Asc), a, b) == -1
    ensures x == y ==> Compare(SortState(column, Asc), a, b) == 0
    ensures x > y ==> Compare(SortState(column, Asc), a, b) == 1
  {
  }

  /** Ascending, two texts compare as text. */
  lemma TextCompare(column: string, a: Record, b: Record, x: string, y: string)
    requires column != ""
    requires Get(a, column) == Str(x) && Get(b, column) == Str(y)
    ensures Compare(SortState(column, Asc), a, b) == StrCmp(x, y)
  {
  }

  /** As text, "10" comes before "9". */
  lemma TenBeforeNine()
    ensures StrCmp("10", "9") == -1
  {
    assert StrLess("10", "9");
  }

  /** Ascending, the text "10" sorts before the text "9". */
  lemma TenBeforeNineText(column: string, ten: Record, nine: Record)
    requires column != ""
    requires Get(ten, column) == Str("10") && Get(nine, column) == Str("9")
    ensures Compare(SortState(column, Asc), ten, nine) < 0
  {
    TenBeforeNine();
    TextCompare(column, ten, nine, "10", "9");
  }

  /** The decimal texts of 9 and 10. */
  lemma DecimalTexts()
    ensures IntToString(9) == "9" && IntToString(10) == "10"
  {
    assert NatToString(10) == NatToString(1) + [DigitChar(0)];
  }

  /** Ascending, a text that reads as a number compares with a number as that number does. */
  lemma TextAgainstNumber(column: string, a: Record, b: Record, t: string, x: int, y: int)
    requires column != ""
    requires Get(a, column) == Str(t) && NumberOf(Str(t)) == Some(x) && Get(b, column) == Num(y)
    ensures x == y ==> Compare(SortState(column, Asc), a, b) == 0
    ensures x > y ==> Compare(SortState(column, Asc), a, b) == 1
  {
    NumberedCompare(column, a, b, x, y);
  }

  /** The texts "9" and "10" read as the numbers 9 and 10. */
  lemma NineAndTenTexts()
    ensures NumberOf(Str("9")) == Some(9) && NumberOf(Str("10")) == Some(10)
  {
    DecimalTexts();
    NumberOfIntText(9);
    NumberOfIntText(10);
  }

  /** Ascending, the text "9" ties with the number 9. */
  lemma NineTiesNine(column: string, nine: Record, num: Record)
    requires column != ""
    requires Get(nine, column) == Str("9") && Get(num, column) == Num(9)
    ensures Compare(SortState(column, Asc), nine, num) == 0
  {
    NineAndTenTexts();
    TextAgainstNumber(column, nine, num, "9", 9, 9);
  }

  /** Ascending, the text "10" sorts after the number 9. */
  lemma TenAfterNine(column: string, ten: Record, num: Record)
    requires column != ""
    requires Get(ten, column) == Str("10") && Get(num, column) == Num(9)
    ensures Compare(SortState(column, Asc), ten, num) > 0
  {
    NineAndTenTexts();
    TextAgainstNumber(column, ten, num, "10", 10, 9);
  }

  /** On a column that mixes the texts "10" and "9" with the number 9, the comparator is not
      transitive: "10" sorts before "9" as text, "9" ties with 9 as a number, yet "10" sorts
      after 9 as a number. No order is consistent with it. */
  lemma MixedColumnIntransitive(column: string, ten: Record, nine: Record, num: Record)
    requires column != ""
    requires Get(ten, column) == Str("10") && Get(nine, column) == Str("9")
    requires Get(num, column) == Num(9)
    ensures Compare(SortState(column, Asc), ten, nine) < 0
    ensures Compare(SortState(column, Asc), nine, num) == 0
    ensures Compare(SortState(column, Asc), ten, num) > 0
  {
    TenBeforeNineText(column, ten, nine);
    NineTiesNine(column, nine, num);
    TenAfterNine(column, ten, num);
  }

  /** The default sort is the ascending sort of the key field. */
  lemma KeyCompareIsAscending(keyField: string, a: Record, b: Record)
    requires keyField != ""
    ensures KeyCompare(keyField, a, b) == Compare(SortState(keyField, Asc), a, b)
  {
  }

  // ---------------------------------------------------------------------------
  // The view

  /** The rows the search keeps: all of them when the term is empty. */
  function Filtered(data: seq<Record>, columns: seq<Column>, searchTerm: string): seq<Record> {
    if searchTerm != "" then FilterBySearchTerm(data, searchTerm, SearchableColumns(columns)) else data
  }

  /** The table for the data, its columns, the key field, the sort state and the search term. */
  function View(data: seq<Record>, columns: seq<Column>, keyField: string, st: SortState<string>,
                searchTerm: string): (v: TableView)
    ensures |v.filtered| <= |data| && IsSubsequence(v.filtered, data)
    ensures searchTerm == "" ==> v.filtered == data
    // display order is a rearrangement of the rows the search kept
    ensures |v.rows| == |v.filtered| && multiset(v.rows) == multiset(v.filtered)
    ensures v.noResults <==> searchTerm != "" && v.filtered == []
  {
    var filtered := Filtered(data, columns, searchTerm);
    var sorted := SortBy(filtered, Comparator(st));
    var rows := if st.column == "" && keyField != "" then SortBy(sorted, KeyComparator(keyField)) else sorted;
    SubsequenceReflexive(data);
    TableView(filtered, rows, |rows| == 0 && |searchTerm| > 0)
  }

  /** "No results" shows exactly when a search is typed and no row matches it in a
      searchable column. */
  lemma NoResultsIffNothingMatches(data: seq<Record>, columns: seq<Column>, keyField: string,
                                   st: SortState<string>, searchTerm: string)
    ensures View(data, columns, keyField, st, searchTerm).noResults <==>
      searchTerm != "" &&
      forall i :: 0 <= i < |data| ==> !ItemMatches(data[i], SearchKey(searchTerm), SearchableColumns(columns))
  {
    var filtered := View(data, columns, keyField, st, searchTerm).filtered;
    var key, props := SearchKey(searchTerm), SearchableColumns(columns);
    if searchTerm != "" {
      if filtered != [] {
        assert filtered[0] in filtered;
        var i :| 0 <= i < |data| && data[i] == filtered[0];
        assert ItemMatches(data[i], key, props);
      } else {
        forall i | 0 <= i < |data| ensures !ItemMatches(data[i], key, props) {
          assert data[i] in data;
        }
      }
    }
  }

  /** With neither a sort column nor a key field, rows keep the order of the data. */
  lemma UnsortedKeepsOrder(data: seq<Record>, columns: seq<Column>, st: SortState<string>, searchTerm: string)
    requires st.column == ""
    ensures View(data, columns, "", st, searchTerm).rows == Filtered(data, columns, searchTerm)
  {
    SortByKeepsOrder(Filtered(data, columns, searchTerm), Comparator(st));
  }

  /** With no sort column, rows are sorted by the key field alone. */
  lemma DefaultSortByKey(data: seq<Record>, columns: seq<Column>, keyField: string, st: SortState<string>,
                         searchTerm: string)
    requires st.column == "" && keyField != ""
    ensures View(data, columns, keyField, st, searchTerm).rows ==
      SortBy(Filtered(data, columns, searchTerm), KeyComparator(keyField))
  {
    SortByKeepsOrder(Filtered(data, columns, searchTerm), Comparator(st));
  }

  // ---------------------------------------------------------------------------
  // Order of the rows

  function HasValue(column: string): Record -> bool {
    (r: Record) => !IsNullish(Get(r, column))
  }

  function LacksValue(column: string): Record -> bool {
    (r: Record) => IsNullish(Get(r, column))
  }

  /** Rows with a value at `column` all come before rows without one when ascending, and
      after them when descending. */
  lemma NullsPlacement(data: seq<Record>, columns: seq<Column>, keyField: string, st: SortState<string>,
                       searchTerm: string)
    requires st.column != ""
    ensures st.direction == Asc ==> Partitioned(View(data, columns, keyField, st, searchTerm).rows, HasValue(st.column))
    ensures st.direction == Desc ==> Partitioned(View(data, columns, keyField, st, searchTerm).rows, LacksValue(st.column))
  {
    var filtered := Filtered(data, columns, searchTerm);
    if st.direction == Asc {
      SortByPartitions(filtered, Comparator(st), HasValue(st.column));
    } else {
      SortByPartitions(filtered, Comparator(st), LacksValue(st.column));
    }
  }

  /** The default sort puts the rows without a key last. */
  lemma DefaultSortKeysFirst(data: seq<Record>, columns: seq<Column>, keyField: string, st: SortState<string>,
                             searchTerm: string)
    requires st.column == "" && keyField != ""
    ensures Partitioned(View(data, columns, keyField, st, searchTerm).rows, HasValue(keyField))
  {
    DefaultSortByKey(data, columns, keyField, st, searchTerm);
    SortByPartitions(Filtered(data, columns, searchTerm), KeyComparator(keyField), HasValue(keyField));
  }

  /** Every row has a value at `column`. */
  predicate AllHaveValue(s: seq<Record>, column: string) {
    forall i :: 0 <= i < |s| ==> !IsNullish(Get(s[i], column))
  }

  /** Every row has a number at `column`. */
  predicate AllNumeric(s: seq<Record>, column: string) {
    forall i :: 0 <= i < |s| ==> Get(s[i], column).Num?
  }

  /** A rearrangement keeps every row numeric. */
  lemma PermutationKeepsNumeric(r: seq<Record>, s: seq<Record>, column: string)
    requires multiset(r) == multiset(s) && AllNumeric(s, column)
    ensures AllNumeric(r, column)
  {
    forall i | 0 <= i < |r| ensures Get(r[i], column).Num? {
      assert r[i] in multiset(r);
      var k :| 0 <= k < |s| && s[k] == r[i];
    }
  }

  /** On rows that all have a value at the sort column, the comparator is consistent. */
  lemma CompareConsistent(s: seq<Record>, st: SortState<string>)
    requires AllHaveValue(s, st.column)
    ensures Consistent(Comparator(st), s)
  {
    forall a, b | a in s && b in s && Compare(st, a, b) > 0 ensures Compare(st, b, a) <= 0 {
      var i :| 0 <= i < |s| && s[i] == a;
      var j :| 0 <= j < |s| && s[j] == b;
      CompareAntisymmetric(st, a, b);
    }
  }

  /** On rows that all have a key, the default comparator is consistent. */
  lemma KeyCompareConsistent(s: seq<Record>, keyField: string)
    requires keyField != "" && AllHaveValue(s, keyField)
    ensures Consistent(KeyComparator(keyField), s)
  {
    forall a, b | a in s && b in s && KeyCompare(keyField, a, b) > 0 ensures KeyCompare(keyField, b, a) <= 0 {
      var i :| 0 <= i < |s| && s[i] == a;
      var j :| 0 <= j < |s| && s[j] == b;
      KeyCompareIsAscending(keyField, a, b);
      KeyCompareIsAscending(keyField, b, a);
      CompareAntisymmetric(SortState(keyField, Asc), a, b);
    }
  }

  /** Numbers in a given direction. */
  predicate NumbersOrdered(s: seq<Record>, column: string, d: Direction)
    requires AllNumeric(s, column)
  {
    forall i :: 0 <= i < |s| - 1 ==>
      if d == Asc then Get(s[i], column).n <= Get(s[i + 1], column).n
      else Get(s[i], column).n >= Get(s[i + 1], column).n
  }

  /** Rows in comparator order are, on a numeric column, in number order. */
  lemma {:induction false} SortedNumbers(s: seq<Record>, st: SortState<string>)
    requires st.column != "" && AllNumeric(s, st.column) && SortedBy(s, Comparator(st))
    ensures NumbersOrdered(s, st.column, st.direction)
  {
    forall i | 0 <= i < |s| - 1
      ensures if st.direction == Asc then Get(s[i], st.column).n <= Get(s[i + 1], st.column).n
              else Get(s[i], st.column).n >= Get(s[i + 1], st.column).n
    {
      assert Compare(st, s[i], s[i + 1]) <= 0;
    }
  }

  /** When every row has a value at the sort column, neighbours come in comparator order. */
  lemma SortedWhenAllPresent(data: seq<Record>, columns: seq<Column>, keyField: string, st: SortState<string>,
                             searchTerm: string)
    requires st.column != ""
    requires AllHaveValue(Filtered(data, columns, searchTerm), st.column)
    ensures SortedBy(View(data, columns, keyField, st, searchTerm).rows, Comparator(st))
  {
    var filtered := Filtered(data, columns, searchTerm);
    CompareConsistent(filtered, st);
    SortBySorted(filtered, Comparator(st));
  }

  /** Sorting a numeric column orders the numbers: increasing when ascending, decreasing
      when descending. */
  lemma NumericColumnOrdered(data: seq<Record>, columns: seq<Column>, keyField: string, st: SortState<string>,
                             searchTerm: string)
    requires st.column != ""
    requires AllNumeric(Filtered(data, columns, searchTerm), st.column)
    ensures AllNumeric(View(data, columns, keyField, st, searchTerm).rows, st.column)
    ensures NumbersOrdered(View(data, columns, keyField, st, searchTerm).rows, st.column, st.direction)
  {
    ColumnSortNumeric(Filtered(data, columns, searchTerm), st);
  }

  /** Sorting rows with numbers at the sort column orders the numbers. */
  lemma ColumnSortNumeric(s: seq<Record>, st: SortState<string>)
    requires st.column != "" && AllNumeric(s, st.column)
    ensures AllNumeric(SortBy(s, Comparator(st)), st.column)
    ensures NumbersOrdered(SortBy(s, Comparator(st)), st.column, st.direction)
  {
    var rows := SortBy(s, Comparator(st));
    assert AllHaveValue(s, st.column);
    CompareConsistent(s, st);
    SortBySorted(s, Comparator(st));
    PermutationKeepsNumeric(rows, s, st.column);
    SortedNumbers(rows, st);
  }

  /** Without a sort column, rows whose keys are all numbers come in increasing key order. */
  lemma DefaultSortAscending(data: seq<Record>, columns: seq<Column>, keyField: string, st: SortState<string>,
                             searchTerm: string)
    requires st.column == "" && keyField != ""
    requires AllNumeric(Filtered(data, columns, searchTerm), keyField)
    ensures AllNumeric(View(data, columns, keyField, st, searchTerm).rows, keyField)
    ensures NumbersOrdered(View(data, columns, keyField, st, searchTerm).rows, keyField, Asc)
  {
    DefaultSortByKey(data, columns, keyField, st, searchTerm);
    KeySortNumeric(Filtered(data, columns, searchTerm), keyField);
  }

  /** The default sort of rows with numeric keys orders the keys increasingly. */
  lemma KeySortNumeric(s: seq<Record>, keyField: string)
    requires keyField != "" && AllNumeric(s, keyField)
    ensures AllNumeric(SortBy(s, KeyComparator(keyField)), keyField)
    ensures NumbersOrdered(SortBy(s, KeyComparator(keyField)), keyField, Asc)
  {
    var rows := SortBy(s, KeyComparator(keyField));
    assert AllHaveValue(s, keyField);
    KeyCompareConsistent(s, keyField);
    SortBySorted(s, KeyComparator(keyField));
    PermutationKeepsNumeric(rows, s, keyField);
    KeyOrderIsAscending(rows, keyField);
    SortedNumbers(rows, SortState(keyField, Asc));
  }

  /** Rows in the default order are in the ascending order of the key column. */
  lemma KeyOrderIsAscending(rows: seq<Record>, keyField: string)
    requires keyField != "" && SortedBy(rows, KeyComparator(keyField))
    ensures SortedBy(rows, Comparator(SortState(keyField, Asc)))
  {
    forall i | 0 <= i < |rows| - 1 ensures Compare(SortState(keyField, Asc), rows[i], rows[i + 1]) <= 0 {
      KeyCompareIsAscending(keyField, rows[i], rows[i + 1]);
    }
  }
}

=== FILE: departments.dfy ===
/** The department administration page: the teacher count of each department computed
    on load, the statistics refresh, and the local list updates after a delete or a save.
    Each network call is an input: its answer, or `None` when it failed. */
module Departments {
  import opened Basics

  datatype Department = Department(id: int, nom: string, code: string, responsable: string,
                                   nbEnseignants: Option<int>, nbEtudiants: Option<int>,
                                   localisation: string, description: string)

  datatype Enseignant = Enseignant(id: int, nom: string, prenom: string, departementId: int)

  /** One entry of the dashboard statistics; `caption` is the page's `label` field (a keyword in Dafny). */
  datatype Stat = Stat(caption: string, count: int)

  const TeachersLabel := "Enseignants"

  /** Students assumed per teacher. */
  const StudentsPerTeacher := 15

  function InDepartement(id: int): Enseignant -> bool {
    (e: Enseignant) => e.departementId == id
  }

  /** The number of teachers attached to department `id`. */
  function TeacherCount(ens: seq<Enseignant>, id: int): (n: nat)
    ensures n == Count(ens, InDepartement(id))
  {
    FilterCount(ens, InDepartement(id));
    |Filter(ens, InDepartement(id))|
  }

  /** `deptWithStats`: every department with its teacher count, nothing else changed. */
  function WithCounts(depts: seq<Department>, ens: seq<Enseignant>): (r: seq<Department>)
    ensures |r| == |depts|
    ensures forall i :: 0 <= i < |r| ==>
      r[i] == depts[i].(nbEnseignants := Some(Count(ens, InDepartement(depts[i].id))))
  {
    if depts == [] then []
    else [depts[0].(nbEnseignants := Some(TeacherCount(ens, depts[0].id)))] + WithCounts(depts[1..], ens)
  }

  // ---------------------------------------------------------------------------
  // The counts add up

  /** The sum of the teacher counts shown. */
  function ShownTeachers(depts: seq<Department>): int {
    if depts == [] then 0
    else (if depts[0].nbEnseignants.Some? then depts[0].nbEnseignants.value else 0) + ShownTeachers(depts[1..])
  }

  predicate DistinctIds(depts: seq<Department>) {
    forall i, j :: 0 <= i < j < |depts| ==> depts[i].id != depts[j].id
  }

  /** The department ids of the list. */
  function Ids(depts: seq<Department>): set<int> {
    set i | 0 <= i < |depts| :: depts[i].id
  }

  function InSome(ids: set<int>): Enseignant -> bool {
    (e: Enseignant) => e.departementId in ids
  }

  /** Counting teachers of one more department, disjoint from the others, adds its count. */
  lemma {:induction false} CountSplit(ens: seq<Enseignant>, id: int, ids: set<int>)
    requires id !in ids
    ensures Count(ens, InSome({id} + ids)) == Count(ens, InDepartement(id)) + Count(ens, InSome(ids))
  {
    if ens != [] {
      CountSplit(ens[1..], id, ids);
    }
  }

  /** With distinct ids, the counts shown add up to the number of teachers attached to one
      of the listed departments: no teacher is counted twice or lost. */
  lemma {:induction false} CountsAddUp(depts: seq<Department>, ens: seq<Enseignant>)
    requires DistinctIds(depts)
    ensures ShownTeachers(WithCounts(depts, ens)) == Count(ens, InSome(Ids(depts)))
  {
    if depts == [] {
      CountNone(ens);
    } else {
      var rest := depts[1..];
      assert WithCounts(depts, ens)[1..] == WithCounts(rest, ens);
      CountsAddUp(rest, ens);
      IdsCons(depts);
      CountSplit(ens, depts[0].id, Ids(rest));
    }
  }

  /** The ids of a list are its head's id, which is not among the others, and the ids of
      its tail. */
  lemma IdsCons(depts: seq<Department>)
    requires depts != [] && DistinctIds(depts)
    ensures Ids(depts) == {depts[0].id} + Ids(depts[1..])
    ensures depts[0].id !in Ids(depts[1..])
  {
    var rest := depts[1..];
    forall x | x in Ids(depts) ensures x in {depts[0].id} + Ids(rest) {
      var i :| 0 <= i < |depts| && depts[i].id == x;
      if i > 0 { assert rest[i - 1].id == x; }
    }
    forall x | x in Ids(rest) ensures x in Ids(depts) {
      var i :| 0 <= i < |rest| && rest[i].id == x;
      assert depts[i + 1].id == x;
    }
    forall i | 0 <= i < |rest| ensures rest[i].id != depts[0].id {
      assert rest[i] == depts[i + 1];
    }
  }

  lemma {:induction false} CountNone(ens: seq<Enseignant>)
    ensures Count(ens, InSome({})) == 0
  {
    if ens != [] {
      CountNone(ens[1..]);
    }
  }

  // ---------------------------------------------------------------------------
  // refreshStats

  /** `statsData.find(stat => stat.label === "Enseignants")`, its count, else 0. */
  function TotalTeachers(stats: seq<Stat>): (n: int)
    ensures (forall i :: 0 <= i < |stats| ==> stats[i].caption != TeachersLabel) ==> n == 0
    ensures forall i :: (0 <= i < |stats| && stats[i].caption == TeachersLabel
                         && forall j :: 0 <= j < i ==> stats[j].caption != TeachersLabel) ==> n == stats[i].count
  {
    if stats == [] then 0
    else if stats[0].caption == TeachersLabel then stats[0].count
    else
      var n := TotalTeachers(stats[1..]);
      assert forall i :: 1 <= i < |stats| ==> stats[i] == stats[1..][i - 1];
      assert forall i :: (0 <= i < |stats| && stats[i].caption == TeachersLabel
                          && forall j :: 0 <= j < i ==> stats[j].caption != TeachersLabel) ==> n == stats[i].count by {
        forall i | 0 <= i < |stats| && stats[i].caption == TeachersLabel
                   && forall j :: 0 <= j < i ==> stats[j].caption != TeachersLabel
          ensures n == stats[i].count
        {
          forall j | 0 <= j < i - 1 ensures stats[1..][j].caption != TeachersLabel {
            assert stats[1..][j] == stats[j + 1];
          }
        }
      }
      n
  }

  /** `refreshStats`, given the answer of the statistics call (`None` when it failed):
      when the global teacher total is positive, every department gets its count and 15
      students per teacher; otherwise the list stays as it is. */
  function RefreshStats(depts: seq<Department>, ens: seq<Enseignant>, stats: Option<seq<Stat>>): (r: seq<Department>)
    ensures |r| == |depts|
    ensures stats.None? || TotalTeachers(stats.value) <= 0 ==> r == depts
    ensures stats.Some? && TotalTeachers(stats.value) > 0 ==> forall i :: 0 <= i < |r| ==>
      var c := Count(ens, InDepartement(depts[i].id));
      r[i] == depts[i].(nbEnseignants := Some(c), nbEtudiants := Some(StudentsPerTeacher * c))
  {
    if stats.Some? && TotalTeachers(stats.value) > 0 then WithStudents(depts, ens) else depts
  }

  function WithStudents(depts: seq<Department>, ens: seq<Enseignant>): (r: seq<Department>)
    ensures |r| == |depts|
    ensures forall i :: 0 <= i < |r| ==>
      var c := Count(ens, InDepartement(depts[i].id));
      r[i] == depts[i].(nbEnseignants := Some(c), nbEtudiants := Some(StudentsPerTeacher * c))
  {
    if depts == [] then []
    else
      var c := TeacherCount(ens, depts[0].id);
      [depts[0].(nbEnseignants := Some(c), nbEtudiants := Some(StudentsPerTeacher * c))] + WithStudents(depts[1..], ens)
  }

  /** A refresh shows the same teacher counts as the load, and refreshing again changes
      nothing. */
  lemma RefreshAgreesWithLoad(depts: seq<Department>, ens: seq<Enseignant>, stats: seq<Stat>)
    requires TotalTeachers(stats) > 0
    ensures var r := RefreshStats(depts, ens, Some(stats));
      && (forall i :: 0 <= i < |r| ==> r[i].nbEnseignants == WithCounts(depts, ens)[i].nbEnseignants)
      && RefreshStats(r, ens, Some(stats)) == r
  {
    var r := RefreshStats(depts, ens, Some(stats));
    var again := RefreshStats(r, ens, Some(stats));
    assert forall i :: 0 <= i < |r| ==> r[i].id == depts[i].id;
    assert forall i :: 0 <= i < |r| ==> again[i] == r[i];
  }

  // ---------------------------------------------------------------------------
  // Local updates

  function OtherThan(id: int): Department -> bool {
    (d: Department) => d.id != id
  }

  /** `deleteDepartment(id)` after the confirmation (`confirmed`) and the delete request
      (`deleted`, false when it failed): only a confirmed, successful delete drops the
      departments with that id. */
  function DeleteDepartment(depts: seq<Department>, id: int, confirmed: bool, deleted: bool): (r: seq<Department>)
    ensures !(confirmed && deleted) ==> r == depts
    ensures confirmed && deleted ==>
      IsSubsequence(r, depts) && forall d :: d in r <==> d in depts && d.id != id
  {
    SubsequenceReflexive(depts);
    if confirmed && deleted then Filter(depts, OtherThan(id)) else depts
  }

  /** The new-department template of `handleNewDepartment`. */
  const Blank := Department(0, "", "", "", Some(0), Some(0), "", "")

  /** `handleSaveDepartment`, given the edited department (`None` when none is selected)
      and the department the request answered (`None` when it failed): a department with
      id 0 is appended as answered, another one replaces the departments with the answered
      id. */
  function SaveDepartment(depts: seq<Department>, selected: Option<Department>, saved: Option<Department>)
    : (r: seq<Department>)
    ensures selected.None? || saved.None? ==> r == depts
    ensures selected.Some? && saved.Some? && selected.value.id == 0 ==> r == depts + [saved.value]
    ensures selected.Some? && saved.Some? && selected.value.id != 0 ==>
      |r| == |depts| && forall i :: 0 <= i < |r| ==>
        r[i] == (if depts[i].id == saved.value.id then saved.value else depts[i])
  {
    if selected.None? || saved.None? then depts
    else if selected.value.id == 0 then depts + [saved.value]
    else ReplaceWhere(depts, (d: Department) => d.id == saved.value.id, saved.value)
  }

  /** An update of a listed department shows the answered version in its place, and the
      other departments as they were. */
  lemma UpdateShowsAnswer(depts: seq<Department>, selected: Department, saved: Department, k: int)
    requires selected.id != 0 && 0 <= k < |depts| && depts[k].id == saved.id
    ensures var r := SaveDepartment(depts, Some(selected), Some(saved));
      && r[k] == saved
      && forall i :: 0 <= i < |r| && depts[i].id != saved.id ==> r[i] == depts[i]
  {
  }

  /** Creating and then deleting the answered department under its id leaves the list
      without that id; when no listed department had the id, that is the list before. */
  lemma CreateThenDelete(depts: seq<Department>, saved: Department)
    requires forall i :: 0 <= i < |depts| ==> depts[i].id != saved.id
    ensures DeleteDepartment(SaveDepartment(depts, Some(Blank), Some(saved)), saved.id, true, true) == depts
  {
    var added := depts + [saved];
    FilterAppend(depts, [saved], OtherThan(saved.id));
    FilterKeepsAll(depts, OtherThan(saved.id));
    assert Filter([saved], OtherThan(saved.id)) == [];
  }
}

=== FILE: form.dfy ===
/** The generic form component: the per-field error map built by `validate`, the field
    update of `handleChange`, and the gate `handleSubmit` puts before the submit callback. */
module FormModel {
  import opened Basics

  datatype FieldKind = Text | Number | Email | Date | Select | Textarea

  datatype Field = Field(name: string, kind: FieldKind, required: bool, min: Option<int>, max: Option<int>)

  /** The form values by field name. */
  type FormData = map<string, Value>

  /** The error messages by field name (`form` for a failed submission). */
  type Errors = map<string, string>

  datatype FormState = FormState(data: FormData, errors: Errors, isSubmitting: bool)

  const RequiredMessage := "Ce champ est obligatoire"
  const InvalidEmail := "Adresse email invalide"
  const SubmitFailed := "Une erreur est survenue lors de la soumission du formulaire"
  const FormKey := "form"

  function MinMessage(min: int): string { "La valeur minimale est " + IntToString(min) }
  function MaxMessage(max: int): string { "La valeur maximale est " + IntToString(max) }

  // ---------------------------------------------------------------------------
  // The e-mail pattern ^[^\s@]+@[^\s@]+\.[^\s@]+$

  /** Characters of the class `[^\s@]`. */
  predicate Plain(c: char) {
    !IsWhite(c) && c != '@'
  }

  predicate AllPlain(s: string) {
    forall i :: 0 <= i < |s| ==> Plain(s[i])
  }

  /** `s` is a non-empty run of `[^\s@]`, `@`, a non-empty run, `.`, a non-empty run. */
  predicate EmailPattern(s: string) {
    exists i, j :: 0 < i && i + 1 < j && j + 1 < |s| && s[i] == '@' && s[j] == '.'
      && AllPlain(s[..i]) && AllPlain(s[i + 1..j]) && AllPlain(s[j + 1..])
  }

  /** A position of `.` in `s` between `lo` and `hi`, the last one if any. */
  function LastDotBetween(s: string, lo: int, hi: int): (k: Option<int>)
    requires 0 <= lo && hi <= |s|
    ensures k.Some? ==> lo <= k.value < hi && s[k.value] == '.'
    ensures k.None? ==> forall j :: lo <= j < hi ==> s[j] != '.'
    decreases hi - lo
  {
    if hi <= lo then None
    else if s[hi - 1] == '.' then Some(hi - 1)
    else LastDotBetween(s, lo, hi - 1)
  }

  /** The check `validate` applies: no white space, exactly one `@` that is not the first
      character, and a `.` after it with at least one character on each side. */
  predicate IsEmail(s: string) {
    AllNotWhite(s) &&
    match IndexOf(s, '@')
    case None => false
    case Some(i) =>
      0 < i && (forall j :: i < j < |s| ==> s[j] != '@') && LastDotBetween(s, i + 2, |s| - 1).Some?
  }

  predicate AllNotWhite(s: string) {
    forall i :: 0 <= i < |s| ==> !IsWhite(s[i])
  }

  /** The check is exactly the pattern. */
  lemma IsEmailMatchesPattern(s: string)
    ensures IsEmail(s) <==> EmailPattern(s)
  {
    if IsEmail(s) {
      EmailCheckSound(s);
    }
    if EmailPattern(s) {
      EmailCheckComplete(s);
    }
  }

  lemma EmailCheckSound(s: string)
    requires IsEmail(s)
    ensures EmailPattern(s)
  {
    var i := IndexOf(s, '@').value;
    var j := LastDotBetween(s, i + 2, |s| - 1).value;
    var head, mid, tail := s[..i], s[i + 1..j], s[j + 1..];
    forall k | 0 <= k < |head| ensures Plain(head[k]) {
      assert head[k] == s[k];
    }
    forall k | 0 <= k < |mid| ensures Plain(mid[k]) {
      assert mid[k] == s[i + 1 + k];
    }
    forall k | 0 <= k < |tail| ensures Plain(tail[k]) {
      assert tail[k] == s[j + 1 + k];
    }
  }

  lemma EmailCheckComplete(s: string)
    requires EmailPattern(s)
    ensures IsEmail(s)
  {
    var i, j :| 0 < i && i + 1 < j && j + 1 < |s| && s[i] == '@' && s[j] == '.'
      && AllPlain(s[..i]) && AllPlain(s[i + 1..j]) && AllPlain(s[j + 1..]);
    var head, mid, tail := s[..i], s[i + 1..j], s[j + 1..];
    forall k | 0 <= k < |s| ensures !IsWhite(s[k]) && (k != i ==> s[k] != '@') {
      if k < i {
        assert head[k] == s[k];
      } else if i < k < j {
        assert mid[k - i - 1] == s[k];
      } else if j < k {
        assert tail[k - j - 1] == s[k];
      }
    }
    assert IndexOf(s, '@') == Some(i);
    assert LastDotBetween(s, i + 2, |s| - 1).Some?;
  }

  // ---------------------------------------------------------------------------
  // validate

  /** The check `field.required && !formData[field.name]` fires. */
  predicate RequiredFires(f: Field, data: FormData) {
    f.required && !Truthy(Get(data, f.name))
  }

  /** A number field with a non-empty value: the range checks look at it. */
  predicate Ranged(f: Field, data: FormData) {
    f.kind == Number && Get(data, f.name) != Str("") && NumberOf(Get(data, f.name)).Some?
  }

  /** The check `value < field.min` fires. */
  predicate MinFires(f: Field, data: FormData) {
    Ranged(f, data) && f.min.Some? && NumberOf(Get(data, f.name)).value < f.min.value
  }

  /** The check `value > field.max` fires. */
  predicate MaxFires(f: Field, data: FormData) {
    Ranged(f, data) && f.max.Some? && NumberOf(Get(data, f.name)).value > f.max.value
  }

  /** The e-mail check fires on a truthy value that does not match the pattern. */
  predicate EmailFires(f: Field, data: FormData) {
    f.kind == Email && Truthy(Get(data, f.name)) && !EmailPattern(ToText(Get(data, f.name)))
  }

  /** The message one field leaves in the error map, if any: each check that fires
      overwrites the previous one. */
  function FieldError(f: Field, data: FormData): (m: Option<string>)
    // a required field left falsy has the required message, unless a range check overwrites it
    ensures RequiredFires(f, data) && !MinFires(f, data) && !MaxFires(f, data) ==> m == Some(RequiredMessage)
    // a number below its minimum has the minimum message, unless it is also above its maximum
    ensures MinFires(f, data) && !MaxFires(f, data) ==> m == Some(MinMessage(f.min.value))
    // a number field above its maximum has the maximum message
    ensures MaxFires(f, data) ==> m == Some(MaxMessage(f.max.value))
    // an e-mail field whose truthy value fails the pattern has the e-mail message
    ensures EmailFires(f, data) ==> m == Some(InvalidEmail)
    // a field none of whose checks fire has none
    ensures m.None? <==> !RequiredFires(f, data) && !MinFires(f, data) && !MaxFires(f, data) && !EmailFires(f, data)
  {
    var v := Get(data, f.name);
    var afterRequired: Option<string> := if f.required && !Truthy(v) then Some(RequiredMessage) else None;
    var n := NumberOf(v);
    var ranged := f.kind == Number && v != Str("") && n.Some?;
    var afterMin := if ranged && f.min.Some? && n.value < f.min.value then Some(MinMessage(f.min.value)) else afterRequired;
    var afterMax := if ranged && f.max.Some? && n.value > f.max.value then Some(MaxMessage(f.max.value)) else afterMin;
    IsEmailMatchesPattern(ToText(v));
    if f.kind == Email && Truthy(v) && !IsEmail(ToText(v)) then Some(InvalidEmail) else afterMax
  }

  /** `validate`: the error map built field by field, in order. */
  function Validate(fields: seq<Field>, data: FormData): (errors: Errors)
    // only field names are keys
    ensures forall k :: k in errors ==> exists f :: f in fields && f.name == k
    // a name is a key iff some field of that name has an error
    ensures forall f :: f in fields && FieldError(f, data).Some? ==> f.name in errors
    decreases |fields|
  {
    if fields == [] then map[]
    else
      var prev := Validate(fields[..|fields| - 1], data);
      var last := fields[|fields| - 1];
      var m := FieldError(last, data);
      if m.Some? then prev[last.name := m.value] else prev
  }

  /** The message kept for a name is the one of the last field of that name that has one. */
  lemma {:induction false} ValidateKeepsLastMessage(fields: seq<Field>, data: FormData, k: int)
    requires 0 <= k < |fields| && FieldError(fields[k], data).Some?
    requires forall j :: k < j < |fields| && fields[j].name == fields[k].name ==> FieldError(fields[j], data).None?
    ensures Validate(fields, data)[fields[k].name] == FieldError(fields[k], data).value
    decreases |fields|
  {
    if k < |fields| - 1 {
      ValidateKeepsLastMessage(fields[..|fields| - 1], data, k);
    }
  }

  /** Every key of the map comes from a field of that name with an error. */
  lemma {:induction false} ValidateKeysHaveErrors(fields: seq<Field>, data: FormData, name: string)
    requires name in Validate(fields, data)
    ensures exists f :: f in fields && f.name == name && FieldError(f, data).Some?
    decreases |fields|
  {
    var init := fields[..|fields| - 1];
    var last := fields[|fields| - 1];
    if !(last.name == name && FieldError(last, data).Some?) {
      ValidateKeysHaveErrors(init, data, name);
      var f :| f in init && f.name == name && FieldError(f, data).Some?;
      assert f in fields;
    }
  }

  /** `validate()` returns true iff no field has an error. */
  predicate IsValid(fields: seq<Field>, data: FormData) {
    |Validate(fields, data)| == 0
  }

  lemma ValidIffNoFieldError(fields: seq<Field>, data: FormData)
    ensures IsValid(fields, data) <==> forall f :: f in fields ==> FieldError(f, data).None?
  {
    if !IsValid(fields, data) {
      var errors := Validate(fields, data);
      var name :| name in errors;
      ValidateKeysHaveErrors(fields, data, name);
    }
  }

  /** A number field whose text is not a number passes every range check. */
  lemma NotANumberPassesRange(f: Field, data: FormData)
    requires f.kind == Number && !f.required
    requires NumberOf(Get(data, f.name)).None?
    ensures FieldError(f, data).None?
  {
  }

  // ---------------------------------------------------------------------------
  // handleChange and handleSubmit

  /** The value an input event stores: number inputs hold `""` or `Number(value)`. */
  function InputValue(value: string, inputType: string): (v: Value)
    ensures inputType != "number" ==> v == Str(value)
    ensures inputType == "number" && value == "" ==> v == Str("")
    ensures inputType == "number" && value != "" ==> v.Num? || v.NaN?
  {
    if inputType != "number" then Str(value)
    else if value == "" then Str("")
    else match NumberOf(Str(value))
      case Some(n) => Num(n)
      case None => NaN
  }

  /** `handleChange`: stores the new value of the field and clears its error. */
  function HandleChange(s: FormState, name: string, value: string, inputType: string): (r: FormState)
    ensures r.data == s.data[name := InputValue(value, inputType)]
    ensures r.isSubmitting == s.isSubmitting
    // only that field's error goes, and only if it was a non-empty message
    ensures name in s.errors && s.errors[name] != "" ==> name !in r.errors
    ensures forall k :: k != name ==> (k in r.errors <==> k in s.errors)
    ensures forall k :: k in r.errors ==> k in s.errors && r.errors[k] == s.errors[k]
  {
    var errors := if name in s.errors && s.errors[name] != "" then s.errors - {name} else s.errors;
    FormState(s.data[name := InputValue(value, inputType)], errors, s.isSubmitting)
  }

  /** Editing a field leaves the value of every other field as it was. */
  lemma ChangeOnlyTouchesField(s: FormState, name: string, value: string, inputType: string, other: string)
    requires other != name
    ensures Get(HandleChange(s, name, value, inputType).data, other) == Get(s.data, other)
  {
  }

  /** `handleSubmit`, with `submitFails` saying whether the callback throws. Returns the new
      state and the data handed to the callback, if it was called. */
  function HandleSubmit(s: FormState, fields: seq<Field>, submitFails: bool): (r: (FormState, Option<FormData>))
    // the callback is called, with the form data, iff the form is valid
    ensures r.1.Some? <==> IsValid(fields, s.data)
    ensures r.1.Some? ==> r.1.value == s.data
    // the values are untouched; a valid form is not left submitting, an invalid one never starts
    ensures r.0.data == s.data
    ensures r.0.isSubmitting == (s.isSubmitting && !IsValid(fields, s.data))
    // an invalid form shows the validation errors
    ensures !IsValid(fields, s.data) ==> r.0.errors == Validate(fields, s.data) && |r.0.errors| > 0
    // a valid form shows nothing, or only the form-level message if the callback throws
    ensures IsValid(fields, s.data) ==> r.0.errors == if submitFails then map[FormKey := SubmitFailed] else map[]
  {
    var errors := Validate(fields, s.data);
    if |errors| != 0 then (FormState(s.data, errors, s.isSubmitting), None)
    else if submitFails then (FormState(s.data, map[FormKey := SubmitFailed], false), Some(s.data))
    else (FormState(s.data, errors, false), Some(s.data))
  }

  /** A form with a required field left empty never reaches the callback. */
  lemma RequiredEmptyBlocksSubmit(s: FormState, fields: seq<Field>, submitFails: bool, f: Field)
    requires f in fields && f.required && !Truthy(Get(s.data, f.name))
    ensures HandleSubmit(s, fields, submitFails).1.None?
    ensures f.name in HandleSubmit(s, fields, submitFails).0.errors
  {
    ValidIffNoFieldError(fields, s.data);
  }
}

=== FILE: intervention_creation.dfy ===
/** The server action `createIntervention` of the new-intervention admin page: a
    required-field gate followed by three writes (the intervention, a 'Créée' history
    row, and an optional planning row), and the list of academic years the page offers.
    The planning row is written directly, without the conflict checks of
    `PlanningGate.Post`. */
module InterventionCreation {
  import opened Basics
  import PlanningGate

  datatype Intervention = Intervention(id: int, enseignantId: int, coursId: int, groupeId: Option<int>,
                                       heures: real, annee: string)

  datatype HistoryEntry = HistoryEntry(interventionId: int, statut: string, commentaire: string)

  /** The three tables the action writes to. */
  datatype Store = Store(interventions: seq<Intervention>, history: seq<HistoryEntry>,
                         planning: seq<PlanningGate.Slot>)

  /** The submitted form after the action's conversions. `Number()` of an empty,
      missing or unparseable entry is 0 or NaN; both are falsy and both take the same
      branch everywhere below, so both are written 0. `annee` is "" when missing;
      `date`, `debut` and `fin` are absent when missing or empty. */
  datatype Form = Form(enseignantId: int, coursId: int, groupeId: int, heures: real, annee: string,
                       date: Option<PlanningGate.Day>, debut: Option<PlanningGate.Minute>,
                       fin: Option<PlanningGate.Minute>, salleId: int)

  /** Which inserts fail. */
  datatype Faults = Faults(interventionInsert: bool, historyInsert: bool, planningInsert: bool)

  /** How the action ends: an error thrown before the writes, an error thrown from the
      `catch` block, or a redirect. */
  datatype Result = Rejected(message: string) | Failed(message: string) | Redirected(path: string)

  datatype Outcome = Outcome(result: Result, store: Store)

  const RequiredMissing := "Les champs obligatoires doivent être remplis"
  const CreationError := "Erreur lors de la création de l'intervention"
  const CreatedStatus := "Créée"
  const CreatedComment := "Intervention créée dans le système"
  const ListPath := "/admin/interventions"

  /** `enseignant_id`, `cours_id`, `heures` and `annee` are all truthy. */
  predicate HasRequiredFields(f: Form) {
    f.enseignantId != 0 && f.coursId != 0 && f.heures != 0.0 && f.annee != ""
  }

  /** `date && debut && fin && salle_id`: the form asks for a planning row. */
  predicate HasPlanning(f: Form) {
    f.date.Some? && f.debut.Some? && f.fin.Some? && f.salleId != 0
  }

  /** The intervention row inserted for a form: `groupe_id || null`. */
  function NewIntervention(f: Form, id: int): (iv: Intervention)
    ensures iv.groupeId.None? <==> f.groupeId == 0
    ensures iv.groupeId.Some? ==> iv.groupeId.value == f.groupeId
    ensures iv.id == id && iv.enseignantId == f.enseignantId && iv.coursId == f.coursId
    ensures iv.heures == f.heures && iv.annee == f.annee
  {
    Intervention(id, f.enseignantId, f.coursId, if f.groupeId == 0 then None else Some(f.groupeId),
                 f.heures, f.annee)
  }

  /** The planning row inserted for a form that asks for one. */
  function NewPlanning(f: Form, interventionId: int, slotId: int): PlanningGate.Slot
    requires HasPlanning(f)
  {
    PlanningGate.Slot(slotId, interventionId, f.salleId, f.date.value, f.debut.value, f.fin.value)
  }

  /** The writes of the `try` block, for a form that passed the gate: nothing when the
      intervention insert fails; otherwise the intervention, then the history row and
      the planning row unless their own insert fails. `newId` and `slotId` are the ids
      the store gives the new rows. */
  function Writes(store: Store, f: Form, faults: Faults, newId: int, slotId: int): (s: Option<Store>)
    ensures s.None? <==> faults.interventionInsert
    ensures s.Some? ==>
      && s.value.interventions == store.interventions + [NewIntervention(f, newId)]
      && s.value.history == store.history
           + (if faults.historyInsert then [] else [HistoryEntry(newId, CreatedStatus, CreatedComment)])
      && s.value.planning == store.planning
           + (if HasPlanning(f) && !faults.planningInsert then [NewPlanning(f, newId, slotId)] else [])
  {
    if faults.interventionInsert then None
    else
      var s1 := store.(interventions := store.interventions + [NewIntervention(f, newId)]);
      var s2 := if faults.historyInsert then s1
                else s1.(history := s1.history + [HistoryEntry(newId, CreatedStatus, CreatedComment)]);
      var s3 := if !HasPlanning(f) || faults.planningInsert then s2
                else s2.(planning := s2.planning + [NewPlanning(f, newId, slotId)]);
      Some(s3)
  }

  /** `createIntervention` as written. `redirect()` signals by throwing, and it is
      called inside the `try` whose `catch` rethrows every error as the generic
      creation error; so after the writes the action ends with that error too. */
  function CreateIntervention(store: Store, f: Form, faults: Faults, newId: int, slotId: int): (out: Outcome)
    ensures !HasRequiredFields(f) ==> out == Outcome(Rejected(RequiredMissing), store)
    ensures HasRequiredFields(f) ==> out.result == Failed(CreationError)
    ensures HasRequiredFields(f) && !faults.interventionInsert ==>
      Writes(store, f, faults, newId, slotId) == Some(out.store)
    ensures faults.interventionInsert ==> out.store == store
  {
    if !HasRequiredFields(f) then Outcome(Rejected(RequiredMissing), store)
    else
      match Writes(store, f, faults, newId, slotId)
      case None => Outcome(Failed(CreationError), store)
      case Some(s) => Outcome(Failed(CreationError), s)
  }

  /** The redirect to the list is never reached, and a creation reported as failed
      may have written its rows. */
  lemma CreationReportsFailureAfterWriting(store: Store, f: Form, faults: Faults, newId: int, slotId: int)
    requires HasRequiredFields(f) && !faults.interventionInsert
    ensures !CreateIntervention(store, f, faults, newId, slotId).result.Redirected?
    ensures CreateIntervention(store, f, faults, newId, slotId).result.Failed?
    ensures NewIntervention(f, newId) in CreateIntervention(store, f, faults, newId, slotId).store.interventions
  {
    var out := CreateIntervention(store, f, faults, newId, slotId);
    assert out.store.interventions == store.interventions + [NewIntervention(f, newId)];
    assert out.store.interventions[|store.interventions|] == NewIntervention(f, newId);
  }

  /** `createIntervention` with the redirect moved after the `try`, as evidently
      intended: the generic error is reported exactly when nothing was written. */
  function CreateInterventionFixed(store: Store, f: Form, faults: Faults, newId: int, slotId: int): (out: Outcome)
    ensures !HasRequiredFields(f) ==> out == Outcome(Rejected(RequiredMissing), store)
    ensures out.result.Redirected? <==> HasRequiredFields(f) && !faults.interventionInsert
    ensures out.result.Redirected? ==> out.result.path == ListPath
    ensures out.result.Failed? <==> HasRequiredFields(f) && faults.interventionInsert
    ensures !out.result.Redirected? ==> out.store == store
    ensures out.result.Redirected? ==> Writes(store, f, faults, newId, slotId) == Some(out.store)
  {
    if !HasRequiredFields(f) then Outcome(Rejected(RequiredMissing), store)
    else
      match Writes(store, f, faults, newId, slotId)
      case None => Outcome(Failed(CreationError), store)
      case Some(s) => Outcome(Redirected(ListPath), s)
  }

  /** Hours of 0 are refused like missing hours, and nothing is written. */
  lemma ZeroHoursRejected(store: Store, f: Form, faults: Faults, newId: int, slotId: int)
    requires f.heures == 0.0
    ensures CreateInterventionFixed(store, f, faults, newId, slotId) == Outcome(Rejected(RequiredMissing), store)
  {
  }

  /** A failing history insert does not stop the creation: the intervention and the
      planning row are still written. */
  lemma HistoryFailureNotFatal(store: Store, f: Form, faults: Faults, newId: int, slotId: int)
    requires HasRequiredFields(f) && HasPlanning(f)
    requires !faults.interventionInsert && faults.historyInsert && !faults.planningInsert
    ensures var out := CreateInterventionFixed(store, f, faults, newId, slotId);
      && out.result == Redirected(ListPath)
      && out.store.history == store.history
      && out.store.planning == store.planning + [NewPlanning(f, newId, slotId)]
  {
  }

  /** The planning row of a creation is written even when the conflict gate would
      refuse the same slot: a well-formed booking of the same room and day is already
      there, yet the row is appended. */
  lemma CreationBypassesGate(store: Store, f: Form, faults: Faults, newId: int, slotId: int, k: int)
    requires HasRequiredFields(f) && HasPlanning(f) && f.debut.value <= f.fin.value
    requires newId != 0 && !faults.interventionInsert && !faults.planningInsert
    requires 0 <= k < |store.planning|
    requires store.planning[k].salleId == f.salleId && store.planning[k].date == f.date.value
    requires PlanningGate.WellFormed(store.planning[k])
    ensures var gate := PlanningGate.Post(PlanningGate.Store(store.planning, []),
                                          PlanningGate.Request(newId, f.salleId, f.date, f.debut, f.fin),
                                          PlanningGate.Faults(false, false, false, false), slotId);
      gate.reply == PlanningGate.ClientError(PlanningGate.RoomBusy)
    ensures NewPlanning(f, newId, slotId) in CreateInterventionFixed(store, f, faults, newId, slotId).store.planning
  {
    var req := PlanningGate.Request(newId, f.salleId, f.date, f.debut, f.fin);
    PlanningGate.SameRoomSlotBlocks(PlanningGate.Store(store.planning, []), req,
                                    PlanningGate.Faults(false, false, false, false), slotId, k);
    var out := CreateInterventionFixed(store, f, faults, newId, slotId);
    assert out.store.planning[|store.planning|] == NewPlanning(f, newId, slotId);
  }

  // ---------------------------------------------------------------------------
  // Academic years offered by the form

  /** The label `"<y>-<y+1>"` of the academic year starting in `y`. */
  function YearLabel(y: int): string {
    IntToString(y) + "-" + IntToString(y + 1)
  }

  /** Reads back the starting year of a label: two digit runs around the first '-',
      the second one more than the first. */
  function ParseYearLabel(text: string): Option<nat> {
    match IndexOf(text, '-')
    case None => None
    case Some(k) =>
      var a, b := text[..k], text[k + 1..];
      if a != [] && b != [] && AllDigits(a) && AllDigits(b) && DigitsValue(b) == DigitsValue(a) + 1
      then Some(DigitsValue(a)) else None
  }

  /** A label reads back as the year it was made from. */
  lemma YearLabelRoundTrip(y: nat)
    ensures ParseYearLabel(YearLabel(y)) == Some(y)
  {
    var a, b := NatToString(y), NatToString(y + 1);
    var text := YearLabel(y);
    assert text == a + "-" + b;
    assert forall i :: 0 <= i < |a| ==> text[i] == a[i];
    assert text[|a|] == '-';
    assert IndexOf(text, '-') == Some(|a|);
    assert text[..|a|] == a && text[|a| + 1..] == b;
    NatToStringRoundTrip(y);
    NatToStringRoundTrip(y + 1);
  }

  /** The three academic years starting with the current one. */
  method AcademicYears(currentYear: int) returns (years: seq<string>)
    ensures |years| == 3
    ensures forall i :: 0 <= i < 3 ==> years[i] == YearLabel(currentYear + i)
  {
    years := [];
    var i := 0;
    while i < 3
      invariant 0 <= i <= 3
      invariant |years| == i
      invariant forall j :: 0 <= j < i ==> years[j] == YearLabel(currentYear + j)
    {
      var startYear := currentYear + i;
      var endYear := startYear + 1;
      years := years + [IntToString(startYear) + "-" + IntToString(endYear)];
      i := i + 1;
    }
  }

  /** The offered labels are distinct and name consecutive years. */
  lemma AcademicYearsDistinct(currentYear: nat, years: seq<string>)
    requires |years| == 3
    requires forall i :: 0 <= i < 3 ==> years[i] == YearLabel(currentYear + i)
    ensures forall i :: 0 <= i < 3 ==> ParseYearLabel(years[i]) == Some(currentYear + i)
    ensures forall i, j :: 0 <= i < j < 3 ==> years[i] != years[j]
  {
    forall i | 0 <= i < 3 ensures ParseYearLabel(years[i]) == Some(currentYear + i) {
      YearLabelRoundTrip(currentYear + i);
    }
  }
}

=== FILE: intervention_list.dfy ===
/** The interventions page: the list of academic years present in the data, newest
    first; the year selected by default; and the three selectors (teacher, course, year),
    each matching everything while empty. */
module InterventionList {
  import opened Basics

  datatype Ref = Ref(id: int)

  datatype Intervention = Intervention(id: int, enseignant: Option<Ref>, cours: Option<Ref>, annee: string)

  // ---------------------------------------------------------------------------
  // The year list

  /** Every element comes after every later one in text order: no repeats, newest first. */
  predicate StrictlyDescending(s: seq<string>) {
    forall i, j :: 0 <= i < j < |s| ==> StrLess(s[j], s[i])
  }

  /** Puts `y` into a strictly descending list, unless it is there already. */
  function InsertYear(s: seq<string>, y: string): (r: seq<string>)
    requires StrictlyDescending(s)
    ensures StrictlyDescending(r)
    ensures forall x :: x in r <==> x in s || x == y
  {
    if s == [] then [y]
    else if s[0] == y then s
    else if StrLess(s[0], y) then
      assert forall j :: 0 <= j < |s| ==> StrLess(s[j], y) by {
        forall j | 0 <= j < |s| ensures StrLess(s[j], y) {
          if j > 0 { StrLessTransitive(s[j], s[0], y); }
        }
      }
      [y] + s
    else
      StrLessTotal(s[0], y);
      var rest := InsertYear(s[1..], y);
      assert forall x :: x in rest ==> StrLess(x, s[0]) by {
        forall x | x in rest ensures StrLess(x, s[0]) {
          if x != y {
            var k :| 0 <= k < |s[1..]| && s[1..][k] == x;
            assert s[k + 1] == x;
          }
        }
      }
      var r := [s[0]] + rest;
      assert forall j :: 0 < j < |r| ==> r[j] in rest by {
        forall j | 0 < j < |r| ensures r[j] in rest {
          assert r[j] == rest[j - 1];
        }
      }
      r
  }

  /** Some intervention of `data` is of year `y`. */
  predicate HasYear(data: seq<Intervention>, y: string) {
    exists i :: 0 <= i < |data| && data[i].annee == y
  }

  /** `[...new Set(data.map(i => i.annee))].sort().reverse()`. */
  function UniqueYears(data: seq<Intervention>): (r: seq<string>)
    ensures StrictlyDescending(r)
    ensures forall y :: y in r <==> HasYear(data, y)
  {
    if data == [] then []
    else
      var init := data[..|data| - 1];
      var r := InsertYear(UniqueYears(init), data[|data| - 1].annee);
      assert forall y :: HasYear(data, y) <==> HasYear(init, y) || y == data[|data| - 1].annee by {
        forall y | HasYear(data, y) ensures HasYear(init, y) || y == data[|data| - 1].annee {
          var i :| 0 <= i < |data| && data[i].annee == y;
          if i < |init| { assert init[i] == data[i]; }
        }
        forall y | HasYear(init, y) ensures HasYear(data, y) {
          var i :| 0 <= i < |init| && init[i].annee == y;
          assert data[i] == init[i];
        }
      }
      r
  }

  /** A strictly descending list is determined by its elements: the year list is the only
      newest-first list without repeats of the years present. */
  lemma {:induction false} DescendingUnique(a: seq<string>, b: seq<string>)
    requires StrictlyDescending(a) && StrictlyDescending(b)
    requires forall x :: x in a <==> x in b
    ensures a == b
    decreases |a|
  {
    if a != [] && b != [] {
      assert a[0] == b[0] by {
        if a[0] != b[0] {
          assert a[0] in b && b[0] in a;
          var i :| 0 <= i < |b| && b[i] == a[0];
          var j :| 0 <= j < |a| && a[j] == b[0];
          assert StrLess(a[0], b[0]);
          assert StrLess(b[0], a[0]);
          StrLessAsymmetric(a[0], b[0]);
          assert false;
        }
      }
      forall x ensures x in a[1..] <==> x in b[1..] {
        if x in a[1..] {
          var k :| 0 <= k < |a[1..]| && a[1..][k] == x;
          assert StrLess(x, a[0]);
          StrLessIrreflexive(x);
          assert x in b;
        }
        if x in b[1..] {
          var k :| 0 <= k < |b[1..]| && b[1..][k] == x;
          assert StrLess(x, b[0]);
          StrLessIrreflexive(x);
          assert x in a;
        }
      }
      DescendingUnique(a[1..], b[1..]);
      assert a == [a[0]] + a[1..] && b == [b[0]] + b[1..];
    } else if a != [] {
      HasElement(a);
      assert false;
    } else if b != [] {
      HasElement(b);
      assert false;
    }
  }

  lemma HasElement(s: seq<string>)
    requires s != []
    ensures exists x :: x in s
  {
    assert s[0] in s;
  }

  /** The year selected after loading: the newest year when none was selected and there
      is one. */
  function DefaultYear(years: seq<string>, selected: string): (r: string)
    requires StrictlyDescending(years)
    ensures selected != "" || years == [] ==> r == selected
    ensures selected == "" && years != [] ==> r in years && forall y :: y in years ==> y == r || StrLess(y, r)
  {
    if |years| > 0 && selected == "" then years[0] else selected
  }

  // ---------------------------------------------------------------------------
  // The filter

  /** An empty selector, or the related record present with its id written as selected. */
  predicate RefMatches(r: Option<Ref>, selected: string) {
    selected == "" || (r.Some? && IntToString(r.value.id) == selected)
  }

  predicate Kept(iv: Intervention, enseignant: string, cours: string, annee: string) {
    RefMatches(iv.enseignant, enseignant) && RefMatches(iv.cours, cours) && (annee == "" || iv.annee == annee)
  }

  function KeptBy(enseignant: string, cours: string, annee: string): Intervention -> bool {
    (iv: Intervention) => Kept(iv, enseignant, cours, annee)
  }

  /** `filteredInterventions`. */
  function FilteredInterventions(data: seq<Intervention>, enseignant: string, cours: string, annee: string)
    : (r: seq<Intervention>)
    ensures |r| <= |data| && IsSubsequence(r, data)
    ensures forall iv :: iv in r <==> iv in data && Kept(iv, enseignant, cours, annee)
  {
    Filter(data, KeptBy(enseignant, cours, annee))
  }

  function ByTeacher(enseignant: string): Intervention -> bool {
    (iv: Intervention) => RefMatches(iv.enseignant, enseignant)
  }

  function ByCourse(cours: string): Intervention -> bool {
    (iv: Intervention) => RefMatches(iv.cours, cours)
  }

  function ByYear(annee: string): Intervention -> bool {
    (iv: Intervention) => annee == "" || iv.annee == annee
  }

  function ByTeacherAndCourse(enseignant: string, cours: string): Intervention -> bool {
    (iv: Intervention) => RefMatches(iv.enseignant, enseignant) && RefMatches(iv.cours, cours)
  }

  /** The three selectors act independently: applying them one after the other gives the
      same list. */
  lemma FilterIsConjunction(data: seq<Intervention>, enseignant: string, cours: string, annee: string)
    ensures FilteredInterventions(data, enseignant, cours, annee)
         == Filter(Filter(Filter(data, ByTeacher(enseignant)), ByCourse(cours)), ByYear(annee))
  {
    FilterFilter(data, ByTeacher(enseignant), ByCourse(cours), ByTeacherAndCourse(enseignant, cours));
    FilterFilter(data, ByTeacherAndCourse(enseignant, cours), ByYear(annee), KeptBy(enseignant, cours, annee));
  }

  /** With every selector empty, the whole list shows in order. */
  lemma NoSelectionShowsAll(data: seq<Intervention>)
    ensures FilteredInterventions(data, "", "", "") == data
  {
    FilterKeepsAll(data, KeptBy("", "", ""));
  }

  /** After loading with no year chosen, only interventions of the newest year show. */
  lemma DefaultShowsNewestYear(data: seq<Intervention>, enseignant: string, cours: string)
    requires data != []
    ensures var years := UniqueYears(data);
      forall iv :: iv in FilteredInterventions(data, enseignant, cours, DefaultYear(years, "")) ==>
        iv.annee == years[0] && forall y :: y in years ==> y == iv.annee || StrLess(y, iv.annee)
  {
    var years := UniqueYears(data);
    assert HasYear(data, data[0].annee);
    var top := DefaultYear(years, "");
    assert top == years[0];
    forall iv | iv in FilteredInterventions(data, enseignant, cours, top)
      ensures iv.annee == top && forall y :: y in years ==> y == top || StrLess(y, top)
    {
      forall y | y in years ensures y == top || StrLess(y, top) {
        var k :| 0 <= k < |years| && years[k] == y;
        if k > 0 { assert StrLess(years[k], years[0]); }
      }
      var k :| 0 <= k < |data| && data[k] == iv;
      assert HasYear(data, iv.annee);
    }
  }
}

=== FILE: planning.dfy ===
/** The admission gate of `POST /api/planning`, the route that creates planning slots.
    A request is checked for its required fields, then against the slots of the same room
    and day, then (through its intervention) against the slots of the same teacher and
    day, and is inserted only when both searches come back empty. The time filter is the
    one the route sends to the store, `debut <= fin_new OR fin >= debut_new`: inclusive
    and disjunctive. */
module PlanningGate {
  import opened Basics

  /** A calendar date as a day number. */
  type Day = int
  /** A time of day in minutes since midnight. */
  type Minute = int

  /** A row of the `planning` table. */
  datatype Slot = Slot(id: int, interventionId: int, salleId: int, date: Day, debut: Minute, fin: Minute)

  /** The part of an `intervention` row the gate reads. */
  datatype InterventionRow = InterventionRow(id: int, enseignantId: int)

  datatype Store = Store(slots: seq<Slot>, interventions: seq<InterventionRow>)

  /** The JSON body. An id of 0 stands for a missing or falsy id; an absent date or
      time stands for a missing or empty one. */
  datatype Request = Request(interventionId: int, salleId: int, date: Option<Day>,
                             debut: Option<Minute>, fin: Option<Minute>)

  /** Which store calls fail; a failing call is answered with a 500. */
  datatype Faults = Faults(roomQuery: bool, interventionQuery: bool, teacherQuery: bool, insert: bool)

  datatype Reply = Created(slot: Slot) | ClientError(message: string) | ServerError

  datatype Outcome = Outcome(reply: Reply, store: Store)

  const MissingFields := "Tous les champs obligatoires doivent être remplis"
  const RoomBusy := "La salle est déjà occupée sur ce créneau horaire"
  const TeacherBusy := "L'enseignant est déjà occupé sur ce créneau horaire"

  /** The HTTP status of a reply. */
  function Status(r: Reply): (code: int)
    ensures code == 201 <==> r.Created?
    ensures code == 400 <==> r.ClientError?
  {
    match r
    case Created(_) => 201
    case ClientError(_) => 400
    case ServerError => 500
  }

  /** Every one of intervention_id, salle_id, date, debut and fin is truthy. */
  predicate HasRequiredFields(req: Request) {
    req.interventionId != 0 && req.salleId != 0 && req.date.Some? && req.debut.Some? && req.fin.Some?
  }

  /** A slot whose start is not after its end. Nothing in the route enforces it. */
  predicate WellFormed(s: Slot) {
    s.debut <= s.fin
  }

  /** The time filter of the two conflict queries, for an existing slot `s` and a
      candidate `[debut, fin]`. */
  predicate TimeClash(s: Slot, debut: Minute, fin: Minute) {
    s.debut <= fin || s.fin >= debut
  }

  /** The textbook overlap of half-open intervals, for comparison. */
  predicate Overlaps(s: Slot, debut: Minute, fin: Minute) {
    s.debut < fin && debut < s.fin
  }

  /** The answer of the room query: same room, same date, clashing time. */
  function RoomConflicts(slots: seq<Slot>, salleId: int, date: Day, debut: Minute, fin: Minute): (r: seq<Slot>)
    ensures IsSubsequence(r, slots)
    ensures forall s :: s in r <==> s in slots && s.salleId == salleId && s.date == date && TimeClash(s, debut, fin)
  {
    Filter(slots, (s: Slot) => s.salleId == salleId && s.date == date && TimeClash(s, debut, fin))
  }

  /** The intervention `interventionId` exists in the store and belongs to `teacher`:
      the inner join of the teacher query. */
  predicate TaughtBy(interventions: seq<InterventionRow>, interventionId: int, teacher: int) {
    exists k | 0 <= k < |interventions| :: interventions[k].id == interventionId && interventions[k].enseignantId == teacher
  }

  /** The row test `id = interventionId`. */
  function HasId(interventionId: int): InterventionRow -> bool {
    (r: InterventionRow) => r.id == interventionId
  }

  /** `.single()` on the intervention lookup: the teacher of the one row with that id,
      and nothing when there are zero rows or several. */
  function TeacherOf(interventions: seq<InterventionRow>, interventionId: int): (t: Option<int>)
    ensures t.Some? <==> Count(interventions, HasId(interventionId)) == 1
    ensures t.Some? ==> TaughtBy(interventions, interventionId, t.value)
  {
    var rows := Filter(interventions, HasId(interventionId));
    FilterCount(interventions, HasId(interventionId));
    if |rows| == 1 then
      assert rows[0] in interventions;
      var k :| 0 <= k < |interventions| && interventions[k] == rows[0];
      Some(rows[0].enseignantId)
    else
      None
  }

  /** The answer of the teacher query: same date, an intervention of the same
      teacher, clashing time. The room plays no part. */
  function TeacherConflicts(store: Store, teacher: int, date: Day, debut: Minute, fin: Minute): (r: seq<Slot>)
    ensures IsSubsequence(r, store.slots)
    ensures forall s :: s in r <==> (s in store.slots && s.date == date
      && TaughtBy(store.interventions, s.interventionId, teacher) && TimeClash(s, debut, fin))
  {
    Filter(store.slots, (s: Slot) => s.date == date && TaughtBy(store.interventions, s.interventionId, teacher)
                                     && TimeClash(s, debut, fin))
  }

  /** The slot the route inserts for a complete request. */
  function NewSlot(req: Request, newId: int): Slot
    requires HasRequiredFields(req)
  {
    Slot(newId, req.interventionId, req.salleId, req.date.value, req.debut.value, req.fin.value)
  }

  /** `POST /api/planning`. `newId` is the id the store gives a new row. */
  function Post(store: Store, req: Request, faults: Faults, newId: int): (out: Outcome)
    // a missing field answers 400 before any query
    ensures !HasRequiredFields(req) ==> out == Outcome(ClientError(MissingFields), store)
    // the room check comes first: any room conflict answers the room message
    ensures HasRequiredFields(req) && !faults.roomQuery
      && RoomConflicts(store.slots, req.salleId, req.date.value, req.debut.value, req.fin.value) != []
      ==> out.reply == ClientError(RoomBusy)
    // an intervention id that does not name exactly one row aborts with 500
    ensures HasRequiredFields(req) && !faults.roomQuery
      && RoomConflicts(store.slots, req.salleId, req.date.value, req.debut.value, req.fin.value) == []
      && TeacherOf(store.interventions, req.interventionId).None?
      ==> out.reply == ServerError
    // a failing room query answers 500 before anything else is looked at
    ensures HasRequiredFields(req) && faults.roomQuery ==> out.reply == ServerError
    // the intervention lookup comes after the room check: its failure answers 500
    ensures HasRequiredFields(req) && !faults.roomQuery
      && RoomConflicts(store.slots, req.salleId, req.date.value, req.debut.value, req.fin.value) == []
      && faults.interventionQuery
      ==> out.reply == ServerError
    // with the room free and the teacher known, a failing teacher query answers 500
    ensures HasRequiredFields(req) && !faults.roomQuery && !faults.interventionQuery
      && RoomConflicts(store.slots, req.salleId, req.date.value, req.debut.value, req.fin.value) == []
      && TeacherOf(store.interventions, req.interventionId).Some?
      && faults.teacherQuery
      ==> out.reply == ServerError
    // with the room free, any teacher conflict answers the teacher message
    ensures HasRequiredFields(req) && !faults.roomQuery && !faults.interventionQuery && !faults.teacherQuery
      && RoomConflicts(store.slots, req.salleId, req.date.value, req.debut.value, req.fin.value) == []
      && TeacherOf(store.interventions, req.interventionId).Some?
      && TeacherConflicts(store, TeacherOf(store.interventions, req.interventionId).value,
                          req.date.value, req.debut.value, req.fin.value) != []
      ==> out.reply == ClientError(TeacherBusy)
    // with both searches empty, a failing insert answers 500
    ensures HasRequiredFields(req) && !faults.roomQuery && !faults.interventionQuery && !faults.teacherQuery
      && RoomConflicts(store.slots, req.salleId, req.date.value, req.debut.value, req.fin.value) == []
      && TeacherOf(store.interventions, req.interventionId).Some?
      && TeacherConflicts(store, TeacherOf(store.interventions, req.interventionId).value,
                          req.date.value, req.debut.value, req.fin.value) == []
      && faults.insert
      ==> out.reply == ServerError
    // the teacher message is only given when the room is free
    ensures out.reply == ClientError(TeacherBusy) ==>
      HasRequiredFields(req)
      && RoomConflicts(store.slots, req.salleId, req.date.value, req.debut.value, req.fin.value) == []
      && TeacherOf(store.interventions, req.interventionId).Some?
      && TeacherConflicts(store, TeacherOf(store.interventions, req.interventionId).value,
                          req.date.value, req.debut.value, req.fin.value) != []
    // a slot is created exactly when every check passes
    ensures out.reply.Created? <==>
      HasRequiredFields(req) && !faults.roomQuery && !faults.interventionQuery
      && !faults.teacherQuery && !faults.insert
      && RoomConflicts(store.slots, req.salleId, req.date.value, req.debut.value, req.fin.value) == []
      && TeacherOf(store.interventions, req.interventionId).Some?
      && TeacherConflicts(store, TeacherOf(store.interventions, req.interventionId).value,
                          req.date.value, req.debut.value, req.fin.value) == []
    // only a creation changes the store, and it appends exactly the requested slot
    ensures !out.reply.Created? ==> out.store == store
    ensures out.reply.Created? ==>
      && out.reply.slot == NewSlot(req, newId)
      && out.store == store.(slots := store.slots + [out.reply.slot])
  {
    if !HasRequiredFields(req) then Outcome(ClientError(MissingFields), store)
    else
      var date, debut, fin := req.date.value, req.debut.value, req.fin.value;
      if faults.roomQuery then Outcome(ServerError, store)
      else if RoomConflicts(store.slots, req.salleId, date, debut, fin) != [] then
        Outcome(ClientError(RoomBusy), store)
      else if faults.interventionQuery then Outcome(ServerError, store)
      else
        match TeacherOf(store.interventions, req.interventionId)
        case None => Outcome(ServerError, store)
        case Some(teacher) =>
          if faults.teacherQuery then Outcome(ServerError, store)
          else if TeacherConflicts(store, teacher, date, debut, fin) != [] then
            Outcome(ClientError(TeacherBusy), store)
          else if faults.insert then Outcome(ServerError, store)
          else
            var slot := NewSlot(req, newId);
            Outcome(Created(slot), store.(slots := store.slots + [slot]))
  }

  // ---------------------------------------------------------------------------
  // What the time filter means

  /** The filter fails only when the existing slot starts after the candidate ends
      and ends before the candidate starts. */
  lemma TimeClashIff(s: Slot, debut: Minute, fin: Minute)
    ensures TimeClash(s, debut, fin) <==> !(fin < s.debut && s.fin < debut)
  {
  }

  /** If the existing slot and the candidate are both well formed, the filter holds
      whatever the times: every well-formed slot of the same room and day is flagged. */
  lemma WellFormedAlwaysClashes(s: Slot, debut: Minute, fin: Minute)
    requires WellFormed(s) && debut <= fin
    ensures TimeClash(s, debut, fin)
  {
  }

  /** Every genuine overlap is flagged, and so is every back-to-back booking. */
  lemma OverlapOrTouchIsClash(s: Slot, debut: Minute, fin: Minute)
    requires Overlaps(s, debut, fin) || s.fin == debut || s.debut == fin
    ensures TimeClash(s, debut, fin)
  {
  }

  /** A well-formed slot of the same room and day blocks every well-formed request for
      that room and day: the reply is the room message (unless the room query itself fails). */
  lemma SameRoomSlotBlocks(store: Store, req: Request, faults: Faults, newId: int, k: int)
    requires HasRequiredFields(req) && !faults.roomQuery && req.debut.value <= req.fin.value
    requires 0 <= k < |store.slots|
    requires store.slots[k].salleId == req.salleId && store.slots[k].date == req.date.value
    requires WellFormed(store.slots[k])
    ensures Post(store, req, faults, newId).reply == ClientError(RoomBusy)
    ensures Post(store, req, faults, newId).store == store
  {
    var s := store.slots[k];
    WellFormedAlwaysClashes(s, req.debut.value, req.fin.value);
    assert s in RoomConflicts(store.slots, req.salleId, req.date.value, req.debut.value, req.fin.value);
  }

  // ---------------------------------------------------------------------------
  // The invariant the gate keeps

  /** Two slots of the same room and day are never both well formed. */
  ghost predicate RoomDayExclusive(slots: seq<Slot>) {
    forall i, j :: 0 <= i < |slots| && 0 <= j < |slots| && i != j
      && slots[i].salleId == slots[j].salleId && slots[i].date == slots[j].date
      ==> !(WellFormed(slots[i]) && WellFormed(slots[j]))
  }

  /** Two slots of the same teacher and day are never both well formed. */
  ghost predicate TeacherDayExclusive(store: Store) {
    forall i, j :: 0 <= i < |store.slots| && 0 <= j < |store.slots| && i != j
      && store.slots[i].date == store.slots[j].date
      && TeacherOf(store.interventions, store.slots[i].interventionId).Some?
      && TeacherOf(store.interventions, store.slots[i].interventionId)
         == TeacherOf(store.interventions, store.slots[j].interventionId)
      ==> !(WellFormed(store.slots[i]) && WellFormed(store.slots[j]))
  }

  /** The gate keeps every room to at most one well-formed slot a day. */
  lemma PostPreservesRoomExclusivity(store: Store, req: Request, faults: Faults, newId: int)
    requires RoomDayExclusive(store.slots)
    ensures RoomDayExclusive(Post(store, req, faults, newId).store.slots)
  {
    var out := Post(store, req, faults, newId);
    if out.reply.Created? {
      var n := out.reply.slot;
      var slots := out.store.slots;
      assert slots == store.slots + [n];
      var conflicts := RoomConflicts(store.slots, req.salleId, n.date, n.debut, n.fin);
      forall i, j | 0 <= i < |slots| && 0 <= j < |slots| && i != j
        && slots[i].salleId == slots[j].salleId && slots[i].date == slots[j].date
        ensures !(WellFormed(slots[i]) && WellFormed(slots[j]))
      {
        if i == |slots| - 1 || j == |slots| - 1 {
          var s := if i == |slots| - 1 then slots[j] else slots[i];
          assert s in store.slots;
          assert s !in conflicts;
          assert !TimeClash(s, n.debut, n.fin);
        }
      }
    }
  }

  /** The gate keeps every teacher to at most one well-formed slot a day. */
  lemma PostPreservesTeacherExclusivity(store: Store, req: Request, faults: Faults, newId: int)
    requires TeacherDayExclusive(store)
    ensures TeacherDayExclusive(Post(store, req, faults, newId).store)
  {
    var out := Post(store, req, faults, newId);
    if out.reply.Created? {
      var n := out.reply.slot;
      var st := out.store;
      assert st.interventions == store.interventions;
      assert st.slots == store.slots + [n];
      var teacher := TeacherOf(store.interventions, n.interventionId).value;
      var conflicts := TeacherConflicts(store, teacher, n.date, n.debut, n.fin);
      forall i, j | 0 <= i < |st.slots| && 0 <= j < |st.slots| && i != j
        && st.slots[i].date == st.slots[j].date
        && TeacherOf(st.interventions, st.slots[i].interventionId).Some?
        && TeacherOf(st.interventions, st.slots[i].interventionId)
           == TeacherOf(st.interventions, st.slots[j].interventionId)
        ensures !(WellFormed(st.slots[i]) && WellFormed(st.slots[j]))
      {
        if i == |st.slots| - 1 || j == |st.slots| - 1 {
          var s := if i == |st.slots| - 1 then st.slots[j] else st.slots[i];
          assert s in store.slots;
          assert TeacherOf(store.interventions, s.interventionId) == Some(teacher);
          assert TaughtBy(store.interventions, s.interventionId, teacher);
          assert s !in conflicts;
          assert !TimeClash(s, n.debut, n.fin);
        } else {
          assert st.slots[i] == store.slots[i] && st.slots[j] == store.slots[j];
        }
      }
    }
  }

  // ---------------------------------------------------------------------------
  // Scenarios

  /** Back-to-back bookings of one room are refused: 9:00-10:00 blocks 10:00-11:00. */
  lemma BackToBackIsRefused()
    ensures var store := Store([Slot(1, 7, 3, 19732, 540, 600)], [InterventionRow(7, 42)]);
            var req := Request(7, 3, Some(19732), Some(600), Some(660));
            Post(store, req, Faults(false, false, false, false), 2).reply == ClientError(RoomBusy)
  {
    var store := Store([Slot(1, 7, 3, 19732, 540, 600)], [InterventionRow(7, 42)]);
    assert store.slots[0] in RoomConflicts(store.slots, 3, 19732, 600, 660);
  }

  /** A teacher booked in another room at 8:00-9:00 cannot be booked at 14:00-15:00
      the same day: the room is free, the teacher message is given. */
  lemma SameTeacherOtherRoomIsRefused()
    ensures var store := Store([Slot(1, 7, 3, 19732, 480, 540)], [InterventionRow(7, 42), InterventionRow(8, 42)]);
            var req := Request(8, 4, Some(19732), Some(840), Some(900));
            Post(store, req, Faults(false, false, false, false), 2).reply == ClientError(TeacherBusy)
  {
    var store := Store([Slot(1, 7, 3, 19732, 480, 540)], [InterventionRow(7, 42), InterventionRow(8, 42)]);
    assert RoomConflicts(store.slots, 4, 19732, 840, 900) == [];
    var rows := Filter(store.interventions, HasId(8));
    assert rows == [InterventionRow(8, 42)];
    assert TeacherOf(store.interventions, 8) == Some(42);
    assert TaughtBy(store.interventions, 7, 42) by {
      assert store.interventions[0].id == 7;
    }
    assert store.slots[0] in TeacherConflicts(store, 42, 19732, 840, 900);
  }
}

=== FILE: planning_list.dfy ===
/** The planning page: the slots shown for the chosen teacher, room and date range. Each
    selector is ignored while empty; the date bounds are inclusive. Dates are day numbers;
    an empty date field is `None`. */
module PlanningList {
  import opened Basics

  /** A slot as the page receives it: its date, the teacher of its intervention and its
      room, each of the last two absent when the joined record is missing. */
  datatype Slot = Slot(id: int, date: int, enseignantId: Option<int>, salleId: Option<int>)

  datatype Selection = Selection(enseignant: string, salle: string, dateDebut: Option<int>, dateFin: Option<int>)

  const NoSelection := Selection("", "", None, None)

  /** An empty selector, or an id present whose decimal text is the selected value. */
  predicate IdSelected(id: Option<int>, selected: string) {
    selected == "" || (id.Some? && IntToString(id.value) == selected)
  }

  /** `dateDebut <= date <= dateFin`, each bound ignored when absent. */
  predicate InRange(date: int, dateDebut: Option<int>, dateFin: Option<int>) {
    (dateDebut.None? || dateDebut.value <= date) && (dateFin.None? || date <= dateFin.value)
  }

  /** The test of `filteredPlannings`, in the order the page applies it. */
  function ShownBy(sel: Selection): Slot -> bool {
    (p: Slot) =>
      if sel.enseignant != "" && !(p.enseignantId.Some? && IntToString(p.enseignantId.value) == sel.enseignant) then false
      else if sel.salle != "" && !(p.salleId.Some? && IntToString(p.salleId.value) == sel.salle) then false
      else if sel.dateDebut.Some? && p.date < sel.dateDebut.value then false
      else if sel.dateFin.Some? && p.date > sel.dateFin.value then false
      else true
  }

  /** `filteredPlannings`: a slot shows iff every selector accepts it. */
  function FilteredPlannings(slots: seq<Slot>, sel: Selection): (r: seq<Slot>)
    ensures |r| <= |slots| && IsSubsequence(r, slots)
    ensures forall p :: p in r <==>
      p in slots && IdSelected(p.enseignantId, sel.enseignant) && IdSelected(p.salleId, sel.salle)
      && InRange(p.date, sel.dateDebut, sel.dateFin)
  {
    Filter(slots, ShownBy(sel))
  }

  /** With nothing selected, every slot shows, in order. */
  lemma NothingSelectedShowsAll(slots: seq<Slot>)
    ensures FilteredPlannings(slots, NoSelection) == slots
  {
    FilterKeepsAll(slots, ShownBy(NoSelection));
  }

  /** Selecting the teacher with id `t` drops the slots without a teacher and those of
      other teachers. */
  lemma TeacherSelection(slots: seq<Slot>, sel: Selection, t: int)
    requires sel.enseignant == IntToString(t)
    ensures forall p :: p in FilteredPlannings(slots, sel) ==> p.enseignantId == Some(t)
  {
    forall p | p in FilteredPlannings(slots, sel) ensures p.enseignantId == Some(t) {
      NumberOfIntText(p.enseignantId.value);
      NumberOfIntText(t);
    }
  }

  /** A range of one day shows exactly the slots of that day that the other selectors
      accept. */
  lemma SingleDay(slots: seq<Slot>, sel: Selection, day: int)
    requires sel.dateDebut == Some(day) && sel.dateFin == Some(day)
    ensures forall p :: p in FilteredPlannings(slots, sel) <==>
      p in slots && p.date == day && IdSelected(p.enseignantId, sel.enseignant) && IdSelected(p.salleId, sel.salle)
  {
  }

  /** A range that ends before it starts shows nothing. */
  lemma EmptyRange(slots: seq<Slot>, sel: Selection)
    requires sel.dateDebut.Some? && sel.dateFin.Some? && sel.dateFin.value < sel.dateDebut.value
    ensures FilteredPlannings(slots, sel) == []
  {
    FilterKeepsNone(slots, ShownBy(sel));
  }

  /** Narrowing the date range never shows more slots. */
  lemma {:induction false} NarrowerRangeShowsFewer(slots: seq<Slot>, sel: Selection, lo: int, hi: int)
    requires sel.dateDebut.None? || sel.dateDebut.value <= lo
    requires sel.dateFin.None? || hi <= sel.dateFin.value
    ensures IsSubsequence(FilteredPlannings(slots, sel.(dateDebut := Some(lo), dateFin := Some(hi))),
                          FilteredPlannings(slots, sel))
    decreases |slots|
  {
    var narrow := sel.(dateDebut := Some(lo), dateFin := Some(hi));
    if slots != [] {
      NarrowerRangeShowsFewer(slots[1..], sel, lo, hi);
      var a, b := Filter(slots[1..], ShownBy(narrow)), Filter(slots[1..], ShownBy(sel));
      if ShownBy(narrow)(slots[0]) {
        assert ShownBy(sel)(slots[0]);
        assert Filter(slots, ShownBy(narrow)) == [slots[0]] + a;
        assert Filter(slots, ShownBy(sel)) == [slots[0]] + b;
        assert ([slots[0]] + a)[1..] == a && ([slots[0]] + b)[1..] == b;
      } else if ShownBy(sel)(slots[0]) {
        assert Filter(slots, ShownBy(sel)) == [slots[0]] + b;
        SubsequenceOfTail(a, slots[0], b);
      }
    }
  }

  /** A subsequence of a list's tail is a subsequence of the list. */
  lemma SubsequenceOfTail(a: seq<Slot>, x: Slot, b: seq<Slot>)
    requires IsSubsequence(a, b)
    ensures IsSubsequence(a, [x] + b)
  {
    assert ([x] + b)[1..] == b;
  }
}

=== FILE: service_report.dfy ===
/** `GET /api/rapports/service`: for each selected teacher, the interventions of one
    academic year, their total hours, the hours per course type, and the difference
    from the minimum of the teacher's current status. The maximum is reported but
    never compared with anything. */
module ServiceReport {
  import opened Basics
  import opened Staff

  datatype Cours = Cours(code: string, nom: string, typeNom: string, maquetteNom: string, parcoursNom: string)

  datatype Intervention = Intervention(id: int, heures: real, semestre: int, annee: string, cours: Cours)

  /** A teacher row with its department, status assignments and interventions joined in. */
  datatype Teacher = Teacher(id: int, nom: string, prenom: string, departementId: int, departementNom: string,
                             statuts: seq<StatusAssignment>, interventions: seq<Intervention>)

  /** The query string: the two optional filters (absent when missing or empty) and the
      academic year ("" when missing). */
  datatype Query = Query(enseignantId: Option<int>, departementId: Option<int>, annee: string)

  datatype StatusSummary = StatusSummary(nom: string, heuresMin: real, heuresMax: real)

  /** Hours per course-type name, in the order the names first appear. */
  type Buckets = seq<(string, real)>

  datatype Service = Service(totalHeures: real, differentiel: real, heuresParType: Buckets)

  datatype Listed = Listed(id: int, heures: real, semestre: int, typeCours: string, coursCode: string,
                           intitule: string, maquette: string, parcours: string)

  datatype Entry = Entry(enseignantId: int, nom: string, prenom: string, departement: string,
                         statut: Option<StatusSummary>, service: Service, interventions: seq<Listed>)

  datatype Reply = Report(entries: seq<Entry>) | BadRequest(message: string) | ServerError

  const YearRequired := "L'année universitaire est requise"

  function HoursOf(i: Intervention): real { i.heures }
  function ListedHours(l: Listed): real { l.heures }
  function BucketHours(b: (string, real)): real { b.1 }

  /** The test `i.annee === anneeUniversitaire`. */
  function InYear(annee: string): Intervention -> bool {
    (i: Intervention) => i.annee == annee
  }

  /** The test "the course of `i` has type `t`". */
  function OfType(t: string): Intervention -> bool {
    (i: Intervention) => i.cours.typeNom == t
  }

  /** The type names occurring in `ivs`. */
  function TypeNames(ivs: seq<Intervention>): set<string> {
    set i | i in ivs :: i.cours.typeNom
  }

  predicate DistinctKeys(b: Buckets) {
    forall i, j :: 0 <= i < j < |b| ==> b[i].0 != b[j].0
  }

  /** The type names that have a bucket. */
  function Keys(b: Buckets): set<string> {
    set k | k in b :: k.0
  }

  /** `b` has a bucket for `t`. */
  predicate HasKey(b: Buckets, t: string) {
    exists i :: 0 <= i < |b| && b[i].0 == t
  }

  lemma KeysHasKey(b: Buckets, t: string)
    ensures t in Keys(b) <==> HasKey(b, t)
  {
    if t in Keys(b) {
      var k :| k in b && k.0 == t;
      var i :| 0 <= i < |b| && b[i] == k;
    }
  }

  /** One step of the `reduce` building `heures_par_type`: add `h` to the bucket of
      `t`, opening it at the end when `t` is new. */
  function AddHours(b: Buckets, t: string, h: real): (r: Buckets)
    requires DistinctKeys(b)
    ensures |r| == |b| + (if HasKey(b, t) then 0 else 1)
    ensures DistinctKeys(r)
    ensures forall i :: 0 <= i < |b| ==> r[i].0 == b[i].0
    ensures forall i :: 0 <= i < |b| && b[i].0 != t ==> r[i] == b[i]
    ensures forall i :: 0 <= i < |b| && b[i].0 == t ==> r[i].1 == b[i].1 + h
    ensures |r| > |b| ==> r[|b|] == (t, h)
    decreases |b|
  {
    if b == [] then [(t, h)]
    else if b[0].0 == t then
      assert HasKey(b, t) by { assert b[0].0 == t; }
      [(t, b[0].1 + h)] + b[1..]
    else
      var rest := AddHours(b[1..], t, h);
      HasKeyTail(b, t);
      FreshHeadKeepsDistinct(b, t, rest);
      [b[0]] + rest
  }

  /** Past a head of another type, the bucket of `t` is in the tail if anywhere. */
  lemma HasKeyTail(b: Buckets, t: string)
    requires b != [] && b[0].0 != t
    ensures HasKey(b, t) <==> HasKey(b[1..], t)
  {
    if HasKey(b, t) {
      var i :| 0 <= i < |b| && b[i].0 == t;
      assert b[1..][i - 1] == b[i];
    }
    if HasKey(b[1..], t) {
      var i :| 0 <= i < |b[1..]| && b[1..][i].0 == t;
      assert b[i + 1] == b[1..][i];
    }
  }

  /** Putting the head back in front of the updated tail keeps the keys distinct. */
  lemma FreshHeadKeepsDistinct(b: Buckets, t: string, rest: Buckets)
    requires b != [] && b[0].0 != t && DistinctKeys(b) && DistinctKeys(rest)
    requires |b| - 1 <= |rest| <= |b|
    requires forall i :: 0 <= i < |b| - 1 ==> rest[i].0 == b[1..][i].0
    requires |rest| > |b| - 1 ==> rest[|b| - 1].0 == t
    ensures DistinctKeys([b[0]] + rest)
  {
    var r := [b[0]] + rest;
    forall i, j | 0 <= i < j < |r| ensures r[i].0 != r[j].0 {
      if i == 0 {
        if j - 1 < |b| - 1 {
          assert rest[j - 1].0 == b[j].0;
        }
      } else {
        assert r[i] == rest[i - 1] && r[j] == rest[j - 1];
      }
    }
  }

  /** The keys of a list are its head's key and the keys of its tail. */
  lemma KeysCons(x: (string, real), rest: Buckets)
    ensures Keys([x] + rest) == {x.0} + Keys(rest)
  {
    forall k | k in [x] + rest ensures k == x || k in rest {}
  }

  /** Adding to a bucket adds at most the key `t`. */
  lemma {:induction false} AddHoursKeys(b: Buckets, t: string, h: real)
    requires DistinctKeys(b)
    ensures Keys(AddHours(b, t, h)) == Keys(b) + {t}
    decreases |b|
  {
    if b != [] {
      var r := AddHours(b, t, h);
      assert b == [b[0]] + b[1..];
      KeysCons(b[0], b[1..]);
      if b[0].0 == t {
        KeysCons((t, b[0].1 + h), b[1..]);
      } else {
        AddHoursKeys(b[1..], t, h);
        KeysCons(b[0], AddHours(b[1..], t, h));
      }
    }
  }

  /** Adding `h` to a bucket adds `h` to the total of the buckets. */
  lemma {:induction false} AddHoursSum(b: Buckets, t: string, h: real)
    requires DistinctKeys(b)
    ensures Sum(AddHours(b, t, h), BucketHours) == Sum(b, BucketHours) + h
    decreases |b|
  {
    var r := AddHours(b, t, h);
    if b != [] && b[0].0 != t {
      AddHoursSum(b[1..], t, h);
      assert r[1..] == AddHours(b[1..], t, h);
    } else if b != [] {
      assert r[1..] == b[1..];
    }
  }

  /** `heures_par_type` of a list of interventions: a left fold of `AddHours`. */
  function HoursByType(ivs: seq<Intervention>): (b: Buckets)
    ensures DistinctKeys(b)
    decreases |ivs|
  {
    if ivs == [] then []
    else AddHours(HoursByType(ivs[..|ivs| - 1]), ivs[|ivs| - 1].cours.typeNom, ivs[|ivs| - 1].heures)
  }

  /** One key per distinct type name, and the buckets add up to the total hours. */
  lemma HoursByTypeKeysAndTotal(ivs: seq<Intervention>)
    ensures Keys(HoursByType(ivs)) == TypeNames(ivs)
    ensures Sum(HoursByType(ivs), BucketHours) == Sum(ivs, HoursOf)
  {
    HoursByTypeKeys(ivs);
    HoursByTypeTotal(ivs);
  }

  lemma {:induction false} HoursByTypeKeys(ivs: seq<Intervention>)
    ensures Keys(HoursByType(ivs)) == TypeNames(ivs)
    decreases |ivs|
  {
    if ivs != [] {
      var init, last := ivs[..|ivs| - 1], ivs[|ivs| - 1];
      HoursByTypeKeys(init);
      AddHoursKeys(HoursByType(init), last.cours.typeNom, last.heures);
      TypeNamesLast(ivs);
    }
  }

  lemma {:induction false} HoursByTypeTotal(ivs: seq<Intervention>)
    ensures Sum(HoursByType(ivs), BucketHours) == Sum(ivs, HoursOf)
    decreases |ivs|
  {
    if ivs != [] {
      var init, last := ivs[..|ivs| - 1], ivs[|ivs| - 1];
      HoursByTypeTotal(init);
      AddHoursSum(HoursByType(init), last.cours.typeNom, last.heures);
      SumLast(ivs);
    }
  }

  /** The type names of a non-empty list: those before its last element, and its own. */
  lemma TypeNamesLast(ivs: seq<Intervention>)
    requires ivs != []
    ensures TypeNames(ivs) == TypeNames(ivs[..|ivs| - 1]) + {ivs[|ivs| - 1].cours.typeNom}
  {
    assert ivs == ivs[..|ivs| - 1] + [ivs[|ivs| - 1]];
  }

  /** The hours of a non-empty list: those before its last element, and its own. */
  lemma SumLast(ivs: seq<Intervention>)
    requires ivs != []
    ensures Sum(ivs, HoursOf) == Sum(ivs[..|ivs| - 1], HoursOf) + ivs[|ivs| - 1].heures
  {
    assert ivs == ivs[..|ivs| - 1] + [ivs[|ivs| - 1]];
    SumAppend(ivs[..|ivs| - 1], [ivs[|ivs| - 1]], HoursOf);
  }

  /** The hours of type `t` in `ivs`. */
  function TypeHours(ivs: seq<Intervention>, t: string): real {
    Sum(Filter(ivs, OfType(t)), HoursOf)
  }

  /** Appending an intervention adds its hours to the hours of its own type only. */
  lemma TypeHoursAppend(init: seq<Intervention>, last: Intervention, t: string)
    ensures TypeHours(init + [last], t) == TypeHours(init, t) + (if last.cours.typeNom == t then last.heures else 0.0)
  {
    FilterAppend(init, [last], OfType(t));
    SumAppend(Filter(init, OfType(t)), Filter([last], OfType(t)), HoursOf);
  }

  /** The same, for a non-empty list split before its last element. */
  lemma TypeHoursLast(ivs: seq<Intervention>, t: string)
    requires ivs != []
    ensures TypeHours(ivs, t) == TypeHours(ivs[..|ivs| - 1], t)
      + (if ivs[|ivs| - 1].cours.typeNom == t then ivs[|ivs| - 1].heures else 0.0)
  {
    assert ivs == ivs[..|ivs| - 1] + [ivs[|ivs| - 1]];
    TypeHoursAppend(ivs[..|ivs| - 1], ivs[|ivs| - 1], t);
  }

  /** Every bucket of `b` holds the hours of the interventions of its type. */
  ghost predicate BucketsMatch(ivs: seq<Intervention>, b: Buckets) {
    forall k :: 0 <= k < |b| ==> b[k].1 == TypeHours(ivs, b[k].0)
  }

  /** Each bucket holds the hours of exactly the interventions of its type. */
  lemma {:induction false} HoursByTypePerType(ivs: seq<Intervention>)
    ensures BucketsMatch(ivs, HoursByType(ivs))
    decreases |ivs|
  {
    if ivs != [] {
      HoursByTypePerType(ivs[..|ivs| - 1]);
      PerTypeStep(ivs);
    }
  }

  /** The induction step: folding in the last intervention keeps the buckets right. */
  lemma PerTypeStep(ivs: seq<Intervention>)
    requires ivs != []
    requires BucketsMatch(ivs[..|ivs| - 1], HoursByType(ivs[..|ivs| - 1]))
    ensures BucketsMatch(ivs, HoursByType(ivs))
  {
    forall k | 0 <= k < |HoursByType(ivs)|
      ensures HoursByType(ivs)[k].1 == TypeHours(ivs, HoursByType(ivs)[k].0)
    {
      PerTypeBucket(ivs, k);
    }
  }

  lemma PerTypeBucket(ivs: seq<Intervention>, k: int)
    requires ivs != []
    requires BucketsMatch(ivs[..|ivs| - 1], HoursByType(ivs[..|ivs| - 1]))
    requires 0 <= k < |HoursByType(ivs)|
    ensures HoursByType(ivs)[k].1 == TypeHours(ivs, HoursByType(ivs)[k].0)
  {
    if k < |HoursByType(ivs[..|ivs| - 1])| {
      OldBucket(ivs, k);
    } else {
      NewBucket(ivs, k);
    }
  }

  /** A bucket that existed before the last intervention. */
  lemma OldBucket(ivs: seq<Intervention>, k: int)
    requires ivs != []
    requires BucketsMatch(ivs[..|ivs| - 1], HoursByType(ivs[..|ivs| - 1]))
    requires 0 <= k < |HoursByType(ivs[..|ivs| - 1])|
    ensures k < |HoursByType(ivs)| && HoursByType(ivs)[k].1 == TypeHours(ivs, HoursByType(ivs)[k].0)
  {
    var init, last := ivs[..|ivs| - 1], ivs[|ivs| - 1];
    var prev := HoursByType(init);
    var b := HoursByType(ivs);
    assert b == AddHours(prev, last.cours.typeNom, last.heures);
    var t := prev[k].0;
    assert b[k].0 == t;
    assert prev[k].1 == TypeHours(init, t);
    TypeHoursLast(ivs, t);
  }

  /** The bucket opened by the last intervention. */
  lemma NewBucket(ivs: seq<Intervention>, k: int)
    requires ivs != []
    requires |HoursByType(ivs[..|ivs| - 1])| <= k < |HoursByType(ivs)|
    ensures HoursByType(ivs)[k].1 == TypeHours(ivs, HoursByType(ivs)[k].0)
  {
    var init, last := ivs[..|ivs| - 1], ivs[|ivs| - 1];
    var prev := HoursByType(init);
    var b := HoursByType(ivs);
    assert b == AddHours(prev, last.cours.typeNom, last.heures);
    var t := last.cours.typeNom;
    assert !HasKey(prev, t) && k == |prev| && b[k] == (t, last.heures);
    UnbucketedTypeHasNoHours(init, t);
    TypeHoursLast(ivs, t);
  }

  /** A type without a bucket has no hours. */
  lemma UnbucketedTypeHasNoHours(ivs: seq<Intervention>, t: string)
    requires !HasKey(HoursByType(ivs), t)
    ensures TypeHours(ivs, t) == 0.0
  {
    KeysHasKey(HoursByType(ivs), t);
    HoursByTypeKeysAndTotal(ivs);
    FilterNone(ivs, t);
  }

  /** A type name that no intervention has selects nothing. */
  lemma FilterNone(ivs: seq<Intervention>, t: string)
    requires t !in TypeNames(ivs)
    ensures Filter(ivs, OfType(t)) == []
  {
  }

  function ToListed(i: Intervention): Listed {
    Listed(i.id, i.heures, i.semestre, i.cours.typeNom, i.cours.code, i.cours.nom,
           i.cours.maquetteNom, i.cours.parcoursNom)
  }

  /** The interventions of `t` in the year `annee`, in order. */
  function OfYear(t: Teacher, annee: string): seq<Intervention> {
    Filter(t.interventions, InYear(annee))
  }

  /** The report entry of one teacher for the year `annee`. */
  function TeacherEntry(t: Teacher, annee: string): (e: Entry)
    ensures e.enseignantId == t.id && e.departement == t.departementNom
    // the differential is taken against the minimum of the current status, if any
    ensures CurrentStatus(t.statuts).None? ==> e.statut.None? && e.service.differentiel == 0.0
    ensures CurrentStatus(t.statuts).Some? ==>
      && e.statut == Some(StatusSummary(CurrentStatus(t.statuts).value.nom, CurrentStatus(t.statuts).value.heuresMin,
                                        CurrentStatus(t.statuts).value.heuresMax))
      && e.service.differentiel == e.service.totalHeures - CurrentStatus(t.statuts).value.heuresMin
  {
    var ofYear := OfYear(t, annee);
    var total := Sum(ofYear, HoursOf);
    var current := CurrentStatus(t.statuts);
    Entry(t.id, t.nom, t.prenom, t.departementNom,
          if current.Some? then Some(StatusSummary(current.value.nom, current.value.heuresMin, current.value.heuresMax))
          else None,
          Service(total, if current.Some? then total - current.value.heuresMin else 0.0, HoursByType(ofYear)),
          Map(ofYear, ToListed))
  }

  /** The listed interventions are exactly those of the year, in order, and the total is
      what they add up to. */
  lemma TeacherEntryListing(t: Teacher, annee: string)
    ensures var e := TeacherEntry(t, annee);
      && e.interventions == Map(Filter(t.interventions, InYear(annee)), ToListed)
      && e.service.totalHeures == Sum(Filter(t.interventions, InYear(annee)), HoursOf)
      && |e.interventions| == Count(t.interventions, InYear(annee))
      && (forall k :: 0 <= k < |e.interventions| ==>
            exists i :: i in t.interventions && i.annee == annee && e.interventions[k] == ToListed(i))
      && e.service.totalHeures == Sum(e.interventions, ListedHours)
  {
    var ofYear := OfYear(t, annee);
    var listed := Map(ofYear, ToListed);
    FilterCount(t.interventions, InYear(annee));
    SumMap(ofYear, ToListed, ListedHours, HoursOf);
    forall k | 0 <= k < |listed|
      ensures exists i :: i in t.interventions && i.annee == annee && listed[k] == ToListed(i)
    {
      assert ofYear[k] in ofYear;
    }
  }

  /** The buckets have one key per course type listed, each holding the hours of the
      year's interventions of that type, and together they make up the total. */
  lemma TeacherEntryBuckets(t: Teacher, annee: string)
    ensures var e := TeacherEntry(t, annee);
      && DistinctKeys(e.service.heuresParType)
      && Keys(e.service.heuresParType) == (set l | l in e.interventions :: l.typeCours)
      && BucketsMatch(OfYear(t, annee), e.service.heuresParType)
      && Sum(e.service.heuresParType, BucketHours) == e.service.totalHeures
  {
    var ofYear := OfYear(t, annee);
    var listed := Map(ofYear, ToListed);
    HoursByTypeKeysAndTotal(ofYear);
    HoursByTypePerType(ofYear);
    ListedTypes(ofYear);
  }

  /** The course types of the listed interventions are the types of the interventions. */
  lemma ListedTypes(ivs: seq<Intervention>)
    ensures (set l | l in Map(ivs, ToListed) :: l.typeCours) == TypeNames(ivs)
  {
    var listed := Map(ivs, ToListed);
    forall l | l in listed ensures l.typeCours in TypeNames(ivs) {
      var k :| 0 <= k < |listed| && listed[k] == l;
      assert ivs[k] in ivs;
    }
    forall n | n in TypeNames(ivs) ensures n in set l | l in listed :: l.typeCours {
      var i :| i in ivs && i.cours.typeNom == n;
      var k :| 0 <= k < |ivs| && ivs[k] == i;
      assert listed[k] in listed;
    }
  }

  /** The teachers the store query returns for the optional filters. */
  function Selected(teachers: seq<Teacher>, q: Query): (r: seq<Teacher>)
    ensures IsSubsequence(r, teachers)
    ensures forall t :: t in r <==> (t in teachers
      && (q.enseignantId.None? || t.id == q.enseignantId.value)
      && (q.departementId.None? || t.departementId == q.departementId.value))
  {
    Filter(teachers, (t: Teacher) => (q.enseignantId.None? || t.id == q.enseignantId.value)
                                     && (q.departementId.None? || t.departementId == q.departementId.value))
  }

  function EntryFor(annee: string): Teacher -> Entry {
    (t: Teacher) => TeacherEntry(t, annee)
  }

  /** The route. `queryFails` says whether the store query fails. */
  function ServiceRoute(teachers: seq<Teacher>, q: Query, queryFails: bool): (r: Reply)
    ensures q.annee == "" ==> r == BadRequest(YearRequired)
    ensures q.annee != "" && queryFails ==> r == ServerError
    ensures r.Report? ==> q.annee != "" && |r.entries| == |Selected(teachers, q)|
    ensures r.Report? ==> forall k :: 0 <= k < |r.entries| ==>
      r.entries[k].enseignantId == Selected(teachers, q)[k].id
    // each entry is the report of its teacher for the requested year
    ensures r.Report? ==> forall k :: 0 <= k < |r.entries| ==>
      r.entries[k] == TeacherEntry(Selected(teachers, q)[k], q.annee)
    ensures q.annee != "" && !queryFails ==> r.Report?
  {
    if q.annee == "" then BadRequest(YearRequired)
    else if queryFails then ServerError
    else Report(Map(Selected(teachers, q), EntryFor(q.annee)))
  }

  /** In a report, each entry's total is the hours of its teacher's interventions of the
      year, and its buckets add up to that total. */
  lemma RouteEntriesBalanced(teachers: seq<Teacher>, q: Query, queryFails: bool, k: int)
    requires ServiceRoute(teachers, q, queryFails).Report?
    requires 0 <= k < |ServiceRoute(teachers, q, queryFails).entries|
    ensures var e := ServiceRoute(teachers, q, queryFails).entries[k];
      var t := Selected(teachers, q)[k];
      && e.service.totalHeures == Sum(Filter(t.interventions, InYear(q.annee)), HoursOf)
      && Sum(e.service.heuresParType, BucketHours) == e.service.totalHeures
  {
    var t := Selected(teachers, q)[k];
    TeacherEntryListing(t, q.annee);
    TeacherEntryBuckets(t, q.annee);
  }

  /** Interventions of other years change nothing in a teacher's entry. */
  lemma OtherYearsIgnored(t: Teacher, annee: string, other: Intervention)
    requires other.annee != annee
    ensures TeacherEntry(t.(interventions := t.interventions + [other]), annee) == TeacherEntry(t, annee)
  {
    FilterAppend(t.interventions, [other], InYear(annee));
    assert Filter([other], InYear(annee)) == [];
    assert OfYear(t.(interventions := t.interventions + [other]), annee) == OfYear(t, annee);
  }
}

=== FILE: sorting.dfy ===
/** Sorting as the pages use it: a sort state toggled by clicks on a column header, and
    `Array.prototype.sort` with a comparator, which is stable. The stable sort is modelled
    as insertion sort, which returns the one stable order whenever the comparator is
    consistent. */
module Sorting {

  datatype Direction = Asc | Desc

  /** The column (or field) the rows are sorted by, and in which direction. */
  datatype SortState<K> = SortState(column: K, direction: Direction)

  function Flip(d: Direction): (r: Direction)
    ensures r != d
  {
    if d == Asc then Desc else Asc
  }

  /** A click on the header of `key`: the same column flips the direction, another
      column becomes the sort column, ascending. */
  function HandleSort<K(==)>(s: SortState<K>, key: K): (r: SortState<K>)
    ensures r.column == key
    ensures key == s.column ==> r.direction != s.direction
    ensures key != s.column ==> r.direction == Asc
  {
    if key == s.column then SortState(key, Flip(s.direction)) else SortState(key, Asc)
  }

  /** Two clicks on the sorted column give back the state before them. */
  lemma {:induction false} HandleSortTwice<K>(s: SortState<K>)
    ensures HandleSort(HandleSort(s, s.column), s.column) == s
  {
    assert Flip(Flip(s.direction)) == s.direction;
  }

  /** Clicking another column and then the first one again sorts by it ascending,
      whatever its direction was. */
  lemma ClickAwayResets<K>(s: SortState<K>, other: K)
    requires other != s.column
    ensures HandleSort(HandleSort(s, other), s.column) == SortState(s.column, Asc)
  {
  }

  // ---------------------------------------------------------------------------
  // Stable sort

  /** Inserts `x` into `sorted` after every element from the end that does not compare
      above it. */
  function Insert<T>(sorted: seq<T>, x: T, cmp: (T, T) -> int): (r: seq<T>)
    ensures |r| == |sorted| + 1
    ensures multiset(r) == multiset(sorted) + multiset{x}
    ensures r[|r| - 1] == x || (sorted != [] && r[|r| - 1] == sorted[|sorted| - 1])
    decreases |sorted|
  {
    if sorted == [] then [x]
    else if cmp(sorted[|sorted| - 1], x) <= 0 then sorted + [x]
    else
      var init := sorted[..|sorted| - 1];
      assert sorted == init + [sorted[|sorted| - 1]];
      Insert(init, x, cmp) + [sorted[|sorted| - 1]]
  }

  /** `[...s].sort(cmp)`. */
  function SortBy<T>(s: seq<T>, cmp: (T, T) -> int): (r: seq<T>)
    ensures |r| == |s|
    ensures multiset(r) == multiset(s)
    decreases |s|
  {
    if s == [] then []
    else
      assert s == s[..|s| - 1] + [s[|s| - 1]];
      Insert(SortBy(s[..|s| - 1], cmp), s[|s| - 1], cmp)
  }

  /** Neighbours never compare above each other. */
  predicate SortedBy<T>(s: seq<T>, cmp: (T, T) -> int) {
    forall i :: 0 <= i < |s| - 1 ==> cmp(s[i], s[i + 1]) <= 0
  }

  /** Of two elements of `s`, when one compares above the other, the other does not compare
      above the first. */
  ghost predicate Consistent<T>(cmp: (T, T) -> int, s: seq<T>) {
    forall a, b :: a in s && b in s && cmp(a, b) > 0 ==> cmp(b, a) <= 0
  }

  lemma {:induction false} InsertSorted<T>(sorted: seq<T>, x: T, cmp: (T, T) -> int, s: seq<T>)
    requires SortedBy(sorted, cmp)
    requires Consistent(cmp, s) && x in s && forall y :: y in sorted ==> y in s
    ensures SortedBy(Insert(sorted, x, cmp), cmp)
    decreases |sorted|
  {
    if sorted != [] && cmp(sorted[|sorted| - 1], x) > 0 {
      var init, last := sorted[..|sorted| - 1], sorted[|sorted| - 1];
      assert last in sorted;
      InsertSorted(init, x, cmp, s);
      var left := Insert(init, x, cmp);
      var r := left + [last];
      forall i | 0 <= i < |r| - 1 ensures cmp(r[i], r[i + 1]) <= 0 {
        if i < |left| - 1 {
          assert r[i] == left[i] && r[i + 1] == left[i + 1];
        } else if left[|left| - 1] == x {
          assert cmp(x, last) <= 0;
        } else {
          assert cmp(sorted[|sorted| - 2], last) <= 0;
        }
      }
    }
  }

  /** With a consistent comparator, the sorted list is in order. */
  lemma {:induction false} SortBySorted<T>(s: seq<T>, cmp: (T, T) -> int)
    requires Consistent(cmp, s)
    ensures SortedBy(SortBy(s, cmp), cmp)
    decreases |s|
  {
    if s != [] {
      var init := s[..|s| - 1];
      assert Consistent(cmp, init) by {
        forall a | a in init ensures a in s {
          var k :| 0 <= k < |init| && init[k] == a;
          assert s[k] == a;
        }
      }
      SortBySorted(init, cmp);
      forall y | y in SortBy(init, cmp) ensures y in s {
        assert y in multiset(SortBy(init, cmp));
        var k :| 0 <= k < |init| && init[k] == y;
        assert s[k] == y;
      }
      InsertSorted(SortBy(init, cmp), s[|s| - 1], cmp, s);
    }
  }

  /** A comparator that never puts an element before an earlier one keeps the order: in
      particular the comparator that always answers 0. */
  lemma {:induction false} SortByKeepsOrder<T>(s: seq<T>, cmp: (T, T) -> int)
    requires forall a, b :: cmp(a, b) <= 0
    ensures SortBy(s, cmp) == s
    decreases |s|
  {
    if s != [] {
      SortByKeepsOrder(s[..|s| - 1], cmp);
      assert s == s[..|s| - 1] + [s[|s| - 1]];
    }
  }

  /** Every element satisfying `p` comes before every element that does not. */
  predicate Partitioned<T>(s: seq<T>, p: T -> bool) {
    forall i, j :: 0 <= i < j < |s| && !p(s[i]) ==> !p(s[j])
  }

  /** The comparator puts the elements satisfying `p` before the others, both ways round. */
  ghost predicate PutsFirst<T(!new)>(cmp: (T, T) -> int, p: T -> bool) {
    forall a, b :: p(a) && !p(b) ==> cmp(a, b) <= 0 && cmp(b, a) > 0
  }

  lemma {:induction false} InsertPartitioned<T(!new)>(sorted: seq<T>, x: T, cmp: (T, T) -> int, p: T -> bool)
    requires Partitioned(sorted, p) && PutsFirst(cmp, p)
    ensures Partitioned(Insert(sorted, x, cmp), p)
    decreases |sorted|
  {
    if sorted != [] {
      var init, last := sorted[..|sorted| - 1], sorted[|sorted| - 1];
      if cmp(last, x) <= 0 {
        var r := sorted + [x];
        forall i, j | 0 <= i < j < |r| && !p(r[i]) ensures !p(r[j]) {
          if j < |sorted| {
            assert r[i] == sorted[i] && r[j] == sorted[j];
          } else if i < |sorted| - 1 {
            assert r[i] == sorted[i];
            assert !p(last);
          }
        }
      } else {
        InsertPartitioned(init, x, cmp, p);
        var left := Insert(init, x, cmp);
        var r := left + [last];
        forall i, j | 0 <= i < j < |r| && !p(r[i]) ensures !p(r[j]) {
          if j < |left| {
            assert r[i] == left[i] && r[j] == left[j];
          } else {
            assert r[i] == left[i];
            assert r[i] in multiset(left);
            if r[i] != x {
              assert r[i] in multiset(init);
              var k :| 0 <= k < |init| && init[k] == r[i];
              assert sorted[k] == r[i];
            }
          }
        }
      }
    }
  }

  /** A comparator that puts the `p` elements first leaves them first after sorting. */
  lemma {:induction false} SortByPartitions<T(!new)>(s: seq<T>, cmp: (T, T) -> int, p: T -> bool)
    requires PutsFirst(cmp, p)
    ensures Partitioned(SortBy(s, cmp), p)
    decreases |s|
  {
    if s != [] {
      SortByPartitions(s[..|s| - 1], cmp, p);
      InsertPartitioned(SortBy(s[..|s| - 1], cmp), s[|s| - 1], cmp, p);
    }
  }
}

=== FILE: staff.dfy ===
/** Teaching statuses and their assignment to teachers, shared by the service report
    and the teachers page: both read the "current" status as the first assignment
    whose `date_fin` is null. */
module Staff {
  import opened Basics

  /** A row of `statut`: a teacher category and its hour band. */
  datatype Statut = Statut(id: int, nom: string, heuresMin: real, heuresMax: real)

  /** A row of `enseignant_statut` joined with its status; `dateFin` is absent while
      the assignment is open. */
  datatype StatusAssignment = StatusAssignment(statut: Statut, dateFin: Option<int>)

  /** `statuts.find(s => s.date_fin === null)?.statut`. */
  function CurrentStatus(statuts: seq<StatusAssignment>): (r: Option<Statut>)
    ensures r.None? <==> forall i :: 0 <= i < |statuts| ==> statuts[i].dateFin.Some?
    ensures r.Some? ==> exists k :: (0 <= k < |statuts| && statuts[k].dateFin.None?
      && statuts[k].statut == r.value && forall j :: 0 <= j < k ==> statuts[j].dateFin.Some?)
  {
    if statuts == [] then None
    else if statuts[0].dateFin.None? then Some(statuts[0].statut)
    else
      var r := CurrentStatus(statuts[1..]);
      if r.Some? then
        var k :| 0 <= k < |statuts[1..]| && statuts[1..][k].dateFin.None?
          && statuts[1..][k].statut == r.value && forall j :: 0 <= j < k ==> statuts[1..][j].dateFin.Some?;
        assert statuts[k + 1] == statuts[1..][k];
        r
      else r
  }

  /** Only the first open assignment counts: closed ones before it and anything after
      it leave the answer alone. */
  lemma CurrentStatusIsFirstOpen(closed: seq<StatusAssignment>, open: StatusAssignment, rest: seq<StatusAssignment>)
    requires forall i :: 0 <= i < |closed| ==> closed[i].dateFin.Some?
    requires open.dateFin.None?
    ensures CurrentStatus(closed + [open] + rest) == Some(open.statut)
  {
    var all := closed + [open] + rest;
    assert all[|closed|] == open;
    assert forall i :: 0 <= i < |closed| ==> all[i] == closed[i];
  }
}

=== FILE: teachers.dfy ===
/** The teachers page: the search over name, first name and e-mail combined with the
    department selector, and the status column, which shows the current status with a
    colour per category or a dash. */
module Teachers {
  import opened Basics
  import opened Staff

  datatype DepartementRef = DepartementRef(id: int, nom: string)

  datatype Teacher = Teacher(id: int, nom: string, prenom: string, email: string,
                             departement: Option<DepartementRef>, statuts: seq<StatusAssignment>)

  datatype Colour = Green | Blue | Yellow

  /** What the status column shows. */
  datatype StatusCell = Dash | Badge(nom: string, colour: Colour)

  const Titulaire := "Titulaire"
  const Vacataire := "Vacataire"

  /** An empty term, or the name, first name or e-mail containing it, both lower-cased. */
  predicate MatchesSearch(t: Teacher, searchTerm: string) {
    var term := Lower(searchTerm);
    searchTerm == ""
    || Contains(Lower(t.nom), term) || Contains(Lower(t.prenom), term) || Contains(Lower(t.email), term)
  }

  /** No department selected, or the teacher's department id written in decimal is the
      selected value. A teacher without a department never matches a selection. */
  predicate MatchesDepartement(t: Teacher, departementFilter: string) {
    departementFilter == "" || (t.departement.Some? && IntToString(t.departement.value.id) == departementFilter)
  }

  function Shown(searchTerm: string, departementFilter: string): Teacher -> bool {
    (t: Teacher) => MatchesSearch(t, searchTerm) && MatchesDepartement(t, departementFilter)
  }

  /** `filteredEnseignants`. */
  function FilteredTeachers(teachers: seq<Teacher>, searchTerm: string, departementFilter: string): (r: seq<Teacher>)
    ensures |r| <= |teachers| && IsSubsequence(r, teachers)
    ensures forall t :: t in r <==>
      t in teachers && MatchesSearch(t, searchTerm) && MatchesDepartement(t, departementFilter)
  {
    Filter(teachers, Shown(searchTerm, departementFilter))
  }

  /** With no term and no department, every teacher is listed, in order. */
  lemma NoFilterShowsAll(teachers: seq<Teacher>)
    ensures FilteredTeachers(teachers, "", "") == teachers
  {
    FilterKeepsAll(teachers, Shown("", ""));
  }

  /** Different ids have different decimal texts. */
  lemma IntToStringInjective(a: int, b: int)
    requires IntToString(a) == IntToString(b)
    ensures a == b
  {
    NumberOfIntText(a);
    NumberOfIntText(b);
  }

  /** Selecting the department with id `d` (its option value is `d` in decimal) lists exactly
      the matching teachers of department `d`. */
  lemma DepartementSelection(teachers: seq<Teacher>, searchTerm: string, d: int)
    ensures forall t :: t in FilteredTeachers(teachers, searchTerm, IntToString(d)) <==>
      t in teachers && MatchesSearch(t, searchTerm) && t.departement.Some? && t.departement.value.id == d
  {
    forall t: Teacher | t.departement.Some? && IntToString(t.departement.value.id) == IntToString(d)
      ensures t.departement.value.id == d
    {
      IntToStringInjective(t.departement.value.id, d);
    }
    assert IntToString(d) != "" by {
      NumberOfIntText(d);
    }
  }

  /** The colour of a status category. */
  function ColourOf(nom: string): Colour {
    if nom == Titulaire then Green else if nom == Vacataire then Blue else Yellow
  }

  /** The status column: the name of the current status with its colour, or a dash. */
  function StatusColumn(statuts: seq<StatusAssignment>): (c: StatusCell)
    ensures c.Dash? <==> forall i :: 0 <= i < |statuts| ==> statuts[i].dateFin.Some?
    ensures c.Badge? ==> c.nom == CurrentStatus(statuts).value.nom
  {
    match CurrentStatus(statuts)
    case None => Dash
    case Some(s) => Badge(s.nom, ColourOf(s.nom))
  }

  /** A green badge shows a tenured teacher, a blue one a contract teacher, a yellow one any
      other category; the open assignment found first decides. */
  lemma BadgeColours(closed: seq<StatusAssignment>, open: StatusAssignment, rest: seq<StatusAssignment>)
    requires forall i :: 0 <= i < |closed| ==> closed[i].dateFin.Some?
    requires open.dateFin.None?
    ensures var c := StatusColumn(closed + [open] + rest);
      && c.Badge? && c.nom == open.statut.nom
      && (c.colour == Green <==> open.statut.nom == Titulaire)
      && (c.colour == Blue <==> open.statut.nom == Vacataire)
      && (c.colour == Yellow <==> open.statut.nom != Titulaire && open.statut.nom != Vacataire)
  {
    CurrentStatusIsFirstOpen(closed, open, rest);
  }

  /** The department column: `value?.nom || "-"`. */
  function DepartementColumn(d: Option<DepartementRef>): (r: string)
    ensures r == "-" <==> d.None? || d.value.nom == "" || d.value.nom == "-"
    ensures r != "-" ==> d.Some? && r == d.value.nom
  {
    if d.Some? && d.value.nom != "" then d.value.nom else "-"
  }
}

=== FILE: users.dfy ===
/** The user administration page: the search over name, e-mail, department and role,
    the sort by a chosen field, and the local list updates (status toggle, delete, new
    user, save of the edited user). */
module Users {
  import opened Basics
  import opened Sorting

  datatype Role = Admin | Manager | Member

  datatype User = User(id: int, name: string, email: string, role: Role, department: string,
                       isActive: bool, lastLogin: string)

  /** The fields a header click can sort by. */
  datatype UserField = Id | Name | Email | RoleField | Department | IsActive | LastLogin

  /** The role as the page stores it. */
  function RoleName(r: Role): string {
    match r
    case Admin => "admin"
    case Manager => "manager"
    case Member => "user"
  }

  /** The state the page starts in: sorted by id, ascending. */
  const InitialSort := SortState(Id, Asc)

  // ---------------------------------------------------------------------------
  // Search

  /** The name, e-mail, department or role contains the term, both lower-cased. The term
      is not trimmed. */
  predicate UserMatches(u: User, searchTerm: string) {
    var t := Lower(searchTerm);
    Contains(Lower(u.name), t) || Contains(Lower(u.email), t)
    || Contains(Lower(u.department), t) || Contains(Lower(RoleName(u.role)), t)
  }

  function MatchesTerm(searchTerm: string): User -> bool {
    (u: User) => UserMatches(u, searchTerm)
  }

  /** `filteredUsers`. */
  function FilteredUsers(users: seq<User>, searchTerm: string): (r: seq<User>)
    ensures |r| <= |users| && IsSubsequence(r, users)
    ensures forall u :: u in r <==> u in users && UserMatches(u, searchTerm)
  {
    Filter(users, MatchesTerm(searchTerm))
  }

  /** An empty search shows every user, in order. */
  lemma EmptySearchShowsAll(users: seq<User>)
    ensures FilteredUsers(users, "") == users
  {
    forall u: User ensures UserMatches(u, "") {
      ContainsEmpty(Lower(u.name));
    }
    FilterKeepsAll(users, MatchesTerm(""));
  }

  // ---------------------------------------------------------------------------
  // Sort

  /** `a[field] < b[field]`: numbers for the id, code-point order for the texts. */
  predicate FieldLess(f: UserField, a: User, b: User) {
    match f
    case Id => a.id < b.id
    case Name => StrLess(a.name, b.name)
    case Email => StrLess(a.email, b.email)
    case RoleField => StrLess(RoleName(a.role), RoleName(b.role))
    case Department => StrLess(a.department, b.department)
    case IsActive => false
    case LastLogin => StrLess(a.lastLogin, b.lastLogin)
  }

  /** The comparator of `sortedUsers`: active users first when ascending by `isActive`,
      otherwise `<` and `>` on the field. */
  function UserCompare(st: SortState<UserField>, a: User, b: User): int {
    var asc := st.direction == Asc;
    if st.column == IsActive then
      if a.isActive == b.isActive then 0
      else if a.isActive then (if asc then -1 else 1)
      else (if asc then 1 else -1)
    else if FieldLess(st.column, a, b) then (if asc then -1 else 1)
    else if FieldLess(st.column, b, a) then (if asc then 1 else -1)
    else 0
  }

  function UserComparator(st: SortState<UserField>): (User, User) -> int {
    (a: User, b: User) => UserCompare(st, a, b)
  }

  /** `sortedUsers`: the matching users in the order of the sort state. */
  function SortedUsers(users: seq<User>, searchTerm: string, st: SortState<UserField>): (r: seq<User>)
    ensures |r| == |FilteredUsers(users, searchTerm)|
    ensures multiset(r) == multiset(FilteredUsers(users, searchTerm))
  {
    SortBy(FilteredUsers(users, searchTerm), UserComparator(st))
  }

  /** `<` on one field is asymmetric. */
  lemma FieldLessAsymmetric(f: UserField, a: User, b: User)
    requires FieldLess(f, a, b)
    ensures !FieldLess(f, b, a)
  {
    match f
    case Name => StrLessAsymmetric(a.name, b.name);
    case Email => StrLessAsymmetric(a.email, b.email);
    case RoleField => StrLessAsymmetric(RoleName(a.role), RoleName(b.role));
    case Department => StrLessAsymmetric(a.department, b.department);
    case LastLogin => StrLessAsymmetric(a.lastLogin, b.lastLogin);
    case _ =>
  }

  /** Swapping two users negates the comparison, in both directions and for every field. */
  lemma UserCompareAntisymmetric(st: SortState<UserField>, a: User, b: User)
    ensures UserCompare(st, b, a) == -UserCompare(st, a, b)
  {
    if FieldLess(st.column, a, b) {
      FieldLessAsymmetric(st.column, a, b);
    }
  }

  /** Descending order is ascending order reversed. */
  lemma UserDescReversesAsc(f: UserField, a: User, b: User)
    ensures UserCompare(SortState(f, Desc), a, b) == -UserCompare(SortState(f, Asc), a, b)
  {
    if FieldLess(f, a, b) {
      FieldLessAsymmetric(f, a, b);
    }
  }

  /** The comparator is consistent on every list, so the sorted users are in order. */
  lemma SortedUsersInOrder(users: seq<User>, searchTerm: string, st: SortState<UserField>)
    ensures SortedBy(SortedUsers(users, searchTerm, st), UserComparator(st))
  {
    var s := FilteredUsers(users, searchTerm);
    forall a, b | a in s && b in s && UserCompare(st, a, b) > 0 ensures UserCompare(st, b, a) <= 0 {
      UserCompareAntisymmetric(st, a, b);
    }
    SortBySorted(s, UserComparator(st));
  }

  /** In the initial state the users come in increasing id order. */
  lemma InitialOrderById(users: seq<User>, searchTerm: string)
    ensures var r := SortedUsers(users, searchTerm, InitialSort);
      forall i :: 0 <= i < |r| - 1 ==> r[i].id <= r[i + 1].id
  {
    var r := SortedUsers(users, searchTerm, InitialSort);
    SortedUsersInOrder(users, searchTerm, InitialSort);
    forall i | 0 <= i < |r| - 1 ensures r[i].id <= r[i + 1].id {
      assert UserCompare(InitialSort, r[i], r[i + 1]) <= 0;
    }
  }

  function Active(): User -> bool {
    (u: User) => u.isActive
  }

  function Inactive(): User -> bool {
    (u: User) => !u.isActive
  }

  /** Sorting by status puts the active users first when ascending and the inactive ones
      first when descending. */
  lemma StatusSortGroups(users: seq<User>, searchTerm: string, d: Direction)
    ensures d == Asc ==> Partitioned(SortedUsers(users, searchTerm, SortState(IsActive, d)), Active())
    ensures d == Desc ==> Partitioned(SortedUsers(users, searchTerm, SortState(IsActive, d)), Inactive())
  {
    var st := SortState(IsActive, d);
    if d == Asc {
      SortByPartitions(FilteredUsers(users, searchTerm), UserComparator(st), Active());
    } else {
      SortByPartitions(FilteredUsers(users, searchTerm), UserComparator(st), Inactive());
    }
  }

  // ---------------------------------------------------------------------------
  // List updates

  /** `toggleUserStatus(userId)`: every user with that id has its status flipped. */
  function ToggleUserStatus(users: seq<User>, userId: int): (r: seq<User>)
    ensures |r| == |users|
    ensures forall i :: 0 <= i < |r| ==>
      r[i].id == users[i].id && r[i].name == users[i].name && r[i].email == users[i].email
      && r[i].role == users[i].role && r[i].department == users[i].department
      && r[i].lastLogin == users[i].lastLogin
      && (r[i].isActive <==> (users[i].id == userId) != users[i].isActive)
  {
    if users == [] then []
    else
      var u := users[0];
      [if u.id == userId then u.(isActive := !u.isActive) else u] + ToggleUserStatus(users[1..], userId)
  }

  /** Two toggles of the same user give the list back. */
  lemma ToggleTwice(users: seq<User>, userId: int)
    ensures ToggleUserStatus(ToggleUserStatus(users, userId), userId) == users
  {
    var r := ToggleUserStatus(ToggleUserStatus(users, userId), userId);
    assert forall i :: 0 <= i < |users| ==> r[i] == users[i];
  }

  function OtherId(userId: int): User -> bool {
    (u: User) => u.id != userId
  }

  /** `deleteUser(userId)` after the confirmation dialog answered `confirmed`. */
  function DeleteUser(users: seq<User>, userId: int, confirmed: bool): (r: seq<User>)
    ensures !confirmed ==> r == users
    ensures confirmed ==> IsSubsequence(r, users) && forall u :: u in r <==> u in users && u.id != userId
  {
    SubsequenceReflexive(users);
    if confirmed then Filter(users, OtherId(userId)) else users
  }

  /** A confirmed delete removes as many users as carried the id. */
  lemma DeleteRemovesExactly(users: seq<User>, userId: int)
    ensures |DeleteUser(users, userId, true)| == |users| - Count(users, (u: User) => u.id == userId)
  {
    FilterCount(users, OtherId(userId));
    CountComplement(users, userId);
  }

  lemma {:induction false} CountComplement(users: seq<User>, userId: int)
    ensures Count(users, OtherId(userId)) + Count(users, (u: User) => u.id == userId) == |users|
  {
    if users != [] {
      CountComplement(users[1..], userId);
    }
  }

  /** The largest id of a non-empty list: `Math.max(...users.map(u => u.id))`. */
  function MaxId(users: seq<User>): (m: int)
    requires users != []
    ensures forall i :: 0 <= i < |users| ==> users[i].id <= m
    ensures exists i :: 0 <= i < |users| && users[i].id == m
  {
    if |users| == 1 then users[0].id
    else
      var rest := MaxId(users[1..]);
      assert forall i :: 1 <= i < |users| ==> users[i] == users[1..][i - 1];
      if users[0].id >= rest then users[0].id else rest
  }

  /** The placeholder user `handleNewUser` creates. */
  function Placeholder(id: int): User {
    User(id, "Nouvel Utilisateur", "nouveau@iut.fr", Member, "Non assigné", true, "Jamais")
  }

  /** `handleNewUser`: the list with the placeholder appended, and the placeholder (which
      becomes the selected user). Its id is one past the largest id, or 1 for an empty list. */
  function NewUser(users: seq<User>): (r: (seq<User>, User))
    ensures r.0 == users + [r.1]
    ensures forall i :: 0 <= i < |users| ==> users[i].id < r.1.id
    ensures users == [] ==> r.1.id == 1
    ensures users != [] ==> exists i :: 0 <= i < |users| && users[i].id == r.1.id - 1
    // the placeholder's other fields
    ensures && r.1.name == "Nouvel Utilisateur" && r.1.email == "nouveau@iut.fr"
            && r.1.role == Member && r.1.department == "Non assigné"
            && r.1.isActive && r.1.lastLogin == "Jamais"
  {
    var u := Placeholder(if |users| > 0 then MaxId(users) + 1 else 1);
    (users + [u], u)
  }

  /** `handleSaveUser`: the selected user replaces every user with its id; nothing happens
      without a selection. */
  function SaveUser(users: seq<User>, selected: Option<User>): (r: seq<User>)
    ensures |r| == |users|
    ensures selected.None? ==> r == users
    ensures selected.Some? ==> forall i :: 0 <= i < |r| ==>
      r[i] == (if users[i].id == selected.value.id then selected.value else users[i])
  {
    match selected
    case None => users
    case Some(s) => ReplaceWhere(users, (u: User) => u.id == s.id, s)
  }

  /** Saving twice is saving once. */
  lemma SaveIdempotent(users: seq<User>, selected: Option<User>)
    ensures SaveUser(SaveUser(users, selected), selected) == SaveUser(users, selected)
  {
    var once := SaveUser(users, selected);
    assert forall i :: 0 <= i < |once| ==> SaveUser(once, selected)[i] == once[i];
  }

  /** Creating a user, editing it without touching its id, and saving gives the list with
      the edited user at the end: the fresh id replaces nothing else. */
  lemma NewEditSave(users: seq<User>, edited: User)
    requires edited.id == NewUser(users).1.id
    ensures SaveUser(NewUser(users).0, Some(edited)) == users + [edited]
  {
    var added := NewUser(users).0;
    var r := SaveUser(added, Some(edited));
    forall i | 0 <= i < |r| ensures r[i] == (users + [edited])[i] {
      if i < |users| {
        assert added[i] == users[i];
      }
    }
  }
}

=== FILE: utils.dfy ===
/** The helpers of `src/lib/utils.ts` that the pages rely on: the search filter over
    record properties, text truncation, the `XhMM` duration format, and the "time ago"
    label. */
module Utils {
  import opened Basics

  /** A row as the pages hold it: property name to value. */
  type Record = map<string, Value>

  // ---------------------------------------------------------------------------
  // filterBySearchTerm

  /** The term actually searched for: lower-cased, then trimmed. */
  function SearchKey(searchTerm: string): string {
    Trim(Lower(searchTerm))
  }

  /** `value && String(value).toLowerCase().includes(term)`: a falsy value never matches. */
  predicate PropertyMatches(item: Record, prop: string, term: string) {
    Truthy(Get(item, prop)) && Contains(Lower(ToText(Get(item, prop))), term)
  }

  /** `properties.some(...)`. */
  predicate ItemMatches(item: Record, term: string, properties: seq<string>) {
    exists k | 0 <= k < |properties| :: PropertyMatches(item, properties[k], term)
  }

  function Matching(term: string, properties: seq<string>): Record -> bool {
    (item: Record) => ItemMatches(item, term, properties)
  }

  /** `filterBySearchTerm(items, searchTerm, properties)`. */
  function FilterBySearchTerm(items: seq<Record>, searchTerm: string, properties: seq<string>): (r: seq<Record>)
    ensures searchTerm == "" ==> r == items
    ensures |r| <= |items| && IsSubsequence(r, items)
    ensures searchTerm != "" ==>
      forall x :: x in r <==> x in items && ItemMatches(x, SearchKey(searchTerm), properties)
  {
    SubsequenceReflexive(items);
    if searchTerm == "" then items else Filter(items, Matching(SearchKey(searchTerm), properties))
  }

  lemma {:induction false} LowerIdempotent(s: string)
    ensures Lower(Lower(s)) == Lower(s)
  {
    forall i | 0 <= i < |s| ensures Lower(Lower(s))[i] == Lower(s)[i] {
      assert !IsUpper(LowerChar(s[i]));
    }
  }

  /** The search does not care about the case of the term. */
  lemma SearchIgnoresCase(items: seq<Record>, searchTerm: string, properties: seq<string>)
    ensures FilterBySearchTerm(items, Lower(searchTerm), properties) == FilterBySearchTerm(items, searchTerm, properties)
  {
    LowerIdempotent(searchTerm);
  }

  lemma TrimStartSkipsWhite(c: char, s: string)
    requires IsWhite(c)
    ensures TrimStart([c] + s) == TrimStart(s)
  {
    assert ([c] + s)[1..] == s;
  }

  /** White space around the term does not change what the search finds, unless the term
      is nothing but white space. */
  lemma SearchIgnoresLeadingSpace(items: seq<Record>, searchTerm: string, properties: seq<string>)
    requires searchTerm != ""
    ensures FilterBySearchTerm(items, " " + searchTerm, properties) == FilterBySearchTerm(items, searchTerm, properties)
  {
    assert Lower(" " + searchTerm) == " " + Lower(searchTerm);
    TrimStartSkipsWhite(' ', Lower(searchTerm));
  }

  /** A term of white space only searches for the empty text: it keeps exactly the items
      with at least one truthy property, and drops the others. */
  lemma BlankTermKeepsTruthyItems(items: seq<Record>, searchTerm: string, properties: seq<string>)
    requires searchTerm != ""
    requires forall i :: 0 <= i < |searchTerm| ==> IsWhite(searchTerm[i])
    ensures forall x :: x in FilterBySearchTerm(items, searchTerm, properties) <==>
      x in items && exists k | 0 <= k < |properties| :: Truthy(Get(x, properties[k]))
  {
    var lowered := Lower(searchTerm);
    forall i | 0 <= i < |lowered| ensures IsWhite(lowered[i]) {
      assert !IsUpper(searchTerm[i]);
    }
    assert AllWhite(lowered);
    assert SearchKey(searchTerm) == "";
    forall x ensures ItemMatches(x, "", properties) <==>
      exists k | 0 <= k < |properties| :: Truthy(Get(x, properties[k]))
    {
      MatchesEmptyTerm(x, properties);
    }
  }

  /** The empty term matches an item exactly when one of the properties is truthy. */
  lemma MatchesEmptyTerm(x: Record, properties: seq<string>)
    ensures ItemMatches(x, "", properties) <==> exists k | 0 <= k < |properties| :: Truthy(Get(x, properties[k]))
  {
    forall k | 0 <= k < |properties| ensures PropertyMatches(x, properties[k], "") <==> Truthy(Get(x, properties[k])) {
      ContainsEmpty(Lower(ToText(Get(x, properties[k]))));
    }
  }

  /** Searching more properties can only find more items. */
  lemma MorePropertiesFindMore(items: seq<Record>, searchTerm: string, properties: seq<string>, extra: seq<string>)
    ensures forall x :: x in FilterBySearchTerm(items, searchTerm, properties) ==>
      x in FilterBySearchTerm(items, searchTerm, properties + extra)
  {
    var term := SearchKey(searchTerm);
    forall x | x in FilterBySearchTerm(items, searchTerm, properties)
      ensures x in FilterBySearchTerm(items, searchTerm, properties + extra)
    {
      if searchTerm != "" {
        var k :| 0 <= k < |properties| && PropertyMatches(x, properties[k], term);
        assert (properties + extra)[k] == properties[k];
      }
    }
  }

  // ---------------------------------------------------------------------------
  // truncateText

  /** `text.substring(0, maxLength) + '...'` when the text is longer than `maxLength`;
      `substring` treats a negative end as 0. */
  function TruncateText(text: string, maxLength: int): (r: string)
    ensures |text| <= maxLength ==> r == text
    ensures |text| > maxLength ==>
      var kept := if maxLength < 0 then 0 else maxLength;
      && |r| == kept + 3
      && r[..kept] == text[..kept]
      && r[kept..] == "..."
  {
    if |text| <= maxLength then text
    else text[..if maxLength < 0 then 0 else maxLength] + "..."
  }

  /** Truncating twice with the same length is truncating once. */
  lemma TruncateIdempotent(text: string, maxLength: int)
    ensures TruncateText(TruncateText(text, maxLength), maxLength) == TruncateText(text, maxLength)
  {
    var once := TruncateText(text, maxLength);
    if |text| > maxLength {
      var kept := if maxLength < 0 then 0 else maxLength;
      assert once[..kept] == text[..kept];
    }
  }

  // ---------------------------------------------------------------------------
  // formatDuration

  /** JavaScript's `a % b` for a positive `b`: the remainder takes the sign of `a`. */
  function JsRem(a: int, b: int): (r: int)
    requires b > 0
    ensures a >= 0 ==> 0 <= r < b
    ensures a < 0 ==> -b < r <= 0
    ensures a >= 0 ==> r == a % b
  {
    if a >= 0 then a % b else -((-a) % b)
  }

  /** `s.padStart(2, '0')`. */
  function Pad2(s: string): (r: string)
    ensures |r| == if |s| < 2 then 2 else |s|
    ensures r[|r| - |s|..] == s
    ensures forall i :: 0 <= i < |r| - |s| ==> r[i] == '0'
    decreases 2 - |s|
  {
    if |s| >= 2 then s else Pad2(['0'] + s)
  }

  /** `mins > 0 ? mins.toString().padStart(2, '0') : '00'`. */
  function MinuteText(mins: int): string {
    if mins > 0 then Pad2(NatToString(mins)) else "00"
  }

  /** The value of a two-digit text. */
  lemma TwoDigitsValue(hi: char, lo: char)
    requires IsDigit(hi) && IsDigit(lo)
    ensures AllDigits([hi, lo]) && DigitsValue([hi, lo]) == DigitValue(hi) * 10 + DigitValue(lo)
  {
    assert [hi, lo][..1] == [hi];
    assert [hi][..0] == [];
    assert DigitsValue([hi]) == DigitValue(hi);
    assert DigitsValue([hi, lo]) == DigitsValue([hi]) * 10 + DigitValue(lo);
  }

  /** A number below 100 is written with at most two digits. */
  lemma SmallNatToString(n: nat)
    requires n < 100
    ensures n < 10 ==> NatToString(n) == [DigitChar(n)]
    ensures n >= 10 ==> NatToString(n) == [DigitChar(n / 10), DigitChar(n % 10)]
  {
  }

  /** Two digits that denote the remainder when it is positive, and zero otherwise. */
  lemma MinuteTextDigits(mins: int)
    requires -60 < mins < 60
    ensures |MinuteText(mins)| == 2 && AllDigits(MinuteText(mins))
    ensures DigitsValue(MinuteText(mins)) == if mins > 0 then mins else 0
  {
    if mins >= 10 {
      SmallNatToString(mins);
      TwoDigitsValue(DigitChar(mins / 10), DigitChar(mins % 10));
    } else if mins > 0 {
      SmallNatToString(mins);
      assert MinuteText(mins) == ['0', DigitChar(mins)];
      TwoDigitsValue('0', DigitChar(mins));
    } else {
      TwoDigitsValue('0', '0');
    }
  }

  /** `formatDuration(minutes)`: whole hours (rounded down), `h`, then two digits of
      minutes, which read `00` whenever `%` leaves nothing positive. */
  function FormatDuration(minutes: int): (r: string)
    ensures |r| >= 4 && r[|r| - 3] == 'h' && AllDigits(r[|r| - 2..])
    ensures minutes < 0 ==> r[|r| - 2..] == "00"
  {
    var hours := minutes / 60;   // Math.floor: Dafny's division by a positive number rounds down
    var mins := JsRem(minutes, 60);
    MinuteTextDigits(mins);
    HoursAndMinutes(IntToString(hours), MinuteText(mins));
    IntToString(hours) + "h" + MinuteText(mins)
  }

  /** Where the parts of `XhMM` sit. */
  lemma HoursAndMinutes(hours: string, two: string)
    requires |two| == 2
    ensures var r := hours + "h" + two;
      |r| == |hours| + 3 && r[|r| - 3] == 'h' && r[|r| - 2..] == two && r[..|r| - 3] == hours
  {
    var r := hours + "h" + two;
    assert r[|hours| + 1..] == two;
    assert r[..|hours|] == hours;
  }

  /** Reads back a `XhMM` text with a non-negative hour count. */
  function ParseDuration(s: string): (r: Option<int>)
    ensures r.Some? ==> r.value >= 0
  {
    if |s| >= 4 && s[|s| - 3] == 'h' && AllDigits(s[..|s| - 3]) && AllDigits(s[|s| - 2..])
    then Some(DigitsValue(s[..|s| - 3]) * 60 + DigitsValue(s[|s| - 2..]))
    else None
  }

  /** A non-negative duration is read back exactly from its text. */
  lemma DurationRoundTrip(minutes: int)
    requires minutes >= 0
    ensures ParseDuration(FormatDuration(minutes)) == Some(minutes)
  {
    DurationText(minutes);
    ReadParts(minutes / 60, JsRem(minutes, 60));
    HoursThenMinutes(minutes);
  }

  /** For a non-negative duration, the text is the digits of the hours, `h`, then the
      minute digits. */
  lemma DurationText(minutes: int)
    requires minutes >= 0
    ensures FormatDuration(minutes) == NatToString(minutes / 60) + "h" + MinuteText(JsRem(minutes, 60))
  {
  }

  /** The text of `hours` and `mins` reads back as their value in minutes. */
  lemma ReadParts(hours: nat, mins: int)
    requires 0 <= mins < 60
    ensures ParseDuration(NatToString(hours) + "h" + MinuteText(mins)) == Some(hours * 60 + mins)
  {
    var text, two := NatToString(hours), MinuteText(mins);
    MinuteTextDigits(mins);
    NatToStringRoundTrip(hours);
    ParseHoursAndMinutes(text, two, hours, mins);
  }

  /** Whole hours and the remainder make up the duration again. */
  lemma HoursThenMinutes(minutes: int)
    requires minutes >= 0
    ensures minutes / 60 * 60 + JsRem(minutes, 60) == minutes
  {
  }

  /** Reading `XhMM` built from digit texts gives back their values. */
  lemma ParseHoursAndMinutes(hours: string, two: string, h: int, m: int)
    requires |hours| >= 1 && AllDigits(hours) && |two| == 2 && AllDigits(two)
    requires DigitsValue(hours) == h && DigitsValue(two) == m
    ensures ParseDuration(hours + "h" + two) == Some(h * 60 + m)
  {
    HoursAndMinutes(hours, two);
  }

  /** Negative durations lose their minutes: -30 minutes is written `-1h00`. */
  lemma NegativeHalfHour()
    ensures FormatDuration(-30) == "-1h00"
  {
  }

  // ---------------------------------------------------------------------------
  // formatRelativeTime

  datatype TimeUnit = Minute | Hour | Day | Week | Month | Year

  /** The elapsed time a label shows: "just now", or a count of some unit. */
  datatype Elapsed = JustNow | Ago(count: int, unit: TimeUnit)

  const SecondsPerDay := 86400

  /** The label's words for `unit`, plural when the count is above one (`mois` has no plural). */
  function UnitWord(unit: TimeUnit, count: int): string {
    var plural := if count > 1 then "s" else "";
    match unit
    case Minute => "minute" + plural
    case Hour => "heure" + plural
    case Day => "jour" + plural
    case Week => "semaine" + plural
    case Month => "mois"
    case Year => "an" + plural
  }

  /** The text shown for an elapsed time. */
  function Render(e: Elapsed): string {
    match e
    case JustNow => "À l'instant"
    case Ago(n, unit) => "Il y a " + IntToString(n) + " " + UnitWord(unit, n)
  }

  /** Every count label starts with "Il y a ", which "À l'instant" does not. */
  lemma RenderStart(e: Elapsed)
    ensures e.Ago? ==> |Render(e)| > 7 && Render(e)[..7] == "Il y a "
    ensures e.Ago? ==> Render(e) != "À l'instant"
  {
    if e.Ago? {
      assert Render(e)[0] == 'I';
    }
  }

  /** The unit choice of `formatRelativeTime`, as written, for `diffMs` milliseconds between
      the date and now. */
  function RelativeAsWritten(diffMs: int): Elapsed {
    var s := diffMs / 1000;
    if s < 60 then JustNow
    else
      var minutes := s / 60;
      if minutes < 60 then Ago(minutes, Minute)
      else
        var hours := minutes / 60;
        if hours < 24 then Ago(hours, Hour)
        else
          var days := hours / 24;
          if days < 7 then Ago(days, Day)
          else if days / 7 < 4 then Ago(days / 7, Week)
          else if days / 30 < 12 then Ago(days / 30, Month)
          else Ago(days / 365, Year)
  }

  function FormatRelativeTimeAsWritten(diffMs: int): string {
    Render(RelativeAsWritten(diffMs))
  }

  /** 28 and 29 days ago fall between the last week and the first month: the label
      counts zero months. */
  lemma ZeroMonths()
    ensures RelativeAsWritten(28 * SecondsPerDay * 1000) == Ago(0, Month)
    ensures FormatRelativeTimeAsWritten(28 * SecondsPerDay * 1000) == "Il y a 0 mois"
  {
  }

  /** 360 to 364 days ago fall between the twelfth month and the first year: the label
      counts zero years. */
  lemma ZeroYears()
    ensures RelativeAsWritten(360 * SecondsPerDay * 1000) == Ago(0, Year)
    ensures FormatRelativeTimeAsWritten(360 * SecondsPerDay * 1000) == "Il y a 0 an"
  {
  }

  /** The unit choice with the month and year counts taken as at least one. */
  function RelativeTime(diffMs: int): (e: Elapsed)
    // each unit covers one band of whole seconds, and the bands follow each other
    ensures var s := diffMs / 1000;
      && (e == JustNow <==> s < 60)
      && (e.Ago? && e.unit == Minute <==> 60 <= s < 3600)
      && (e.Ago? && e.unit == Hour <==> 3600 <= s < SecondsPerDay)
      && (e.Ago? && e.unit == Day <==> SecondsPerDay <= s < 7 * SecondsPerDay)
      && (e.Ago? && e.unit == Week <==> 7 * SecondsPerDay <= s < 28 * SecondsPerDay)
      && (e.Ago? && e.unit == Month <==> 28 * SecondsPerDay <= s < 360 * SecondsPerDay)
      && (e.Ago? && e.unit == Year <==> 360 * SecondsPerDay <= s)
    // a count is never zero and stays below the next unit
    ensures e.Ago? ==> e.count >= 1
    ensures e.Ago? ==> match e.unit
      case Minute => e.count < 60
      case Hour => e.count < 24
      case Day => e.count < 7
      case Week => e.count < 4
      case Month => e.count < 12
      case Year => true
  {
    var s := diffMs / 1000;
    if s < 60 then JustNow
    else
      var minutes := s / 60;
      if minutes < 60 then Ago(minutes, Minute)
      else
        var hours := minutes / 60;
        if hours < 24 then Ago(hours, Hour)
        else
          var days := hours / 24;
          DaysOfSeconds(s);
          if days < 7 then Ago(days, Day)
          else if days / 7 < 4 then Ago(days / 7, Week)
          else if days / 30 < 12 then Ago(if days / 30 == 0 then 1 else days / 30, Month)
          else Ago(if days / 365 == 0 then 1 else days / 365, Year)
  }

  /** Taking whole minutes, then whole hours, then whole days is taking whole days. */
  lemma DaysOfSeconds(s: int)
    requires s >= 0
    ensures s / 60 / 60 / 24 == s / SecondsPerDay
    ensures s / 60 / 60 == s / 3600
  {
  }

  /** The text `formatRelativeTime` is meant to show. */
  function FormatRelativeTime(diffMs: int): (r: string)
    ensures diffMs < 60000 <==> r == "À l'instant"
  {
    RenderStart(RelativeTime(diffMs));
    Render(RelativeTime(diffMs))
  }

  /** The code as written counts zero months or years. */
  predicate ZeroCount(diffMs: int) {
    RelativeAsWritten(diffMs).Ago? && RelativeAsWritten(diffMs).count == 0
  }

  /** The code as written counts zero exactly from day 28 to day 29 and from day 360 to
      day 364. */
  lemma ZeroCountBands(diffMs: int)
    ensures var days := diffMs / 1000 / SecondsPerDay;
      ZeroCount(diffMs) <==> (28 <= days < 30 || 360 <= days < 365)
  {
  }

  /** The correction only touches the zero counts: everywhere else both agree. */
  lemma CorrectionOnlyTouchesZeroCounts(diffMs: int)
    requires !ZeroCount(diffMs)
    ensures RelativeTime(diffMs) == RelativeAsWritten(diffMs)
  {
  }

  /** The position of a unit in the order of growing durations. */
  function UnitRank(u: TimeUnit): nat {
    match u
    case Minute => 0
    case Hour => 1
    case Day => 2
    case Week => 3
    case Month => 4
    case Year => 5
  }

  /** `a` is no older than `b`. */
  predicate NoOlder(a: Elapsed, b: Elapsed) {
    a.JustNow? || (b.Ago? && (UnitRank(a.unit) < UnitRank(b.unit) || (a.unit == b.unit && a.count <= b.count)))
  }

  /** An older date never gets a younger label. */
  lemma RelativeTimeMonotone(d1: int, d2: int)
    requires d1 <= d2
    ensures NoOlder(RelativeTime(d1), RelativeTime(d2))
  {
    var e1, e2 := RelativeTime(d1), RelativeTime(d2);
    var s1, s2 := d1 / 1000, d2 / 1000;
    if e1.Ago? && e2.Ago? && e1.unit == e2.unit && s1 >= 60 {
      DaysOfSeconds(s1);
      DaysOfSeconds(s2);
      assert s1 / 60 <= s2 / 60;
      assert s1 / 3600 <= s2 / 3600;
      var day1, day2 := s1 / SecondsPerDay, s2 / SecondsPerDay;
      assert day1 <= day2;
      assert day1 / 7 <= day2 / 7;
      assert day1 / 30 <= day2 / 30;
      assert day1 / 365 <= day2 / 365;
    }
  }

  /** The first space after a number's digits is the one right after them. */
  lemma SpaceAfterDigits(n: nat, rest: string)
    ensures IndexOf(NatToString(n) + " " + rest, ' ') == Some(|NatToString(n)|)
  {
    var d := NatToString(n);
    var text := d + " " + rest;
    assert forall i :: 0 <= i < |d| ==> text[i] == d[i] && IsDigit(d[i]);
    assert text[|d|] == ' ';
  }

  /** The first two letters of a unit's word tell the units apart. */
  lemma UnitWordStart(unit: TimeUnit, count: int)
    ensures |UnitWord(unit, count)| >= 2
    ensures UnitWord(unit, count)[..2] == match unit
      case Minute => "mi"
      case Hour => "he"
      case Day => "jo"
      case Week => "se"
      case Month => "mo"
      case Year => "an"
  {
  }

  /** A number and a word separated by a space split back into the two. */
  lemma SplitNumberWord(m: nat, v: string, n: nat, w: string)
    requires NatToString(m) + " " + v == NatToString(n) + " " + w
    ensures m == n && v == w
  {
    var x := NatToString(m) + " " + v;
    SpaceAfterDigits(m, v);
    SpaceAfterDigits(n, w);
    assert NatToString(m) == x[..|NatToString(m)|] == NatToString(n);
    NatToStringInjective(m, n);
    assert v == x[|NatToString(m)| + 1..] == w;
  }

  /** The text of a count label after "Il y a ". */
  lemma RenderAgo(e: Elapsed)
    requires e.Ago? && e.count >= 0
    ensures Render(e)[..7] == "Il y a "
    ensures Render(e)[7..] == NatToString(e.count) + " " + UnitWord(e.unit, e.count)
  {
  }

  /** Different elapsed times with non-negative counts get different texts. */
  lemma RenderInjective(a: Elapsed, b: Elapsed)
    requires a.Ago? ==> a.count >= 0
    requires b.Ago? ==> b.count >= 0
    requires Render(a) == Render(b)
    ensures a == b
  {
    if a.Ago? && b.Ago? {
      RenderAgo(a);
      RenderAgo(b);
      SplitNumberWord(a.count, UnitWord(a.unit, a.count), b.count, UnitWord(b.unit, b.count));
      UnitWordStart(a.unit, a.count);
      UnitWordStart(b.unit, b.count);
    } else {
      RenderStart(a);
      RenderStart(b);
    }
  }
}
